=== FILE: README.md ===
# OICQ chat servers in Dafny

The OICQ repository has several small Java chat servers that grew side by
side. Each variant keeps its own in-memory state, and this project models
each one as its own Dafny module of immutable data and pure state
transitions:

- `FriendDirectory` and `FriendFiles` model the Maven server's `UserManager`.
  It holds accounts, friend lists and pending friend requests, where a friend
  list is a Java `List` that may repeat an id. It also writes the three flat
  files `id|username|password`, `a|b` and `sender|receiver`.
- `UserDirectory` models the QQ server's `UserManager`: register, login and the
  users file. The Maven server's account part is the same code line for line,
  so `FriendDirectory` reuses it; Maven `login`
  (SimpleQQ_Maven-master/simpleQQchat/server/src/main/java/com/simpleqq/server/UserManager.java:137-143) is `UserDirectory.Login`.
- `FriendSets` models the root `UserManager`, whose friend sets are kept
  symmetric by updating both sides at once.
- `Groups` models the root `GroupManager`, a map from group id to a member set.
- `SessionRegistry` models the QQ `Server`. It covers the online map, the
  join/leave notices, the `;`-joined online list, and broadcasting with
  eviction of handlers whose send fails.
- `QQHandler` models the QQ `ClientHandler`: one received message at a time,
  covering login and registration validation, chat fan-out and dispatch.
- `LineProtocol` models the root `ClientHandler`. It splits each text line on
  `|`, answers it, registers a `LOGIN`, and cleans up when the connection ends.
- `Common` holds the shared `Message` and `User` records and the two
  message-kind enumerations.
- `JavaStrings` gives Java's `split` (trailing empty pieces dropped, a string
  without the delimiter returned whole), `trim` and `contains` the meaning
  they have in Java. `compareTo` is lexicographic order on characters, with a
  proper prefix first.
- `Wrappers` holds `Option`. In the modules that take a `JString`, a Java
  `null` string is `None`; elsewhere an id is a plain `string`.

Things the servers get from outside become parameters:

- A hash map's iteration order is an `order` sequence that enumerates the
  keys. Where a new key enters the order when it is put is a `slot` number.
  The old keys keep their relative order (`SessionRegistry.Place`).
- The clock is a `now` value.
- Which handlers' streams fail is a `dead` set of connections.
- A file is text. Saving writes each record followed by the platform line
  separator, `\n` or `\r\n` (`JavaStrings.WriteLines`). Loading reads it back
  line by line as `readLine` does, where `\n`, `\r` and `\r\n` each end a line
  (`JavaStrings.ReadLines`).

In these places the model follows the code:

- `createGroup` does not make anybody a member.
- Chat fan-out skips handlers by the message's `senderId` field, not by the
  connection that sent it.
- `removeClient` broadcasts the leave notice and the online list for any
  non-null id, online or not.
- `sendFriendRequest` only looks for a pending request in the same direction.
- `deleteFriend` may leave one of two removals in memory while reporting
  failure. That state cannot arise while friend lists are symmetric and no
  list names its own owner (`FriendDirectory.Valid`). Symmetry alone is not
  enough: a user listed once as its own friend loses that entry and the
  call reports failure (`FriendDirectory.SelfEntryHalfDelete`).

## Model

| member | source | states |
|---|---|---|
| Common.NewMessage | project/SimpleQQ_Maven-master/simpleQQchat/common/src/main/java/com/simpleqq/common/Message.java:20-26 | A new message keeps the kind, sender, receiver and content it is given; its timestamp is the clock reading passed in. |
| Common.SetKind | project/SimpleQQ_Maven-master/simpleQQchat/common/src/main/java/com/simpleqq/common/Message.java:45-47 | `setType` changes the kind; sender, receiver, timestamp and content keep their values. |
| Common.SetSenderId | project/SimpleQQ_Maven-master/simpleQQchat/common/src/main/java/com/simpleqq/common/Message.java:50-52 | `setSenderId` changes the sender; the other four fields keep their values. |
| Common.SetReceiverId | project/SimpleQQ_Maven-master/simpleQQchat/common/src/main/java/com/simpleqq/common/Message.java:55-57 | `setReceiverId` changes the receiver; the other four fields keep their values. |
| Common.SetTimestamp | project/SimpleQQ_Maven-master/simpleQQchat/common/src/main/java/com/simpleqq/common/Message.java:60-62 | `setTimestamp` changes the timestamp; the other four fields keep their values. |
| Common.SetContent | project/SimpleQQ_Maven-master/simpleQQchat/common/src/main/java/com/simpleqq/common/Message.java:65-67 | `setContent` changes the content; the other four fields keep their values. |
| Common.MessageToString | project/SimpleQQ_Maven-master/simpleQQchat/common/src/main/java/com/simpleqq/common/Message.java:69-78 | The text contains the sender, the receiver and the content, each written as `null` when absent. |
| Common.NewUser | project/SimpleQQ_Maven-master/simpleQQchat/common/src/main/java/com/simpleqq/common/User.java:18-23 | A new user keeps the id, user name and password it is given and starts offline. |
| Common.SetOnline | project/SimpleQQ_Maven-master/simpleQQchat/common/src/main/java/com/simpleqq/common/User.java:47-49 | `setOnline(b)` makes the flag `b`; id, user name and password keep their values. |
| Common.UserToString | project/SimpleQQ_Maven-master/simpleQQchat/common/src/main/java/com/simpleqq/common/User.java:55-63 | The text contains the id, the user name and the password. |
| JavaStrings.RawSplit | QQ/server/src/main/java/com/simpleqq/server/UserManager.java:22 | The pieces between delimiters: at least one, none containing the delimiter, and exactly one when the delimiter does not occur. |
| JavaStrings.DropTrailingEmpty | QQ/server/src/main/java/com/simpleqq/server/UserManager.java:22 | `split` with limit 0 drops empty pieces only at the end: the result is a prefix of the pieces, does not end with an empty piece, and everything cut off is empty. |
| JavaStrings.Split | ClientHandler.java:33 | No piece of `split` contains the delimiter; its exact shape is given by `SplitJoin` and `SplitEmpty`. |
| JavaStrings.RawSplitJoin | QQ/server/src/main/java/com/simpleqq/server/UserManager.java:22 | Joining the raw pieces with the delimiter gives back the split string. |
| JavaStrings.JoinRawSplit | QQ/server/src/main/java/com/simpleqq/server/UserManager.java:39 | Raw-splitting a join of delimiter-free pieces gives back the pieces. |
| JavaStrings.RawSplitAllEmpty | ClientHandler.java:33-34 | Every raw piece is empty exactly when the string consists of delimiters only. |
| JavaStrings.SplitEmpty | ClientHandler.java:33-34 | `split` returns no piece exactly for a non-empty string of delimiters only; the empty string gives one empty piece. |
| JavaStrings.SplitJoin | SimpleQQ_Maven-master/simpleQQchat/server/src/main/java/com/simpleqq/server/UserManager.java:63-64 | `split` recovers the pieces of a join when no piece contains the delimiter and the last piece is not empty (or is the only one). |
| JavaStrings.SplitPair | SimpleQQ_Maven-master/simpleQQchat/server/src/main/java/com/simpleqq/server/UserManager.java:63-65 | The two-field line `a|b` splits into `[a, b]` when `b` is not empty. |
| JavaStrings.SplitTriple | QQ/server/src/main/java/com/simpleqq/server/UserManager.java:22-24 | The three-field line `a|b|c` splits into `[a, b, c]` when `c` is not empty. |
| JavaStrings.Trim | QQ/server/src/main/java/com/simpleqq/server/ClientHandler.java:133-134 | `trim` returns the part of the string between a blank prefix and a blank suffix; the part neither starts nor ends with a character up to U+0020, and it is empty exactly when the string is blank. |
| JavaStrings.TrimTrimmed | QQ/server/src/main/java/com/simpleqq/server/ClientHandler.java:133-134 | A string that neither starts nor ends with such a character is its own `trim`. |
| JavaStrings.Less | SimpleQQ_Maven-master/simpleQQchat/server/src/main/java/com/simpleqq/server/UserManager.java:83 | `compareTo(b) < 0`: a string never sorts before itself, and a proper prefix sorts before every longer string that starts with it. |
| JavaStrings.WriteLines | QQ/server/src/main/java/com/simpleqq/server/UserManager.java:36-46 | `write` followed by `newLine` for each record: the file is empty exactly when no record was written, and each record is followed by the line separator `\n` or `\r\n`. |
| JavaStrings.ReadLines | QQ/server/src/main/java/com/simpleqq/server/UserManager.java:19-21 | The `readLine` loop returns only lines free of `\n` and `\r`, and reads no line from an empty file; a last line without a terminator is still returned. |
| JavaStrings.ReadWriteLines | QQ/server/src/main/java/com/simpleqq/server/UserManager.java:18-46 | Reading back a file written with either separator gives exactly the records written, provided no record contains `\n` or `\r`. |
| JavaStrings.LineBreakSplitsRecord | QQ/server/src/main/java/com/simpleqq/server/UserManager.java:21-22 | A record holding a `\n` is read back as two lines, which is why the round trips require line-free fields. |
| JavaStrings.LessTrichotomy | SimpleQQ_Maven-master/simpleQQchat/server/src/main/java/com/simpleqq/server/UserManager.java:83 | `compareTo` orders two different strings exactly one way round, and equal strings neither way. |
| JavaStrings.LessIrreflexive | SimpleQQ_Maven-master/simpleQQchat/server/src/main/java/com/simpleqq/server/UserManager.java:83 | No string sorts before itself. |
| UserDirectory.RegisterUser | QQ/server/src/main/java/com/simpleqq/server/UserManager.java:48-56 | The call is refused exactly when the id is taken, and then nothing changes. Otherwise exactly one offline account with the given fields is added, and every other account stays as it was. |
| UserDirectory.Login | QQ/server/src/main/java/com/simpleqq/server/UserManager.java:58-64 | Returns the stored account exactly when the id is known and its password equals the given one; otherwise `null`. |
| UserDirectory.GetUserById | QQ/server/src/main/java/com/simpleqq/server/UserManager.java:66-68 | Returns the account stored under the id, or `null` when there is none. |
| UserDirectory.RegisterThenLogin | QQ/server/src/main/java/com/simpleqq/server/UserManager.java:48-64 | After registering a fresh id, logging in with its password returns an account with that id and user name. |
| UserDirectory.RegisterTwice | QQ/server/src/main/java/com/simpleqq/server/UserManager.java:48-51 | A second registration of the same id fails and leaves every account as it was. |
| UserDirectory.DecodeUser | QQ/server/src/main/java/com/simpleqq/server/UserManager.java:22-25 | A users-file line is read exactly when it splits on `|` into three fields, and the account read starts offline. |
| UserDirectory.EncodeUser | QQ/server/src/main/java/com/simpleqq/server/UserManager.java:39 | The saved line of an account with line-free, `|`-free fields and a non-empty password is one line that splits on `|` into exactly its id, user name and password. |
| UserDirectory.DecodeEncodeUser | QQ/server/src/main/java/com/simpleqq/server/UserManager.java:22-39 | The line written for an offline account reads back as that account when no field contains `|`, `\n` or `\r` and the password is not empty. |
| UserDirectory.LoadUsers | QQ/server/src/main/java/com/simpleqq/server/UserManager.java:18-34 | Every loaded account is stored under its own id and is offline. |
| UserDirectory.SaveUsers | QQ/server/src/main/java/com/simpleqq/server/UserManager.java:36-46 | `saveUsers` writes at most one line per visited id, exactly one per id when every visited id has an account, and only single lines when the fields are storable. |
| UserDirectory.LoadSavePrefix | QQ/server/src/main/java/com/simpleqq/server/UserManager.java:18-46 | Loading the lines saved while visiting some of the ids restores exactly the accounts of the visited ids. |
| UserDirectory.LoadSaveUsers | QQ/server/src/main/java/com/simpleqq/server/UserManager.java:18-46 | Users-file round trip: saving every account in any iteration order, writing the lines with either separator, reading the file and loading it gives back the same directory. |
| FriendDirectory.Append | SimpleQQ_Maven-master/simpleQQchat/server/src/main/java/com/simpleqq/server/UserManager.java:159 | `computeIfAbsent(k, …).add(v)`: the key is present afterwards and its list gains `v` at the end. No other list changes, and exactly one count rises by one. |
| FriendDirectory.RemoveFirst | SimpleQQ_Maven-master/simpleQQchat/server/src/main/java/com/simpleqq/server/UserManager.java:166 | `List.remove(x)` changes nothing when `x` is absent; otherwise it removes the first occurrence of `x` and keeps the other elements in their order. |
| FriendDirectory.RemoveAt | SimpleQQ_Maven-master/simpleQQchat/server/src/main/java/com/simpleqq/server/UserManager.java:194-195 | Removing `v` from the list of `k` keeps the keys and lowers only the count of `v` under `k`, by one when `v` was there. |
| FriendDirectory.GetFriends | SimpleQQ_Maven-master/simpleQQchat/server/src/main/java/com/simpleqq/server/UserManager.java:216-218 | The friend list, or the empty list for an id without one; it contains `b` exactly when `areFriends(id, b)`. |
| FriendDirectory.GetPendingFriendRequests | SimpleQQ_Maven-master/simpleQQchat/server/src/main/java/com/simpleqq/server/UserManager.java:220-222 | The senders waiting on the id, or the empty list for an id without a pending list. |
| FriendDirectory.AreFriends | SimpleQQ_Maven-master/simpleQQchat/server/src/main/java/com/simpleqq/server/UserManager.java:211-214 | `areFriends(a, b)` holds exactly when `b` occurs at least once in the friend list of `a`; an id without a list has no friends. |
| FriendDirectory.RegisterUser | SimpleQQ_Maven-master/simpleQQchat/server/src/main/java/com/simpleqq/server/UserManager.java:127-135 | Registration succeeds exactly for a new id and then adds one offline account; friend lists and pending requests are untouched. |
| FriendDirectory.SendFriendRequest | SimpleQQ_Maven-master/simpleQQchat/server/src/main/java/com/simpleqq/server/UserManager.java:146-162 | The request succeeds exactly when both ids are known and different, they are not friends, and this sender is not already waiting on this receiver. A refusal changes nothing; a success appends the sender to the receiver's pending list and touches no other list. |
| FriendDirectory.AcceptFriendRequest | SimpleQQ_Maven-master/simpleQQchat/server/src/main/java/com/simpleqq/server/UserManager.java:164-175 | The accept succeeds exactly when the sender is waiting on the receiver. A refusal changes nothing. On success the first such request leaves the receiver's list, the others keep their order, and the receiver keeps its list even when it empties. Each side's friend list gains the other at its end; every other list is unchanged. |
| FriendDirectory.RejectFriendRequest | SimpleQQ_Maven-master/simpleQQchat/server/src/main/java/com/simpleqq/server/UserManager.java:177-184 | The reject succeeds exactly when the sender is waiting on the receiver. On success the first such request leaves the receiver's list, the others keep their order, every key stays, and friendships are untouched; a refusal changes nothing. |
| FriendDirectory.DropIfEmpty | SimpleQQ_Maven-master/simpleQQchat/server/src/main/java/com/simpleqq/server/UserManager.java:199-204 | Dropping a list that became empty changes no lookup and no count; the key goes only when its list was empty. |
| FriendDirectory.DeleteFriend | SimpleQQ_Maven-master/simpleQQchat/server/src/main/java/com/simpleqq/server/UserManager.java:186-209 | The call is refused with no change when either id has no friend list. On success the two were friends both ways, each list loses the first entry naming the other with the rest in order, every other list is unchanged, and only lists left empty disappear. |
| FriendDirectory.DeleteFriendCounts | SimpleQQ_Maven-master/simpleQQchat/server/src/main/java/com/simpleqq/server/UserManager.java:194-204 | After both removals and the dropping of empty lists, every count is the old one, less one for `a` under `b` and one for `b` under `a`. |
| FriendDirectory.SendKeepsValid | SimpleQQ_Maven-master/simpleQQchat/server/src/main/java/com/simpleqq/server/UserManager.java:146-162 | A send keeps the invariant: symmetric friend counts, no self-friendship, no empty friend list, no request to oneself. |
| FriendDirectory.AcceptKeepsValid | SimpleQQ_Maven-master/simpleQQchat/server/src/main/java/com/simpleqq/server/UserManager.java:164-175 | An accept keeps the invariant. |
| FriendDirectory.RejectKeepsValid | SimpleQQ_Maven-master/simpleQQchat/server/src/main/java/com/simpleqq/server/UserManager.java:177-184 | A reject keeps the invariant. |
| FriendDirectory.DeleteKeepsValid | SimpleQQ_Maven-master/simpleQQchat/server/src/main/java/com/simpleqq/server/UserManager.java:186-209 | A delete keeps the invariant, whether or not it succeeds. |
| FriendDirectory.RegisterKeepsValid | SimpleQQ_Maven-master/simpleQQchat/server/src/main/java/com/simpleqq/server/UserManager.java:127-135 | A registration keeps the invariant. |
| FriendDirectory.DeleteFriendExact | SimpleQQ_Maven-master/simpleQQchat/server/src/main/java/com/simpleqq/server/UserManager.java:186-209 | Under the invariant, deleting a friendship between two different ids succeeds exactly when they are friends, and a refusal changes nothing. |
| FriendDirectory.AreFriendsSymmetric | SimpleQQ_Maven-master/simpleQQchat/server/src/main/java/com/simpleqq/server/UserManager.java:211-214 | Under the invariant `areFriends(a, b)` and `areFriends(b, a)` agree. |
| FriendDirectory.SendThenAccept | SimpleQQ_Maven-master/simpleQQchat/server/src/main/java/com/simpleqq/server/UserManager.java:146-175 | Between registered strangers a sent request is accepted, and each then lists the other exactly once. |
| FriendDirectory.DeleteOnlyLink | SimpleQQ_Maven-master/simpleQQchat/server/src/main/java/com/simpleqq/server/UserManager.java:186-209 | Deleting a friend who is listed once ends the friendship in both directions. |
| FriendDirectory.FriendRequestLifecycle | SimpleQQ_Maven-master/simpleQQchat/server/src/main/java/com/simpleqq/server/UserManager.java:146-209 | Between registered strangers: the request is sent and accepted, after which both are friends and the request is gone. One `deleteFriend` then ends the friendship both ways. |
| FriendDirectory.CrossedRequestsDuplicateFriendship | SimpleQQ_Maven-master/simpleQQchat/server/src/main/java/com/simpleqq/server/UserManager.java:154-157 | As written: two strangers can each send a request to the other. After both are accepted each lists the other twice, and one `deleteFriend` leaves them friends. |
| FriendDirectory.CrossedAcceptsListTwice | SimpleQQ_Maven-master/simpleQQchat/server/src/main/java/com/simpleqq/server/UserManager.java:146-175 | Both crossed requests are sent and both accepts succeed; each side then lists the other twice. |
| FriendDirectory.ListedTwiceSurvivesDelete | SimpleQQ_Maven-master/simpleQQchat/server/src/main/java/com/simpleqq/server/UserManager.java:186-209 | A friend listed twice is still a friend, both ways, after one successful `deleteFriend`. |
| FriendDirectory.SendFriendRequestChecked | SimpleQQ_Maven-master/simpleQQchat/server/src/main/java/com/simpleqq/server/UserManager.java:146-162 | Corrected send: also refused when the receiver is already waiting on the sender. Otherwise it behaves as the original: one request added and nothing else changed. |
| FriendDirectory.CheckedSendKeepsOneLink | SimpleQQ_Maven-master/simpleQQchat/server/src/main/java/com/simpleqq/server/UserManager.java:146-162 | The corrected send keeps at most one link between any two users: a request one way, a request the other way, or a friendship. |
| FriendDirectory.AcceptKeepsOneLink | SimpleQQ_Maven-master/simpleQQchat/server/src/main/java/com/simpleqq/server/UserManager.java:164-175 | An accept turns the one request into the one friendship, so at most one link remains. |
| FriendDirectory.RejectKeepsOneLink | SimpleQQ_Maven-master/simpleQQchat/server/src/main/java/com/simpleqq/server/UserManager.java:177-184 | A reject keeps at most one link. |
| FriendDirectory.DeleteKeepsOneLink | SimpleQQ_Maven-master/simpleQQchat/server/src/main/java/com/simpleqq/server/UserManager.java:186-209 | A delete keeps at most one link. |
| FriendDirectory.DeleteSelfUnchanged | SimpleQQ_Maven-master/simpleQQchat/server/src/main/java/com/simpleqq/server/UserManager.java:186-197 | Under the invariant, deleting oneself as a friend changes nothing. |
| FriendDirectory.SelfEntryHalfDelete | SimpleQQ_Maven-master/simpleQQchat/server/src/main/java/com/simpleqq/server/UserManager.java:186-209 | Symmetric lists where a user names itself once: `deleteFriend` of that user with itself empties the list, keeps it, and reports false. |
| FriendDirectory.DeleteEndsFriendship | SimpleQQ_Maven-master/simpleQQchat/server/src/main/java/com/simpleqq/server/UserManager.java:186-209 | With at most one link between users, one `deleteFriend` between friends succeeds and ends the friendship both ways. |
| FriendFiles.DecodePair | SimpleQQ_Maven-master/simpleQQchat/server/src/main/java/com/simpleqq/server/UserManager.java:63-64 | A friendships or requests line is read exactly when it splits on `|` into two fields. |
| FriendFiles.PairLine | SimpleQQ_Maven-master/simpleQQchat/server/src/main/java/com/simpleqq/server/UserManager.java:84 | The line `a|b` of line-free ids is one line, and it splits into `[a, b]` when neither id contains `|` and `b` is not empty. |
| FriendFiles.DecodePairLine | SimpleQQ_Maven-master/simpleQQchat/server/src/main/java/com/simpleqq/server/UserManager.java:63-84 | The line `a|b` written from `|`-free ids reads back as the pair, provided `b` is not empty. |
| FriendFiles.AddPair | SimpleQQ_Maven-master/simpleQQchat/server/src/main/java/com/simpleqq/server/UserManager.java:62-67 | A line that does not split into two fields changes nothing. A readable line `a|b` adds both ids as keys, appends `b` to the list of `a` and `a` to the list of `b`, and changes no other count. |
| FriendFiles.LoadLine | SimpleQQ_Maven-master/simpleQQchat/server/src/main/java/com/simpleqq/server/UserManager.java:62-67 | One friendships line read: an unreadable line changes nothing, a readable one adds exactly its two ids as keys, and no friend list becomes empty. |
| FriendFiles.LoadFriendships | SimpleQQ_Maven-master/simpleQQchat/server/src/main/java/com/simpleqq/server/UserManager.java:59-75 | Loading never creates an empty friend list. |
| FriendFiles.LoadFriendshipsCount | SimpleQQ_Maven-master/simpleQQchat/server/src/main/java/com/simpleqq/server/UserManager.java:59-75 | After loading, `y` occurs in `x`'s list once for every readable line pairing them, in either order. |
| FriendFiles.LoadFriendshipsSymmetric | SimpleQQ_Maven-master/simpleQQchat/server/src/main/java/com/simpleqq/server/UserManager.java:62-67 | Whatever the file holds, the loaded friend lists are symmetric, because each line adds both directions. |
| FriendFiles.FriendshipLines | SimpleQQ_Maven-master/simpleQQchat/server/src/main/java/com/simpleqq/server/UserManager.java:80-87 | The lines saved for one key: one `k|v` for each `v` in its list that sorts after `k`, and no line for any other entry. |
| FriendFiles.SaveFriendships | SimpleQQ_Maven-master/simpleQQchat/server/src/main/java/com/simpleqq/server/UserManager.java:77-93 | Every friend pair `k|v` with `k` visited and `k` sorting before `v` is saved, and the lines are single lines when the ids are storable. |
| FriendFiles.LoadSaveFriendships | SimpleQQ_Maven-master/simpleQQchat/server/src/main/java/com/simpleqq/server/UserManager.java:59-93 | Friendships round trip through a text file written with either separator, with list order not kept. Take friend lists that are symmetric, have no self-entries and no empty lists, and whose ids are free of `|`, `\n` and `\r`. Saving them in any iteration order, writing and reading the file and loading it gives every user the same friends, each as often as before. |
| FriendFiles.LoadFriendRequests | SimpleQQ_Maven-master/simpleQQchat/server/src/main/java/com/simpleqq/server/UserManager.java:95-110 | Loading never creates an empty pending list. |
| FriendFiles.LoadRequestsLookup | SimpleQQ_Maven-master/simpleQQchat/server/src/main/java/com/simpleqq/server/UserManager.java:95-110 | After loading, the senders waiting on `r` are those of the readable lines naming `r` as receiver, in file order. |
| FriendFiles.RequestLines | SimpleQQ_Maven-master/simpleQQchat/server/src/main/java/com/simpleqq/server/UserManager.java:115-119 | The lines saved for one receiver: one `sender|receiver` per entry of its pending list, in list order. |
| FriendFiles.SaveFriendRequests | SimpleQQ_Maven-master/simpleQQchat/server/src/main/java/com/simpleqq/server/UserManager.java:112-125 | Every pending request of a visited receiver is saved as `sender|receiver`, and the lines are single lines when the ids are storable. |
| FriendFiles.SendersSave | SimpleQQ_Maven-master/simpleQQchat/server/src/main/java/com/simpleqq/server/UserManager.java:112-125 | The saved requests name, as senders waiting on `r`, exactly `r`'s pending list when `r` was visited, and nobody otherwise. |
| FriendFiles.LoadSaveFriendRequests | SimpleQQ_Maven-master/simpleQQchat/server/src/main/java/com/simpleqq/server/UserManager.java:95-125 | Friend-requests round trip through a text file written with either separator: every receiver gets back the same senders in the same order. Only receivers whose list had become empty are gone. |
| FriendSets.AddUser | UserManager.java:18-24 | `null` and empty ids change nothing. Otherwise the id becomes a key, an existing user keeps their friend set, and a new user starts with none. |
| FriendSets.AddFriend | UserManager.java:33-47 | Succeeds exactly when both ids are real and different, both users exist and they are not yet friends. A refusal changes nothing; a success adds exactly the two directions. |
| FriendSets.DeleteFriend | UserManager.java:56-70 | Succeeds exactly when both ids are real, both users exist and the second is in the first's set. A refusal changes nothing; a success removes exactly the two directions. |
| FriendSets.AddUserKeepsValid | UserManager.java:18-24 | Adding a user keeps friendship mutual, between known users and without self-friendship. |
| FriendSets.AddFriendKeepsValid | UserManager.java:42-43 | `addFriend` keeps that invariant, because both sides are updated together. |
| FriendSets.DeleteFriendKeepsValid | UserManager.java:65-66 | `deleteFriend` keeps that invariant, because both sides are updated together. |
| FriendSets.AddUserIdempotent | UserManager.java:23 | Adding a user twice is the same as adding them once. |
| FriendSets.AddThenDelete | UserManager.java:33-70 | On a valid map, `deleteFriend` undoes a successful `addFriend` and itself succeeds. |
| FriendSets.DeleteThenAdd | UserManager.java:33-70 | On a valid map, `addFriend` undoes a successful `deleteFriend` and itself succeeds. |
| Groups.CreateGroup | GroupManager.java:20-26 | Succeeds exactly for a real id that is not yet a group. The new group has no members, and existing groups keep theirs. |
| Groups.AddUserToGroup | GroupManager.java:35-46 | Succeeds exactly when both ids are real and the group exists. The user is then a member whether or not they were before, and no other group changes. |
| Groups.RemoveUserFromGroup | GroupManager.java:55-66 | Succeeds exactly when both ids are real, the group exists and the user is in it. Then only that user leaves, and no other group changes. |
| Groups.GetGroupUsers | GroupManager.java:74-80 | The exact member set, or the empty set for a `null`, empty or unknown id. |
| Groups.AddThenListed | GroupManager.java:40-44 | After a successful add the user is among the group's users. |
| Groups.AddUserTwice | GroupManager.java:40-44 | Adding a member twice is the same as adding them once. |
| Groups.AddThenRemove | GroupManager.java:35-66 | Removing a user just added to a group they were not in restores the groups. |
| Groups.RemoveThenAdd | GroupManager.java:35-66 | Adding back a member just removed restores the groups. |
| Groups.OperationsKeepRealMembers | GroupManager.java:20-66 | No operation stores an empty member id. |
| SessionRegistry.Broadcast | QQ/server/src/main/java/com/simpleqq/server/Server.java:58-72 | The message reaches exactly the online handlers whose send works. A handler whose send fails loses the entry under its own `userId`, and every other entry stays. |
| SessionRegistry.BroadcastEvictsDead | QQ/server/src/main/java/com/simpleqq/server/Server.java:58-72 | When every online entry points at a handler bound to that key, exactly the failed handlers' entries disappear, and that property still holds afterwards. |
| SessionRegistry.Place | QQ/server/src/main/java/com/simpleqq/server/Server.java:32 | `onlineClients.put`: the iteration order afterwards enumerates the old keys and the id. The old keys keep their relative order, and a new id falls at the given slot. |
| SessionRegistry.PlaceCovers | QQ/server/src/main/java/com/simpleqq/server/Server.java:32 | Every iteration order that enumerates the old keys plus a new id, with the old keys in their old order, is the result of `Place` for some slot. |
| SessionRegistry.Terminated | QQ/server/src/main/java/com/simpleqq/server/Server.java:76-78 | The appending loop writes the ids joined by `;` with one more `;` at the end. |
| SessionRegistry.UserListPayload | QQ/server/src/main/java/com/simpleqq/server/Server.java:74-81 | Once the last `;` is cut off, the payload is the online ids joined by `;`, and the empty string when nobody is online. |
| SessionRegistry.ParseUserList | project/SimpleQQ_Maven-master/simpleQQchat/client/ChatWindow.java:162-169 | The client reads the empty payload as nobody and a payload without `;` as one id. |
| SessionRegistry.ParseUserListPayload | QQ/server/src/main/java/com/simpleqq/server/Server.java:74-81 | For non-empty, `;`-free ids, the client reads back exactly the online ids in the server's order. |
| SessionRegistry.PayloadNamesOnlineUsers | QQ/server/src/main/java/com/simpleqq/server/Server.java:74-85 | The list payload names every online user and nobody else. |
| SessionRegistry.SendUserList | QQ/server/src/main/java/com/simpleqq/server/Server.java:87-103 | One `USER_LIST` to the handler exactly when it has a `userId` and its stream works, addressed to that id; a failure evicts nobody. |
| SessionRegistry.BroadcastUserList | QQ/server/src/main/java/com/simpleqq/server/Server.java:74-85 | Every live online handler gets the `USER_LIST` with the payload, and failed handlers are evicted as in `broadcastMessage`. |
| SessionRegistry.AddOnlineClient | QQ/server/src/main/java/com/simpleqq/server/Server.java:31-43 | The id maps to the new handler, and the broadcasts visit the keys in the order the map has once the id is put. The output is the `USER_JOIN` notices followed by the `USER_LIST` messages, and no key but the new id appears. |
| SessionRegistry.AddOnlineClientNoFailures | QQ/server/src/main/java/com/simpleqq/server/Server.java:32 | When no send fails, the online map afterwards is the old one with the id mapped to the handler, replacing any earlier handler. |
| SessionRegistry.AddOnlineClientNotifiesAll | QQ/server/src/main/java/com/simpleqq/server/Server.java:36 | The join notice reaches every live handler online once the id is mapped, the new one included. |
| SessionRegistry.AddOnlineClientListsToNewcomer | QQ/server/src/main/java/com/simpleqq/server/Server.java:36-39 | When the new handler has a `userId` and a working stream, the first message after the join notices is its online list, addressed to it and naming the ids online at the end, in iteration order. |
| SessionRegistry.AddOnlineClientListsAll | QQ/server/src/main/java/com/simpleqq/server/Server.java:41-42 | The last part of the output is one `USER_LIST` broadcast: its payload names the ids online at the end, in iteration order, and it reaches exactly the live handlers among them. |
| SessionRegistry.RemoveClient | QQ/server/src/main/java/com/simpleqq/server/Server.java:45-56 | A `null` id does nothing. Otherwise the id is no longer online, the other entries are unchanged or evicted, and `USER_LEAVE` notices come before `USER_LIST` messages. |
| SessionRegistry.RemoveClientNotifiesAll | QQ/server/src/main/java/com/simpleqq/server/Server.java:46-51 | For any non-null id, whether it was online or not, the leave notice reaches every live handler online under another id. |
| SessionRegistry.RemoveClientListsAll | QQ/server/src/main/java/com/simpleqq/server/Server.java:46-54 | After the leave notices comes one `USER_LIST` broadcast: its payload names the ids online at the end, in iteration order, and it reaches exactly the live handlers among them. |
| SessionRegistry.AddOnlineClientValid | QQ/server/src/main/java/com/simpleqq/server/Server.java:31-43 | When the handler is bound to a fresh id, adding it keeps every entry pointing at a handler bound to that key. The live old handlers and the new one are exactly the handlers left online. |
| SessionRegistry.RemoveClientValid | QQ/server/src/main/java/com/simpleqq/server/Server.java:45-56 | Removing an id keeps the registry consistent. Afterwards the id is offline, and the other entries left are exactly those whose handler's sends work. |
| SessionRegistry.LeaveStage | QQ/server/src/main/java/com/simpleqq/server/Server.java:47-51 | After the removal and the leave broadcast, the id and exactly the failed handlers are gone. |
| QQHandler.Reply | QQ/server/src/main/java/com/simpleqq/server/ClientHandler.java:239-252 | A reply to the handler itself arrives exactly when its stream works. |
| QQHandler.ParseLogin | QQ/server/src/main/java/com/simpleqq/server/ClientHandler.java:119-140 | `null` or blank content gives "Empty credentials.". A comma split with other than two fields gives "Invalid credentials format.". With two fields, "ID and password cannot be empty." comes exactly when a trimmed field is empty; otherwise the request is the two trimmed fields, each non-empty and comma-free. |
| QQHandler.ParseLoginClientFormat | QQ/server/src/main/java/com/simpleqq/server/ClientHandler.java:126-134 | The login window's `id,password` parses back to exactly that id and password. |
| QQHandler.TrailingCommaIsOneField | QQ/server/src/main/java/com/simpleqq/server/ClientHandler.java:126-131 | `id,` is a single field after `split`, so it is refused as "Invalid credentials format.". |
| QQHandler.BlankPasswordRefused | QQ/server/src/main/java/com/simpleqq/server/ClientHandler.java:133-140 | `id, ` has two fields, and the blank one trims to nothing, so it is refused as "ID and password cannot be empty.". |
| QQHandler.ParseRegister | QQ/server/src/main/java/com/simpleqq/server/ClientHandler.java:173-195 | The same checks for registration with three fields: "Empty registration data.", "Invalid registration format.", and "All fields are required." exactly when a trimmed field is empty; otherwise the request is the three trimmed fields. |
| QQHandler.ParseRegisterClientFormat | QQ/server/src/main/java/com/simpleqq/server/ClientHandler.java:180-189 | The registration window's `id,username,password` parses back field for field. |
| QQHandler.HandleLogin | QQ/server/src/main/java/com/simpleqq/server/ClientHandler.java:117-169 | A refused request, a bad password and an id already online each get one `LOGIN_FAIL` with its reason and change nothing. Otherwise the handler is bound, added online and sent `LOGIN_SUCCESS` with the user name. The accounts never change. |
| QQHandler.Admit | QQ/server/src/main/java/com/simpleqq/server/ClientHandler.java:150-152 | The handler is bound to the id and mapped under it in the online map. The notices come first, then `LOGIN_SUCCESS` addressed to the id with the user name. |
| QQHandler.HandleRegister | QQ/server/src/main/java/com/simpleqq/server/ClientHandler.java:171-216 | A refused request or a taken id gets `REGISTER_FAIL` and changes nothing. Otherwise exactly the new account is added and `REGISTER_SUCCESS` is sent. Sessions are never touched. |
| QQHandler.Fan | QQ/server/src/main/java/com/simpleqq/server/ClientHandler.java:222-232 | Chat fan-out reaches only live, bound handlers whose `userId` differs from the message's `senderId`, and evicts only failed handlers whose `userId` differs from it. |
| QQHandler.HandleChat | QQ/server/src/main/java/com/simpleqq/server/ClientHandler.java:218-237 | The message goes unchanged, and never to a handler whose `userId` is the message's `senderId` field. Failed handlers are evicted and nothing else changes. On a consistent registry it reaches exactly the live online handlers whose `userId` differs from that `senderId`. |
| QQHandler.ChatValid | QQ/server/src/main/java/com/simpleqq/server/ClientHandler.java:222-232 | On a consistent registry the fan-out visits every handler. It reaches each live one whose `userId` differs from the message's `senderId`, and evicts each failed one. |
| QQHandler.HandleMessage | QQ/server/src/main/java/com/simpleqq/server/ClientHandler.java:80-99 | `LOGIN`, `REGISTER` and `CHAT_MESSAGE` go to their handlers without any login check; every other kind changes nothing and sends nothing. |
| QQHandler.SecondLoginLeavesStaleEntry | QQ/server/src/main/java/com/simpleqq/server/ClientHandler.java:142-151 | As written: a handler online as `a` that logs in as `b` leaves its entry under `a`. A later failure evicts it only under `b`, so `a` stays online. |
| QQHandler.HandleLoginFixed | QQ/server/src/main/java/com/simpleqq/server/ClientHandler.java:142-152 | Corrected login: the handler's earlier entries leave the online map before it is admitted. A refused request, or a handler that is not online, gets the original behaviour. |
| QQHandler.LoginFixedKeepsValid | QQ/server/src/main/java/com/simpleqq/server/ClientHandler.java:142-152 | The corrected login keeps every online entry pointing at a handler bound to that key. |
| QQHandler.AdmitKeepsValid | QQ/server/src/main/java/com/simpleqq/server/ClientHandler.java:150-152 | Admitting a handler that is not online under a fresh id keeps the registry consistent. |
| QQHandler.HandleMessageFixed | QQ/server/src/main/java/com/simpleqq/server/ClientHandler.java:80-99 | The dispatcher with the corrected login agrees with the original on every kind but `LOGIN`. |
| QQHandler.FixedStepKeepsValid | QQ/server/src/main/java/com/simpleqq/server/ClientHandler.java:80-99 | Every step of the corrected handler keeps the registry consistent. |
| LineProtocol.ReplyText | ClientHandler.java:35-57 | Every answer line has text. |
| LineProtocol.ReplyTextInjective | ClientHandler.java:35-57 | The four answers are four different texts. |
| LineProtocol.Classify | ClientHandler.java:33-58 | The invalid-format answer is given exactly when `split` finds no field, and the format error exactly for a bare `LOGIN` field. Success is exactly two or more fields starting with `LOGIN`. |
| LineProtocol.LoginId | ClientHandler.java:42-49 | A line logs in with an id exactly when its answer is success. |
| LineProtocol.HandleLine | ClientHandler.java:33-58 | Each line gets the answer its text decides. A login sets `userId` and maps the id to this handler, replacing any other, and adds the id to the user manager; any other line changes nothing. |
| LineProtocol.InvalidExactly | ClientHandler.java:33-38 | The invalid-format answer comes exactly for a non-empty line of `|` characters only. |
| LineProtocol.LoginLine | ClientHandler.java:48-49 | A line of `|`-free fields, starting with `LOGIN` and not ending with an empty field, logs in with its second field. |
| LineProtocol.ClientLogin | ClientHandler.java:48-50 | `LOGIN|id` logs in as `id` for a non-empty, `|`-free id. |
| LineProtocol.BareLogin | ClientHandler.java:42-47 | `LOGIN` alone gets the format error. |
| LineProtocol.LoginWithEmptyId | ClientHandler.java:42-47 | `LOGIN|` gets the format error too, because `split` drops the empty field after the `|`. |
| LineProtocol.OtherOperation | ClientHandler.java:56-58 | A line whose first field is not `LOGIN`, the empty line included, gets the unsupported-operation answer. |
| LineProtocol.Serve | ClientHandler.java:32-60 | Each line read gets one answer, which depends on that line alone, and `userId` ends as the id of the last login, or as it was when there is none. |
| LineProtocol.ServeClients | ClientHandler.java:48-50 | The client map gains every id logged in with, each mapped to this handler, replacing whoever held it; every other entry keeps its handler. |
| LineProtocol.ServeUsers | ClientHandler.java:49-51 | The user manager gains the non-empty ids logged in with, and users it knew keep their friends. |
| LineProtocol.Close | ClientHandler.java:61-66 | A failed read or write removes the entry under this handler's id, whoever holds it; end of input removes nothing. |
| LineProtocol.Run | ClientHandler.java:28-76 | The reading loop computes exactly the answers and the final state described by `Serve` and `Close`. |
| LineProtocol.LineKeepsInvariants | ClientHandler.java:48-51 | Each line keeps two facts: a logged-in handler is the one under its id, and every non-empty id in the client map is a known user. |
| LineProtocol.ServeKeepsOwnId | ClientHandler.java:32-60 | At the end of the input a logged-in handler is still the one under its id. |
| LineProtocol.FailureRemovesId | ClientHandler.java:61-66 | After a failure the handler's id is no longer in the client map. |
| LineProtocol.OrderlyCloseKeepsEntry | ClientHandler.java:32-66 | As written: a client that sends `LOGIN|id` and then closes the connection normally stays in the client map under `id`. |
| LineProtocol.CloseFixed | ClientHandler.java:61-66 | Corrected end of `run`: the handler's id leaves the client map however the connection ends, and failures are handled as before. |
| LineProtocol.FixedCloseRemovesId | ClientHandler.java:61-66 | With the corrected end, neither the handler's id nor the last id it logged in with remains in the client map. |
| LineProtocol.FixedCloseKeepsOthers | ClientHandler.java:48-66 | The corrected end removes only the handler's own id: the other ids it logged in with stay mapped to it. |

## Left out

- Sockets, streams, threads and the servers' accept loops. The QQ handler's
  `run` and `cleanup` are out, as is the race between the online check and
  `addOnlineClient`; every handler step is sequential.
- Opening files and the bytes on disk. A file is its text, and a missing
  file, a character encoding or an `IOException` while loading or saving is
  not modelled.
- The `catch` blocks that answer "Server error during login." or "Server
  error during registration.": each stands for a runtime exception the
  model's total functions cannot raise.
- `ClassNotFoundException` and other unreadable objects in the QQ handler's
  stream.
- The root handler's `sendMessage` and its `groupManager` field, which `run`
  never uses.
- Root `Server.java`, both `Client` classes and all Swing windows, except the
  online-list parsing of `ChatWindow.updateUserList`.
- Group invitations, a group creator becoming a member, chat history and
  message forwarding. These have no implementation among the server sources.
- The message-kind enumerations carry no behaviour, and getters are the
  datatypes' fields.
- The text of `toString` beyond which values it contains. A timestamp is a
  `long`, but no arithmetic is done on it.
- Common.MessageToString: states only that the text contains the sender,
  the receiver and the content, not the full layout.
- Common.UserToString: states only that the text contains the id, the
  user name and the password, not the full layout.
- SessionRegistry.Broadcast, SessionRegistry.BroadcastUserList and
  QQHandler.Fan: `ConcurrentHashMap` iteration is only weakly consistent.
  An entry removed by another thread during the loop may still be visited or
  skipped; the model visits the keys present when the loop starts, in the
  given order.
- UserDirectory and FriendDirectory: ids are non-null. Java's
  `ConcurrentHashMap` throws an exception for a null key, so such a call
  aborts; the model has no such call.
- SessionRegistry.Place: a put that resizes the table can also reorder the
  old keys; the model keeps their relative order and lets only the new key
  fall anywhere.
- JavaStrings.Less: code-point order, not UTF-16 order; they differ only for
  characters beyond U+FFFF, which a `string` here holds as one character.
- UserDirectory.SaveUsers: states the number of lines and that each is a
  single line, not which line each account gets; `LoadSaveUsers` states
  what the file restores.
- JavaStrings.Split: covers a single-character delimiter only, which is
  every use in the servers. Regular-expression delimiters in general are not
  modelled.
- JavaStrings.Trim: treats every character up to U+0020 as removable, as
  Java's `trim` does. Nothing here depends on Unicode beyond that.

## Findings

| source | as written | input that shows it | evidently intended | confidence | as-written member | corrected member |
|---|---|---|---|---|---|---|
| SimpleQQ_Maven-master/simpleQQchat/server/src/main/java/com/simpleqq/server/UserManager.java:154-157 | Only a request from the same sender to the same receiver blocks a new one. | Two strangers `a` and `b`: `sendFriendRequest(a, b)`, `sendFriendRequest(b, a)`, `acceptFriendRequest(b, a)`, `acceptFriendRequest(a, b)`, then `deleteFriend(a, b)`. | A request is refused while the other user's request is pending, so each list names a friend once and one delete ends the friendship. | medium, not executed | FriendDirectory.CrossedRequestsDuplicateFriendship | FriendDirectory.SendFriendRequestChecked |
| QQ/server/src/main/java/com/simpleqq/server/ClientHandler.java:142-151 | The online check only asks whether the new id is online, so a logged-in handler can log in again under a second id. | A handler online as `a` sends `LOGIN` with valid credentials for `b`, which is offline. Its stream then fails during a broadcast. | A connection holds one session. Its earlier entry leaves the online map, so `a` can log in again. | medium, not executed | QQHandler.SecondLoginLeavesStaleEntry | QQHandler.HandleLoginFixed |
| ClientHandler.java:32-66 | Only an `IOException` removes the handler's id; `readLine` returning `null` ends the loop without removing it. | `LOGIN|alice` followed by an orderly close of the connection. | As the comment on the `catch` block says: a client that disconnects leaves the client map. | medium, not executed | LineProtocol.OrderlyCloseKeepsEntry | LineProtocol.CloseFixed |

The corrected halves are proved with these members:

- `FriendDirectory.CheckedSendKeepsOneLink`, `AcceptKeepsOneLink`,
  `RejectKeepsOneLink` and `DeleteKeepsOneLink` show that at most one link
  (request or friendship) joins any two users.
- `FriendDirectory.DeleteEndsFriendship` then shows that one delete ends a
  friendship.
- `QQHandler.LoginFixedKeepsValid` and `FixedStepKeepsValid` show that every
  online entry points at a handler bound to that key.
- `LineProtocol.FixedCloseRemovesId` shows that the id leaves the client map
  however the connection ends.

=== FILE: common.dfy ===
/**
 * The value types shared by every server variant: the message record that
 * travels between client and server, the user record, and the two message-kind
 * enumerations (the full one of the Maven project and the reduced one of the
 * QQ project, whose server is modelled in `QQHandler`).
 */
module Common {
  import opened Wrappers
  import opened JavaStrings

  /** A Java `String` reference: `None` stands for `null`. */
  type JString = Option<string>

  /** Java's `long`. */
  type Long = x: int | -0x8000_0000_0000_0000 <= x < 0x8000_0000_0000_0000

  /** String concatenation renders `null` as the four letters `null`. */
  function Render(s: JString): string
  {
    match s
    case Some(v) => v
    case None => "null"
  }

  /** The `id == null || id.isEmpty()` guard fails: a real, non-empty id. */
  predicate Given(id: JString)
  {
    id.Some? && id.value != ""
  }

  /** No element occurs twice. */
  predicate Distinct<T(==)>(xs: seq<T>)
  {
    forall i, j :: 0 <= i < j < |xs| ==> xs[i] != xs[j]
  }

  /**
   * One iteration order of a hash map's key set: every key exactly once. The
   * servers' maps give no order, so the model takes the order as an argument.
   */
  ghost predicate Enumerates(order: seq<string>, keys: set<string>)
  {
    Distinct(order) && (forall k :: k in order <==> k in keys)
  }

  // ---------------------------------------------------------------------------
  // Message
  // ---------------------------------------------------------------------------

  /**
   * One protocol record. `K` is the message-kind enumeration of the project
   * using it; `kind` is the Java field `type` (a Dafny keyword).
   */
  datatype Message<K> = Message(
    kind: K,
    senderId: JString,
    receiverId: JString,
    timestamp: Long,
    content: JString)

  /**
   * The four-argument constructor: the caller's values are kept verbatim and
   * the timestamp is the clock reading `now` (Java reads the wall clock).
   */
  function NewMessage<K>(kind: K, senderId: JString, receiverId: JString, content: JString, now: Long): (m: Message<K>)
    ensures m.kind == kind && m.senderId == senderId && m.receiverId == receiverId
    ensures m.content == content && m.timestamp == now
  {
    Message(kind, senderId, receiverId, now, content)
  }

  /** `setType`: only the kind changes. */
  function SetKind<K>(m: Message<K>, kind: K): (r: Message<K>)
    ensures r.kind == kind
    ensures r.senderId == m.senderId && r.receiverId == m.receiverId
    ensures r.timestamp == m.timestamp && r.content == m.content
  {
    m.(kind := kind)
  }

  /** `setSenderId`: only the sender changes. */
  function SetSenderId<K>(m: Message<K>, senderId: JString): (r: Message<K>)
    ensures r.senderId == senderId
    ensures r.kind == m.kind && r.receiverId == m.receiverId
    ensures r.timestamp == m.timestamp && r.content == m.content
  {
    m.(senderId := senderId)
  }

  /** `setReceiverId`: only the receiver changes. */
  function SetReceiverId<K>(m: Message<K>, receiverId: JString): (r: Message<K>)
    ensures r.receiverId == receiverId
    ensures r.kind == m.kind && r.senderId == m.senderId
    ensures r.timestamp == m.timestamp && r.content == m.content
  {
    m.(receiverId := receiverId)
  }

  /** `setTimestamp`: only the timestamp changes. */
  function SetTimestamp<K>(m: Message<K>, timestamp: Long): (r: Message<K>)
    ensures r.timestamp == timestamp
    ensures r.kind == m.kind && r.senderId == m.senderId
    ensures r.receiverId == m.receiverId && r.content == m.content
  {
    m.(timestamp := timestamp)
  }

  /** `setContent`: only the content changes. */
  function SetContent<K>(m: Message<K>, content: JString): (r: Message<K>)
    ensures r.content == content
    ensures r.kind == m.kind && r.senderId == m.senderId
    ensures r.receiverId == m.receiverId && r.timestamp == m.timestamp
  {
    m.(content := content)
  }

  /**
   * `toString`, with the kind rendered by `kindName` (the enum constant's
   * name): the text names the sender, the receiver and the content.
   */
  function MessageToString<K>(m: Message<K>, kindName: K -> string): (r: string)
    ensures Contains(r, Render(m.senderId))
    ensures Contains(r, Render(m.receiverId))
    ensures Contains(r, Render(m.content))
  {
    var s := Render(m.senderId);
    var rc := Render(m.receiverId);
    var c := Render(m.content);
    var fromContent := c + "'}";
    var fromStamp := "', timestamp=" + IntToString(m.timestamp) + ", content='" + fromContent;
    var fromReceiver := rc + fromStamp;
    var fromSender := s + "', receiverId='" + fromReceiver;
    ContainsSelf(s);
    ContainsSelf(rc);
    ContainsSelf(c);
    ContainsGlued(c, "'}", c);
    ContainsGlued("', timestamp=" + IntToString(m.timestamp) + ", content='", fromContent, c);
    ContainsGlued(rc, fromStamp, c);
    ContainsGlued(rc, fromStamp, rc);
    ContainsGlued(s + "', receiverId='", fromReceiver, c);
    ContainsGlued(s + "', receiverId='", fromReceiver, rc);
    ContainsGlued(s, "', receiverId='", s);
    ContainsGlued(s + "', receiverId='", fromReceiver, s);
    var head := "Message{type=" + kindName(m.kind) + ", senderId='";
    ContainsGlued(head, fromSender, s);
    ContainsGlued(head, fromSender, rc);
    ContainsGlued(head, fromSender, c);
    head + fromSender
  }

  // ---------------------------------------------------------------------------
  // User
  // ---------------------------------------------------------------------------

  /** A registered account; `isOnline` is a flag nothing in the servers persists. */
  datatype User = User(id: string, username: string, password: string, isOnline: bool)

  /** The three-argument constructor: a new user starts offline. */
  function NewUser(id: string, username: string, password: string): (u: User)
    ensures u.id == id && u.username == username && u.password == password
    ensures !u.isOnline
  {
    User(id, username, password, false)
  }

  /** `setOnline`: the flag becomes `online`, the account data stays. */
  function SetOnline(u: User, online: bool): (r: User)
    ensures r.isOnline == online
    ensures r.id == u.id && r.username == u.username && r.password == u.password
  {
    u.(isOnline := online)
  }

  /** `toString` names the id, the user name and the password. */
  function UserToString(u: User): (r: string)
    ensures Contains(r, u.id) && Contains(r, u.username) && Contains(r, u.password)
  {
    var head := "User{id='";
    var mid1 := "', username='";
    var mid2 := "', password='";
    var tail := "', isOnline=" + (if u.isOnline then "true" else "false") + "}";
    var p := u.password + tail;
    ContainsSelf(u.password);
    ContainsGlued(u.password, tail, u.password);
    var n := u.username + (mid2 + p);
    ContainsSelf(u.username);
    ContainsGlued(u.username, mid2 + p, u.username);
    ContainsGlued(mid2, p, u.password);
    ContainsGlued(u.username, mid2 + p, u.password);
    var i := u.id + (mid1 + n);
    ContainsSelf(u.id);
    ContainsGlued(u.id, mid1 + n, u.id);
    ContainsGlued(mid1, n, u.username);
    ContainsGlued(mid1, n, u.password);
    ContainsGlued(u.id, mid1 + n, u.username);
    ContainsGlued(u.id, mid1 + n, u.password);
    var r := head + i;
    ContainsGlued(head, i, u.id);
    ContainsGlued(head, i, u.username);
    ContainsGlued(head, i, u.password);
    r
  }

  // ---------------------------------------------------------------------------
  // Message kinds
  // ---------------------------------------------------------------------------

  /** The message kinds of the QQ project (its server understands the first three). */
  datatype QQKind =
    | LOGIN
    | REGISTER
    | CHAT_MESSAGE
    | LOGIN_SUCCESS
    | LOGIN_FAIL
    | REGISTER_SUCCESS
    | REGISTER_FAIL
    | USER_LIST
    | USER_JOIN
    | USER_LEAVE

  /** The message kinds of the Maven project's common module. */
  datatype MavenKind =
    | Login
    | Register
    | AddFriend
    | DeleteFriend
    | TextMessage
    | ImageMessage
    | GroupMessage
    | OnlineUsers
    | FriendList
    | LoginSuccess
    | LoginFail
    | RegisterSuccess
    | RegisterFail
    | AddFriendSuccess
    | AddFriendFail
    | DeleteFriendSuccess
    | DeleteFriendFail
    | ServerMessage
    | FriendRequest
    | FriendAccept
    | FriendReject
    | GroupInvite
    | GroupAccept
    | GroupReject
    | CreateGroup
    | CreateGroupSuccess
    | CreateGroupFail
    | GetGroups
    | GetPendingRequests
    | GetGroupMembers
    | ImageRequest
    | ImageAccept
    | ImageReject
    | ImageData
    | GroupJoinSuccess
    | GroupJoinFail
}

=== FILE: friend_directory.dfy ===
/**
 * The Maven server's `UserManager`: the user map of `UserDirectory` plus
 * friend lists and pending friend requests, both kept as Java `List`s per user
 * id (so an entry can occur more than once). Friend requests are stored under
 * the receiver: `pending[receiver]` lists the senders waiting for an answer.
 */
module FriendDirectory {
  import opened Wrappers
  import opened JavaStrings
  import opened Common
  import UserDirectory

  /** A map from user id to a Java list of user ids. */
  type Lists = map<string, seq<string>>

  datatype Directory = Directory(users: UserDirectory.Users, friendships: Lists, pending: Lists)

  datatype Outcome = Outcome(dir: Directory, ok: bool)

  /** `getOrDefault(k, new ArrayList<>())`. */
  function Lookup(m: Lists, k: string): seq<string>
  {
    if k in m then m[k] else []
  }

  /** How often `b` occurs in the list of `a`. */
  function Count(m: Lists, a: string, b: string): nat
  {
    multiset(Lookup(m, a))[b]
  }

  /** `computeIfAbsent(k, new ArrayList<>()).add(v)`. */
  function Append(m: Lists, k: string, v: string): (r: Lists)
    ensures r.Keys == m.Keys + {k}
    ensures Lookup(r, k) == Lookup(m, k) + [v]
    ensures forall j :: j != k ==> Lookup(r, j) == Lookup(m, j)
    ensures forall a, b :: Count(r, a, b) == Count(m, a, b) + (if a == k && b == v then 1 else 0)
  {
    m[k := Lookup(m, k) + [v]]
  }

  /** The position of the first occurrence of `x`. */
  function FirstIndex(xs: seq<string>, x: string): (i: nat)
    requires x in xs
    ensures i < |xs| && xs[i] == x && x !in xs[..i]
  {
    if xs[0] == x then 0
    else
      var i := FirstIndex(xs[1..], x) + 1;
      assert xs[..i] == [xs[0]] + xs[1..][..i - 1];
      i
  }

  /**
   * `List.remove(Object)`: drops the first occurrence of `x`, if any; the
   * Java call also reports whether it found one (`x in xs`).
   */
  function RemoveFirst(xs: seq<string>, x: string): (r: seq<string>)
    ensures x !in xs ==> r == xs
    ensures x in xs ==> |r| == |xs| - 1 && multiset(r) == multiset(xs) - multiset{x}
    ensures x in xs ==>
      var i := FirstIndex(xs, x);
      r[..i] == xs[..i] && r[i..] == xs[i + 1..]
  {
    if x in xs then
      var i := FirstIndex(xs, x);
      assert xs == xs[..i] + [x] + xs[i + 1..];
      xs[..i] + xs[i + 1..]
    else xs
  }

  /** `m.get(k).remove(v)` on a present list. */
  function RemoveAt(m: Lists, k: string, v: string): (r: Lists)
    requires k in m
    ensures r.Keys == m.Keys
    ensures Lookup(r, k) == RemoveFirst(m[k], v)
    ensures forall j :: j != k ==> Lookup(r, j) == Lookup(m, j)
    ensures forall a, b :: Count(r, a, b) == Count(m, a, b) - (if a == k && b == v && v in m[k] then 1 else 0)
  {
    m[k := RemoveFirst(m[k], v)]
  }

  // ---------------------------------------------------------------------------
  // Queries
  // ---------------------------------------------------------------------------

  /** `areFriends`: the second id is in the first one's friend list. */
  predicate AreFriends(d: Directory, a: string, b: string): (r: bool)
    ensures r <==> Count(d.friendships, a, b) > 0
  {
    a in d.friendships && b in d.friendships[a]
  }

  /** `getFriends`: the friend list, empty for an unknown id. */
  function GetFriends(d: Directory, id: string): (r: seq<string>)
    ensures id in d.friendships ==> r == d.friendships[id]
    ensures id !in d.friendships ==> r == []
    ensures forall b :: b in r <==> AreFriends(d, id, b)
  {
    Lookup(d.friendships, id)
  }

  /** `getPendingFriendRequests`: the senders waiting on `id`, empty for an unknown id. */
  function GetPendingFriendRequests(d: Directory, id: string): (r: seq<string>)
    ensures id in d.pending ==> r == d.pending[id]
    ensures id !in d.pending ==> r == []
  {
    Lookup(d.pending, id)
  }

  // ---------------------------------------------------------------------------
  // Operations
  // ---------------------------------------------------------------------------

  /**
   * `registerUser`: the account part is `UserDirectory.RegisterUser`; friend
   * lists and pending requests are not touched.
   */
  function RegisterUser(d: Directory, id: string, username: string, password: string): (r: Outcome)
    ensures r.ok <==> id !in d.users
    ensures !r.ok ==> r.dir == d
    ensures r.dir.friendships == d.friendships && r.dir.pending == d.pending
    ensures r.ok ==> r.dir.users == d.users[id := NewUser(id, username, password)]
  {
    var reg := UserDirectory.RegisterUser(d.users, id, username, password);
    Outcome(d.(users := reg.users), reg.ok)
  }

  /**
   * `sendFriendRequest`, as written: refused when either id is unknown, when
   * they are the same, when the receiver is already in the sender's friend
   * list, or when this sender is already waiting on this receiver (the opposite
   * direction is not looked at); otherwise the sender joins the receiver's
   * pending list.
   */
  function SendFriendRequest(d: Directory, sender: string, receiver: string): (r: Outcome)
    ensures r.ok <==>
      && sender in d.users && receiver in d.users && sender != receiver
      && !AreFriends(d, sender, receiver)
      && sender !in Lookup(d.pending, receiver)
    ensures !r.ok ==> r.dir == d
    ensures r.dir.users == d.users && r.dir.friendships == d.friendships
    ensures r.ok ==> Lookup(r.dir.pending, receiver) == Lookup(d.pending, receiver) + [sender]
    ensures forall j :: j != receiver ==> Lookup(r.dir.pending, j) == Lookup(d.pending, j)
  {
    if sender !in d.users || receiver !in d.users || sender == receiver then Outcome(d, false)
    else if sender in d.friendships && receiver in d.friendships[sender] then Outcome(d, false)
    else if receiver in d.pending && sender in d.pending[receiver] then Outcome(d, false)
    else Outcome(d.(pending := Append(d.pending, receiver, sender)), true)
  }

  /**
   * `acceptFriendRequest`: succeeds exactly when `sender` is waiting on
   * `receiver`; then the first such request disappears, the rest keep their
   * order, and each side's friend list gains the other at its end. The
   * receiver keeps its pending list even when it becomes empty.
   */
  function AcceptFriendRequest(d: Directory, receiver: string, sender: string): (r: Outcome)
    ensures r.ok <==> sender in Lookup(d.pending, receiver)
    ensures !r.ok ==> r.dir == d
    ensures r.dir.users == d.users
    ensures r.ok ==> forall a, b ::
      Count(r.dir.pending, a, b) == Count(d.pending, a, b) - (if a == receiver && b == sender then 1 else 0)
    ensures r.ok ==> forall a, b ::
      Count(r.dir.friendships, a, b) == Count(d.friendships, a, b)
        + (if a == receiver && b == sender then 1 else 0)
        + (if a == sender && b == receiver then 1 else 0)
    ensures r.ok ==> RemovedFirst(d.pending, r.dir.pending, receiver, sender)
    ensures r.ok ==> r.dir.friendships.Keys == d.friendships.Keys + {receiver, sender}
    ensures r.ok && receiver != sender ==>
      && Lookup(r.dir.friendships, receiver) == Lookup(d.friendships, receiver) + [sender]
      && Lookup(r.dir.friendships, sender) == Lookup(d.friendships, sender) + [receiver]
    ensures r.ok && receiver == sender ==>
      Lookup(r.dir.friendships, receiver) == Lookup(d.friendships, receiver) + [sender, receiver]
    ensures r.ok ==> forall j :: j != receiver && j != sender ==>
      Lookup(r.dir.friendships, j) == Lookup(d.friendships, j)
  {
    if receiver in d.pending && sender in d.pending[receiver] then
      var pending := RemoveAt(d.pending, receiver, sender);
      var friendships := Append(Append(d.friendships, receiver, sender), sender, receiver);
      AppendBoth(d.friendships, receiver, sender);
      Outcome(Directory(d.users, friendships, pending), true)
    else Outcome(d, false)
  }

  /**
   * `rejectFriendRequest`: succeeds exactly when `sender` is waiting on
   * `receiver`; then the first such request disappears, the rest keep their
   * order, and nothing else changes.
   */
  function RejectFriendRequest(d: Directory, receiver: string, sender: string): (r: Outcome)
    ensures r.ok <==> sender in Lookup(d.pending, receiver)
    ensures !r.ok ==> r.dir == d
    ensures r.dir.users == d.users && r.dir.friendships == d.friendships
    ensures r.ok ==> forall a, b ::
      Count(r.dir.pending, a, b) == Count(d.pending, a, b) - (if a == receiver && b == sender then 1 else 0)
    ensures r.ok ==> RemovedFirst(d.pending, r.dir.pending, receiver, sender)
  {
    if receiver in d.pending && sender in d.pending[receiver] then
      Outcome(d.(pending := RemoveAt(d.pending, receiver, sender)), true)
    else Outcome(d, false)
  }

  /** Appending `b` to the list of `a` and then `a` to the list of `b`, list by list. */
  lemma AppendBoth(f: Lists, a: string, b: string)
    ensures var g := Append(Append(f, a, b), b, a);
      && g.Keys == f.Keys + {a, b}
      && (a != b ==> Lookup(g, a) == Lookup(f, a) + [b] && Lookup(g, b) == Lookup(f, b) + [a])
      && (a == b ==> Lookup(g, a) == Lookup(f, a) + [b, a])
      && forall j :: j != a && j != b ==> Lookup(g, j) == Lookup(f, j)
  {
    var f1 := Append(f, a, b);
    if a == b {
      assert Lookup(f1, a) + [a] == Lookup(f, a) + [b, a];
    }
  }

  /**
   * `m.get(k).remove(v)` took place between `m` and `r`: the keys stay (an
   * emptied list included), the list of `k` loses its first `v` and keeps
   * its order, and every other list is unchanged.
   */
  ghost predicate RemovedFirst(m: Lists, r: Lists, k: string, v: string)
  {
    && r.Keys == m.Keys
    && Lookup(r, k) == RemoveFirst(Lookup(m, k), v)
    && forall j :: j != k ==> Lookup(r, j) == Lookup(m, j)
  }

  /** Drops the list of `k` when it has become empty. */
  function DropIfEmpty(m: Lists, k: string): (r: Lists)
    ensures forall j :: Lookup(r, j) == Lookup(m, j)
    ensures forall a, b :: Count(r, a, b) == Count(m, a, b)
    ensures r.Keys == if k in m && m[k] == [] then m.Keys - {k} else m.Keys
  {
    if k in m && m[k] == [] then m - {k} else m
  }

  /**
   * `deleteFriend`, as written: refused when either id has no friend list;
   * otherwise one occurrence of each id is removed from the other's list (the
   * two lists are one list when the ids are equal). Only when both removals
   * found something is the call a success, and then lists left empty are
   * dropped; a half-successful removal stays in memory and the call reports
   * false.
   */
  function DeleteFriend(d: Directory, a: string, b: string): (r: Outcome)
    ensures a !in d.friendships || b !in d.friendships ==> r == Outcome(d, false)
    ensures r.dir.users == d.users && r.dir.pending == d.pending
    ensures r.ok ==> AreFriends(d, a, b) && AreFriends(d, b, a)
    ensures r.ok ==> forall x, y ::
      Count(r.dir.friendships, x, y) == Count(d.friendships, x, y)
        - (if x == a && y == b then 1 else 0)
        - (if x == b && y == a then 1 else 0)
    ensures r.ok ==> forall x :: x in r.dir.friendships <==>
      x in d.friendships && (Lookup(r.dir.friendships, x) != [] || (x != a && x != b))
    ensures r.ok && a != b ==>
      && Lookup(r.dir.friendships, a) == RemoveFirst(Lookup(d.friendships, a), b)
      && Lookup(r.dir.friendships, b) == RemoveFirst(Lookup(d.friendships, b), a)
    ensures r.ok && a == b ==>
      Lookup(r.dir.friendships, a) == RemoveFirst(RemoveFirst(Lookup(d.friendships, a), a), a)
    ensures r.ok ==> forall j :: j != a && j != b ==> Lookup(r.dir.friendships, j) == Lookup(d.friendships, j)
  {
    if a !in d.friendships || b !in d.friendships then Outcome(d, false)
    else
      var f1 := RemoveAt(d.friendships, a, b);
      var f2 := RemoveAt(f1, b, a);
      if b in d.friendships[a] && a in f1[b] then
        DeleteFriendCounts(d.friendships, a, b);
        Outcome(d.(friendships := DropIfEmpty(DropIfEmpty(f2, a), b)), true)
      else
        Outcome(d.(friendships := f2), false)
  }

  lemma DeleteFriendCounts(f: Lists, a: string, b: string)
    requires a in f && b in f
    requires b in f[a] && a in RemoveAt(f, a, b)[b]
    ensures var f3 := DropIfEmpty(DropIfEmpty(RemoveAt(RemoveAt(f, a, b), b, a), a), b);
      && (forall x, y :: Count(f3, x, y) == Count(f, x, y)
           - (if x == a && y == b then 1 else 0) - (if x == b && y == a then 1 else 0))
      && (forall x :: x in f3 <==> x in f && (Lookup(f3, x) != [] || (x != a && x != b)))
  {
    var f1 := RemoveAt(f, a, b);
    var f2 := RemoveAt(f1, b, a);
    var f3 := DropIfEmpty(DropIfEmpty(f2, a), b);
    forall x, y
      ensures Count(f3, x, y) == Count(f, x, y)
        - (if x == a && y == b then 1 else 0) - (if x == b && y == a then 1 else 0)
    {
      assert Count(f3, x, y) == Count(f2, x, y);
      assert Count(f2, x, y) == Count(f1, x, y) - (if x == b && y == a then 1 else 0);
      assert Count(f1, x, y) == Count(f, x, y) - (if x == a && y == b then 1 else 0);
    }
    DroppedKeys(f, f2, a, b);
  }

  /** Dropping the emptied lists of `a` and `b` keeps every other key and the non-empty ones. */
  lemma DroppedKeys(f: Lists, f2: Lists, a: string, b: string)
    requires f2.Keys == f.Keys
    ensures var f3 := DropIfEmpty(DropIfEmpty(f2, a), b);
      forall x :: x in f3 <==> x in f && (Lookup(f3, x) != [] || (x != a && x != b))
  {
    var g := DropIfEmpty(f2, a);
    var f3 := DropIfEmpty(g, b);
    forall x ensures x in f3 <==> x in f && (Lookup(f3, x) != [] || (x != a && x != b)) {
      assert Lookup(f3, x) == Lookup(f2, x);
      if x in f2 {
        assert Lookup(f2, x) == f2[x];
      }
    }
  }

  // ---------------------------------------------------------------------------
  // The friendship invariant
  // ---------------------------------------------------------------------------

  /** Each id occurs in the other's list equally often. */
  ghost predicate Symmetric(f: Lists)
  {
    forall a, b :: Count(f, a, b) == Count(f, b, a)
  }

  /** Nobody is listed under their own id. */
  ghost predicate NoSelf(m: Lists)
  {
    forall a :: Count(m, a, a) == 0
  }

  /** Every list present in the map holds at least one id. */
  ghost predicate NoEmptyLists(m: Lists)
  {
    forall k :: k in m ==> m[k] != []
  }

  /**
   * What every reachable directory satisfies: symmetric friend lists without
   * self-friendship or empty lists, and no request from a user to themself.
   */
  ghost predicate Valid(d: Directory)
  {
    Symmetric(d.friendships) && NoSelf(d.friendships) && NoEmptyLists(d.friendships) && NoSelf(d.pending)
  }

  lemma SendKeepsValid(d: Directory, sender: string, receiver: string)
    requires Valid(d)
    ensures Valid(SendFriendRequest(d, sender, receiver).dir)
  {
    var r := SendFriendRequest(d, sender, receiver);
    if r.ok {
      forall a ensures Count(r.dir.pending, a, a) == 0 {
        assert Count(r.dir.pending, a, a) == Count(d.pending, a, a) + (if a == receiver && a == sender then 1 else 0);
      }
    }
  }

  lemma AcceptKeepsValid(d: Directory, receiver: string, sender: string)
    requires Valid(d)
    ensures Valid(AcceptFriendRequest(d, receiver, sender).dir)
  {
    var r := AcceptFriendRequest(d, receiver, sender);
    if r.ok {
      assert receiver != sender by {
        assert Count(d.pending, receiver, sender) > 0;
      }
      AcceptCounts(d, receiver, sender);
      AcceptNoEmpty(d, receiver, sender);
    }
  }

  /** A successful accept between two ids keeps the counts symmetric and self-free. */
  lemma AcceptCounts(d: Directory, receiver: string, sender: string)
    requires Valid(d) && receiver != sender && AcceptFriendRequest(d, receiver, sender).ok
    ensures Symmetric(AcceptFriendRequest(d, receiver, sender).dir.friendships)
    ensures NoSelf(AcceptFriendRequest(d, receiver, sender).dir.friendships)
    ensures NoSelf(AcceptFriendRequest(d, receiver, sender).dir.pending)
  {
    var r := AcceptFriendRequest(d, receiver, sender);
    LinkKeepsSymmetric(d.friendships, r.dir.friendships, receiver, sender);
    UnlinkKeepsNoSelf(d.pending, r.dir.pending, receiver, sender);
  }

  /** 1 when the pair `(x, y)` is the link `(a, b)`, else 0. */
  function Link(x: string, y: string, a: string, b: string): (n: nat)
    ensures n == 1 <==> x == a && y == b
  {
    if x == a && y == b then 1 else 0
  }

  /** Adding one link each way between two different ids keeps the lists symmetric and free of self-entries. */
  lemma LinkKeepsSymmetric(f: Lists, g: Lists, a: string, b: string)
    requires Symmetric(f) && NoSelf(f) && a != b
    requires forall x, y :: Count(g, x, y) == Count(f, x, y) + Link(x, y, a, b) + Link(x, y, b, a)
    ensures Symmetric(g) && NoSelf(g)
  {
    forall x, y ensures Count(g, x, y) == Count(g, y, x) {
      assert Count(f, x, y) == Count(f, y, x);
    }
    forall x ensures Count(g, x, x) == 0 {
      assert Count(f, x, x) == 0;
    }
  }

  /** Removing one entry keeps lists free of self-entries. */
  lemma UnlinkKeepsNoSelf(m: Lists, n: Lists, a: string, b: string)
    requires NoSelf(m)
    requires forall x, y :: Count(n, x, y) == Count(m, x, y) - Link(x, y, a, b)
    ensures NoSelf(n)
  {
    forall x ensures Count(n, x, x) == 0 {
      assert Count(m, x, x) == 0;
    }
  }

  /** An accept only appends to friend lists, so none of them is empty. */
  lemma AcceptNoEmpty(d: Directory, receiver: string, sender: string)
    requires NoEmptyLists(d.friendships) && AcceptFriendRequest(d, receiver, sender).ok
    ensures NoEmptyLists(AcceptFriendRequest(d, receiver, sender).dir.friendships)
  {
    var f1 := Append(d.friendships, receiver, sender);
    var f := Append(f1, sender, receiver);
    assert AcceptFriendRequest(d, receiver, sender).dir.friendships == f;
    forall k | k in f ensures f[k] != [] {
      assert Lookup(f, k) == f[k];
      if k != sender && k != receiver {
        assert Lookup(f, k) == Lookup(d.friendships, k);
      } else if k == receiver && k != sender {
        assert Lookup(f, k) == Lookup(f1, k);
      }
    }
  }

  lemma RejectKeepsValid(d: Directory, receiver: string, sender: string)
    requires Valid(d)
    ensures Valid(RejectFriendRequest(d, receiver, sender).dir)
  {
  }

  /**
   * On a valid directory `deleteFriend` between two different ids succeeds
   * exactly when they are friends, and a refusal changes nothing.
   */
  lemma DeleteFriendExact(d: Directory, a: string, b: string)
    requires Valid(d) && a != b
    ensures DeleteFriend(d, a, b).ok <==> AreFriends(d, a, b)
    ensures !DeleteFriend(d, a, b).ok ==> DeleteFriend(d, a, b).dir == d
  {
    var f := d.friendships;
    if a in f && b in f {
      var f1 := RemoveAt(f, a, b);
      assert Lookup(f1, b) == f[b];
      assert Count(f, a, b) == Count(f, b, a);
      if b !in f[a] {
        assert f1 == f;
        assert a !in f[b];
        assert RemoveAt(f1, b, a) == f;
      }
    } else if a in f {
      assert Count(f, a, b) == Count(f, b, a);
    }
  }

  lemma DeleteKeepsValid(d: Directory, a: string, b: string)
    requires Valid(d)
    ensures Valid(DeleteFriend(d, a, b).dir)
  {
    if a == b {
      if a in d.friendships {
        assert Count(d.friendships, a, a) == 0;
        assert RemoveFirst(d.friendships[a], a) == d.friendships[a];
        assert RemoveAt(d.friendships, a, a) == d.friendships;
      }
    } else {
      DeleteFriendExact(d, a, b);
      if DeleteFriend(d, a, b).ok {
        DeleteSuccessKeepsValid(d, a, b);
      }
    }
  }

  lemma DeleteSuccessKeepsValid(d: Directory, a: string, b: string)
    requires Valid(d) && DeleteFriend(d, a, b).ok
    ensures Valid(DeleteFriend(d, a, b).dir)
  {
    DeleteSuccessSymmetric(d, a, b);
    DeleteSuccessNoSelf(d, a, b);
    DeleteSuccessNoEmpty(d, a, b);
  }

  lemma DeleteSuccessSymmetric(d: Directory, a: string, b: string)
    requires Valid(d) && DeleteFriend(d, a, b).ok
    ensures Symmetric(DeleteFriend(d, a, b).dir.friendships)
  {
  }

  lemma DeleteSuccessNoSelf(d: Directory, a: string, b: string)
    requires Valid(d) && DeleteFriend(d, a, b).ok
    ensures NoSelf(DeleteFriend(d, a, b).dir.friendships)
  {
  }

  lemma DeleteSuccessNoEmpty(d: Directory, a: string, b: string)
    requires Valid(d) && DeleteFriend(d, a, b).ok
    ensures NoEmptyLists(DeleteFriend(d, a, b).dir.friendships)
  {
    var f := DeleteFriend(d, a, b).dir.friendships;
    forall x | x in f ensures f[x] != [] {
      assert Lookup(f, x) == f[x];
    }
  }

  lemma RegisterKeepsValid(d: Directory, id: string, username: string, password: string)
    requires Valid(d)
    ensures Valid(RegisterUser(d, id, username, password).dir)
  {
  }

  /** `areFriends` answers the same in both directions. */
  lemma AreFriendsSymmetric(d: Directory, a: string, b: string)
    requires Valid(d)
    ensures AreFriends(d, a, b) <==> AreFriends(d, b, a)
  {
    assert Count(d.friendships, a, b) == Count(d.friendships, b, a);
  }

  /**
   * The request lifecycle between two registered strangers: the request is
   * accepted, both see each other as friends, the receiver no longer has the
   * sender pending, and one `deleteFriend` ends the friendship in both
   * directions.
   */
  lemma FriendRequestLifecycle(d: Directory, s: string, r: string)
    requires Valid(d)
    requires s in d.users && r in d.users && s != r
    requires !AreFriends(d, s, r) && s !in Lookup(d.pending, r)
    ensures var sent := SendFriendRequest(d, s, r);
      var accepted := AcceptFriendRequest(sent.dir, r, s);
      var deleted := DeleteFriend(accepted.dir, s, r);
      && sent.ok && accepted.ok && deleted.ok
      && AreFriends(accepted.dir, s, r) && AreFriends(accepted.dir, r, s)
      && s !in Lookup(accepted.dir.pending, r)
      && !AreFriends(deleted.dir, s, r) && !AreFriends(deleted.dir, r, s)
  {
    SendThenAccept(d, s, r);
    var accepted := AcceptFriendRequest(SendFriendRequest(d, s, r).dir, r, s);
    AreFriendsSymmetric(accepted.dir, s, r);
    DeleteOnlyLink(accepted.dir, s, r);
  }

  /** Deleting a friend listed once ends the friendship both ways. */
  lemma DeleteOnlyLink(d: Directory, a: string, b: string)
    requires Valid(d) && a != b && Count(d.friendships, a, b) == 1
    ensures var r := DeleteFriend(d, a, b);
      r.ok && !AreFriends(r.dir, a, b) && !AreFriends(r.dir, b, a)
  {
    DeleteFriendExact(d, a, b);
    var r := DeleteFriend(d, a, b);
    assert Count(r.dir.friendships, a, b) == 0;
    DeleteKeepsValid(d, a, b);
    AreFriendsSymmetric(r.dir, a, b);
  }

  /** Between strangers, a sent request is accepted and lists each side once for the other. */
  lemma SendThenAccept(d: Directory, s: string, r: string)
    requires Valid(d)
    requires s in d.users && r in d.users && s != r
    requires !AreFriends(d, s, r) && s !in Lookup(d.pending, r)
    ensures var sent := SendFriendRequest(d, s, r);
      var accepted := AcceptFriendRequest(sent.dir, r, s);
      && sent.ok && accepted.ok && Valid(accepted.dir)
      && Count(accepted.dir.friendships, s, r) == 1
      && s !in Lookup(accepted.dir.pending, r)
  {
    var sent := SendFriendRequest(d, s, r);
    SendKeepsValid(d, s, r);
    assert Count(sent.dir.pending, r, s) == 1 by {
      assert Count(d.pending, r, s) == 0;
    }
    AcceptKeepsValid(sent.dir, r, s);
    AcceptOnePair(sent.dir, r, s);
    assert Count(d.friendships, s, r) == 0;
  }

  /** A successful accept adds one `receiver` entry to the sender's friends and takes one request away. */
  lemma AcceptOnePair(d: Directory, receiver: string, sender: string)
    requires AcceptFriendRequest(d, receiver, sender).ok && receiver != sender
    ensures var a := AcceptFriendRequest(d, receiver, sender).dir;
      && Count(a.friendships, sender, receiver) == Count(d.friendships, sender, receiver) + 1
      && Count(a.pending, receiver, sender) == Count(d.pending, receiver, sender) - 1
  {
  }

  // ---------------------------------------------------------------------------
  // Requests crossing in both directions
  // ---------------------------------------------------------------------------

  /**
   * As written, `sendFriendRequest` lets two users ask each other at the same
   * time. Accepting both requests lists each of them twice in the other's
   * friend list, and one `deleteFriend` then leaves them friends.
   */
  lemma CrossedRequestsDuplicateFriendship(d: Directory, a: string, b: string)
    requires Valid(d)
    requires a in d.users && b in d.users && a != b
    requires !AreFriends(d, a, b) && a !in Lookup(d.pending, b) && b !in Lookup(d.pending, a)
    ensures var d1 := SendFriendRequest(d, a, b);
      var d2 := SendFriendRequest(d1.dir, b, a);
      var d3 := AcceptFriendRequest(d2.dir, b, a);
      var d4 := AcceptFriendRequest(d3.dir, a, b);
      var d5 := DeleteFriend(d4.dir, a, b);
      && d1.ok && d2.ok && d3.ok && d4.ok && d5.ok
      && Count(d4.dir.friendships, a, b) == 2
      && AreFriends(d5.dir, a, b) && AreFriends(d5.dir, b, a)
  {
    CrossedAcceptsListTwice(d, a, b);
    var d1 := SendFriendRequest(d, a, b);
    var d2 := SendFriendRequest(d1.dir, b, a);
    var d3 := AcceptFriendRequest(d2.dir, b, a);
    var d4 := AcceptFriendRequest(d3.dir, a, b);
    ListedTwiceSurvivesDelete(d4.dir, a, b);
  }

  /** Both crossed requests go through and both acceptances succeed. */
  lemma CrossedAcceptsListTwice(d: Directory, a: string, b: string)
    requires Valid(d)
    requires a in d.users && b in d.users && a != b
    requires !AreFriends(d, a, b) && a !in Lookup(d.pending, b) && b !in Lookup(d.pending, a)
    ensures var d1 := SendFriendRequest(d, a, b);
      var d2 := SendFriendRequest(d1.dir, b, a);
      var d3 := AcceptFriendRequest(d2.dir, b, a);
      var d4 := AcceptFriendRequest(d3.dir, a, b);
      && d1.ok && d2.ok && d3.ok && d4.ok
      && Valid(d4.dir) && Count(d4.dir.friendships, a, b) == 2
  {
    CrossedSends(d, a, b);
    var d1 := SendFriendRequest(d, a, b);
    var d2 := SendFriendRequest(d1.dir, b, a);
    AcceptTwice(d2.dir, a, b);
  }

  /**
   * With one request waiting each way and no friendship yet, both acceptances
   * succeed and each side lists the other twice.
   */
  lemma AcceptTwice(d: Directory, a: string, b: string)
    requires Valid(d) && a != b
    requires Count(d.pending, b, a) == 1 && Count(d.pending, a, b) == 1 && Count(d.friendships, a, b) == 0
    ensures var d3 := AcceptFriendRequest(d, b, a);
      var d4 := AcceptFriendRequest(d3.dir, a, b);
      && d3.ok && d4.ok && Valid(d4.dir) && Count(d4.dir.friendships, a, b) == 2
  {
    AcceptStep(d, b, a);
    var d3 := AcceptFriendRequest(d, b, a);
    AcceptStep(d3.dir, a, b);
  }

  /** One acceptance between two ids: one request fewer and one more entry each way. */
  lemma AcceptStep(d: Directory, receiver: string, sender: string)
    requires Valid(d) && receiver != sender && Count(d.pending, receiver, sender) > 0
    ensures var r := AcceptFriendRequest(d, receiver, sender);
      && r.ok && Valid(r.dir)
      && Count(r.dir.pending, receiver, sender) == Count(d.pending, receiver, sender) - 1
      && Count(r.dir.pending, sender, receiver) == Count(d.pending, sender, receiver)
      && Count(r.dir.friendships, sender, receiver) == Count(d.friendships, sender, receiver) + 1
  {
    AcceptKeepsValid(d, receiver, sender);
  }

  /** Two strangers can each have a request waiting on the other. */
  lemma CrossedSends(d: Directory, a: string, b: string)
    requires Valid(d)
    requires a in d.users && b in d.users && a != b
    requires !AreFriends(d, a, b) && a !in Lookup(d.pending, b) && b !in Lookup(d.pending, a)
    ensures var d1 := SendFriendRequest(d, a, b);
      var d2 := SendFriendRequest(d1.dir, b, a);
      && d1.ok && d2.ok && Valid(d2.dir) && d2.dir.friendships == d.friendships
      && Count(d2.dir.pending, b, a) == 1 && Count(d2.dir.pending, a, b) == 1
      && Count(d2.dir.friendships, a, b) == 0
  {
    var d1 := SendFriendRequest(d, a, b);
    SendKeepsValid(d, a, b);
    assert Count(d.friendships, a, b) == Count(d.friendships, b, a);
    var d2 := SendFriendRequest(d1.dir, b, a);
    assert Lookup(d1.dir.pending, a) == Lookup(d.pending, a);
    assert Lookup(d2.dir.pending, b) == Lookup(d1.dir.pending, b);
    SendKeepsValid(d1.dir, b, a);
  }

  /** A friend listed twice is still a friend after one `deleteFriend`. */
  lemma ListedTwiceSurvivesDelete(d: Directory, a: string, b: string)
    requires Valid(d) && a != b && Count(d.friendships, a, b) == 2
    ensures var r := DeleteFriend(d, a, b);
      r.ok && AreFriends(r.dir, a, b) && AreFriends(r.dir, b, a)
  {
    DeleteFriendExact(d, a, b);
    var r := DeleteFriend(d, a, b);
    assert Count(d.friendships, b, a) == 2;
    assert Count(r.dir.friendships, a, b) == 1;
    assert Count(r.dir.friendships, b, a) == 1;
  }

  /**
   * `sendFriendRequest` with the intended rule of at most one pending request
   * between two users: a request is also refused when the receiver is already
   * waiting on the sender, so accepted requests never list a friend twice and
   * one `deleteFriend` ends a friendship.
   */
  function SendFriendRequestChecked(d: Directory, sender: string, receiver: string): (r: Outcome)
    ensures r.ok <==>
      && sender in d.users && receiver in d.users && sender != receiver
      && !AreFriends(d, sender, receiver)
      && sender !in Lookup(d.pending, receiver)
      && receiver !in Lookup(d.pending, sender)
    ensures !r.ok ==> r.dir == d
    ensures r.dir.users == d.users && r.dir.friendships == d.friendships
    ensures r.ok ==> forall a, b ::
      Count(r.dir.pending, a, b) == Count(d.pending, a, b) + (if a == receiver && b == sender then 1 else 0)
  {
    if receiver in Lookup(d.pending, sender) then Outcome(d, false)
    else
      var r := SendFriendRequest(d, sender, receiver);
      assert r.ok ==> r.dir.pending == Append(d.pending, receiver, sender);
      r
  }

  /**
   * Between any two users there is at most one link: a request one way, a
   * request the other way, or a friendship (counted once per direction).
   */
  ghost predicate AtMostOneLink(d: Directory)
  {
    forall a, b :: Count(d.pending, a, b) + Count(d.pending, b, a) + Count(d.friendships, a, b) <= 1
  }

  lemma CheckedSendKeepsOneLink(d: Directory, sender: string, receiver: string)
    requires Valid(d) && AtMostOneLink(d)
    ensures AtMostOneLink(SendFriendRequestChecked(d, sender, receiver).dir)
  {
    var r := SendFriendRequestChecked(d, sender, receiver);
    if r.ok {
      forall a, b ensures Count(r.dir.pending, a, b) + Count(r.dir.pending, b, a) + Count(r.dir.friendships, a, b) <= 1 {
        assert Count(d.pending, a, b) + Count(d.pending, b, a) + Count(d.friendships, a, b) <= 1;
        assert Count(d.friendships, a, b) == Count(d.friendships, b, a);
        assert Count(d.friendships, sender, receiver) == 0;
      }
    }
  }

  lemma AcceptKeepsOneLink(d: Directory, receiver: string, sender: string)
    requires Valid(d) && AtMostOneLink(d)
    ensures AtMostOneLink(AcceptFriendRequest(d, receiver, sender).dir)
  {
    var r := AcceptFriendRequest(d, receiver, sender);
    if r.ok {
      assert Count(d.pending, receiver, sender) + Count(d.pending, sender, receiver)
        + Count(d.friendships, receiver, sender) <= 1;
      assert Count(d.pending, receiver, sender) == 1;
      assert Count(d.friendships, sender, receiver) == Count(d.friendships, receiver, sender);
      forall a, b ensures Count(r.dir.pending, a, b) + Count(r.dir.pending, b, a) + Count(r.dir.friendships, a, b) <= 1 {
        assert Count(d.pending, a, b) + Count(d.pending, b, a) + Count(d.friendships, a, b) <= 1;
      }
    }
  }

  lemma RejectKeepsOneLink(d: Directory, receiver: string, sender: string)
    requires AtMostOneLink(d)
    ensures AtMostOneLink(RejectFriendRequest(d, receiver, sender).dir)
  {
    var r := RejectFriendRequest(d, receiver, sender);
    if r.ok {
      forall a, b ensures Count(r.dir.pending, a, b) + Count(r.dir.pending, b, a) + Count(r.dir.friendships, a, b) <= 1 {
        assert Count(d.pending, a, b) + Count(d.pending, b, a) + Count(d.friendships, a, b) <= 1;
      }
    }
  }

  lemma DeleteKeepsOneLink(d: Directory, a: string, b: string)
    requires Valid(d) && AtMostOneLink(d)
    ensures AtMostOneLink(DeleteFriend(d, a, b).dir)
  {
    if a == b {
      DeleteSelfUnchanged(d, a);
    } else {
      DeleteFriendExact(d, a, b);
      if DeleteFriend(d, a, b).ok {
        DeleteSuccessKeepsOneLink(d, a, b);
      }
    }
  }

  /** Deleting oneself as a friend changes nothing on a valid directory. */
  lemma DeleteSelfUnchanged(d: Directory, a: string)
    requires Valid(d)
    ensures DeleteFriend(d, a, a).dir == d
  {
    if a in d.friendships {
      assert Count(d.friendships, a, a) == 0;
      assert RemoveFirst(d.friendships[a], a) == d.friendships[a];
      assert RemoveAt(d.friendships, a, a) == d.friendships;
    }
  }

  /**
   * Symmetry alone does not rule out the half-done delete: a user listed as
   * its own friend loses the first entry, the second removal finds nothing,
   * and the emptied list stays while the call reports false.
   */
  lemma SelfEntryHalfDelete(d: Directory)
    requires d.friendships == map["a" := ["a"]]
    ensures Symmetric(d.friendships) && !NoSelf(d.friendships)
    ensures DeleteFriend(d, "a", "a") == Outcome(d.(friendships := map["a" := []]), false)
  {
    SelfEntrySymmetric(d.friendships);
    var f1 := RemoveAt(d.friendships, "a", "a");
    assert f1 == map["a" := []];
    assert "a" !in f1["a"];
    assert RemoveAt(f1, "a", "a") == f1;
  }

  lemma SelfEntrySymmetric(f: Lists)
    requires f == map["a" := ["a"]]
    ensures Symmetric(f) && Count(f, "a", "a") == 1
  {
    assert multiset(f["a"]) == multiset{"a"};
    forall x, y ensures Count(f, x, y) == Count(f, y, x) {
      if x != y {
        assert Count(f, x, y) == 0 && Count(f, y, x) == 0;
      }
    }
  }

  lemma DeleteSuccessKeepsOneLink(d: Directory, a: string, b: string)
    requires AtMostOneLink(d) && DeleteFriend(d, a, b).ok
    ensures AtMostOneLink(DeleteFriend(d, a, b).dir)
  {
    DeleteRemovesOnly(d, a, b);
    FewerFriendsKeepOneLink(d, DeleteFriend(d, a, b).dir);
  }

  /** A `deleteFriend` removes friend entries and touches nothing else. */
  lemma DeleteRemovesOnly(d: Directory, a: string, b: string)
    requires DeleteFriend(d, a, b).ok
    ensures DeleteFriend(d, a, b).dir.pending == d.pending
    ensures forall x, y :: Count(DeleteFriend(d, a, b).dir.friendships, x, y) <= Count(d.friendships, x, y)
  {
  }

  /** Removing friend entries and nothing else cannot add a link. */
  lemma FewerFriendsKeepOneLink(d: Directory, e: Directory)
    requires AtMostOneLink(d) && e.pending == d.pending
    requires forall x, y :: Count(e.friendships, x, y) <= Count(d.friendships, x, y)
    ensures AtMostOneLink(e)
  {
    forall x, y ensures Count(e.pending, x, y) + Count(e.pending, y, x) + Count(e.friendships, x, y) <= 1 {
      assert Count(d.pending, x, y) + Count(d.pending, y, x) + Count(d.friendships, x, y) <= 1;
    }
  }

  /**
   * With requests refused in both directions, friend lists never repeat an id,
   * so one `deleteFriend` ends a friendship on both sides.
   */
  lemma DeleteEndsFriendship(d: Directory, a: string, b: string)
    requires Valid(d) && AtMostOneLink(d) && a != b
    requires AreFriends(d, a, b)
    ensures var r := DeleteFriend(d, a, b);
      r.ok && !AreFriends(r.dir, a, b) && !AreFriends(r.dir, b, a)
  {
    DeleteFriendExact(d, a, b);
    var r := DeleteFriend(d, a, b);
    assert Count(d.pending, a, b) + Count(d.pending, b, a) + Count(d.friendships, a, b) <= 1;
    assert Count(d.friendships, a, b) == 1;
    assert Count(d.friendships, b, a) == 1;
    assert Count(r.dir.friendships, a, b) == 0;
    assert Count(r.dir.friendships, b, a) == 0;
  }
}

=== FILE: friend_files.dfy ===
/**
 * The two flat files of the Maven server's friend directory. `friendships`
 * holds one line `a|b` per friendship, written only from the side whose id
 * sorts first (`a.compareTo(b) < 0`), and reading a line adds both directions.
 * `friend_requests` holds one line `sender|receiver` per pending request, and
 * reading it files the sender under the receiver.
 */
module FriendFiles {
  import opened Wrappers
  import opened JavaStrings
  import opened Common
  import opened FriendDirectory

  /**
   * One line `a|b`: a single line of text when neither id holds a line break,
   * and split back into the two ids when neither holds `|` and `b` is not empty.
   */
  function PairLine(a: string, b: string): (line: string)
    ensures OneLine(a) && OneLine(b) ==> OneLine(line)
    ensures Free(a, '|') && Free(b, '|') && b != "" ==> Split(line, '|') == [a, b]
  {
    var line := a + "|" + b;
    assert line == a + ['|'] + b;
    if Free(a, '|') && Free(b, '|') && b != "" then
      SplitPair(a, b, '|');
      line
    else line
  }

  /** A line is read only when it splits on `|` into exactly two fields. */
  function DecodePair(line: string): (r: Option<(string, string)>)
    ensures r.Some? <==> |Split(line, '|')| == 2
  {
    var parts := Split(line, '|');
    if |parts| == 2 then Some((parts[0], parts[1])) else None
  }

  /** A line written from two `|`-free ids reads back as that pair when the second id is not empty. */
  lemma DecodePairLine(a: string, b: string)
    requires Free(a, '|') && Free(b, '|') && b != ""
    ensures DecodePair(PairLine(a, b)) == Some((a, b))
  {
  }

  /**
   * Every id in the map, as key or as list entry, is free of `|` and of line
   * breaks, so that each saved line reads back as the pair it was written from.
   */
  ghost predicate StorableLists(m: Lists)
  {
    forall k :: k in m ==> Free(k, '|') && AllFree(m[k], '|') && OneLine(k) && AllOneLine(m[k])
  }

  // ---------------------------------------------------------------------------
  // Friendships
  // ---------------------------------------------------------------------------

  /**
   * The lines written for the friend list `vs` of `k`: a line `k|v` for each
   * entry `v` sorting after `k`, none for the others.
   */
  function FriendshipLines(k: string, vs: seq<string>): (r: seq<string>)
    ensures |r| <= |vs|
    ensures forall v | v in vs && Less(k, v) :: PairLine(k, v) in r
    ensures forall i | 0 <= i < |r| :: exists j | 0 <= j < |vs| :: Less(k, vs[j]) && r[i] == PairLine(k, vs[j])
  {
    if |vs| == 0 then []
    else
      var v := vs[|vs| - 1];
      FriendshipLines(k, vs[..|vs| - 1]) + (if Less(k, v) then [PairLine(k, v)] else [])
  }

  /**
   * `saveFriendships`, visiting the users in iteration order `order`: a line
   * for every friendship seen from the side that sorts first, each one line of
   * text when the ids are storable.
   */
  function SaveFriendships(f: Lists, order: seq<string>): (r: seq<string>)
    ensures forall k, v | k in order && k in f && v in f[k] && Less(k, v) :: PairLine(k, v) in r
    ensures StorableLists(f) ==> AllOneLine(r)
  {
    if |order| == 0 then []
    else
      var k := order[|order| - 1];
      SaveFriendships(f, order[..|order| - 1]) + (if k in f then FriendshipLines(k, f[k]) else [])
  }

  /** `loadFriendships`: each two-field line adds the friendship in both directions. */
  function LoadFriendships(lines: seq<string>): (f: Lists)
    ensures NoEmptyLists(f)
  {
    if |lines| == 0 then map[]
    else LoadLine(LoadFriendships(lines[..|lines| - 1]), lines[|lines| - 1])
  }

  /**
   * One line of the friendships file: an unreadable line changes nothing; a
   * readable pair `a|b` appends `b` to the list of `a` and `a` to that of `b`.
   */
  function LoadLine(f: Lists, line: string): (g: Lists)
    requires NoEmptyLists(f)
    ensures NoEmptyLists(g)
    ensures DecodePair(line).None? ==> g == f
    ensures DecodePair(line).Some? ==> g.Keys == f.Keys + {DecodePair(line).value.0, DecodePair(line).value.1}
  {
    AddPair(f, DecodePair(line))
  }

  lemma AddPairCount(f: Lists, p: Option<(string, string)>, x: string, y: string)
    requires NoEmptyLists(f)
    ensures Count(AddPair(f, p), x, y) == Count(f, x, y) + PairShare(p, x, y)
  {
  }

  /**
   * A pair read from the file: `a` gains one entry `b` and `b` one entry `a`
   * (both on the same list when `a == b`); nothing else changes.
   */
  function AddPair(f: Lists, p: Option<(string, string)>): (g: Lists)
    requires NoEmptyLists(f)
    ensures NoEmptyLists(g)
    ensures p.None? ==> g == f
    ensures p.Some? ==> g.Keys == f.Keys + {p.value.0, p.value.1}
    ensures p.Some? ==> forall x, y :: Count(g, x, y) == Count(f, x, y) + Both(p.value.0, p.value.1, x, y)
  {
    match p
    case Some((a, b)) =>
      AppendBoth(f, a, b);
      Append(Append(f, a, b), b, a)
    case None => f
  }

  /** The entries a pair `a|b` adds to the list of `x` for partner `y`. */
  function Both(a: string, b: string, x: string, y: string): nat
  {
    (if x == a && y == b then 1 else 0) + (if x == b && y == a then 1 else 0)
  }

  /** Appending `b` to the list of `a` and then `a` to the list of `b` adds one entry each way. */
  lemma AppendBoth(f: Lists, a: string, b: string)
    ensures forall x, y :: Count(Append(Append(f, a, b), b, a), x, y) == Count(f, x, y) + Both(a, b, x, y)
  {
    var f1 := Append(f, a, b);
    assert forall x, y :: Count(f1, x, y) == Count(f, x, y) + (if x == a && y == b then 1 else 0);
  }

  /** How many entries a line contributes to the list of `x` for partner `y`. */
  function PairContribution(line: string, x: string, y: string): nat
  {
    PairShare(DecodePair(line), x, y)
  }

  function PairShare(p: Option<(string, string)>, x: string, y: string): nat
  {
    match p
    case Some((a, b)) => (if a == x && b == y then 1 else 0) + (if b == x && a == y then 1 else 0)
    case None => 0
  }

  function PairCount(lines: seq<string>, x: string, y: string): nat
  {
    if |lines| == 0 then 0
    else PairCount(lines[..|lines| - 1], x, y) + PairContribution(lines[|lines| - 1], x, y)
  }

  lemma {:induction false} LoadFriendshipsCount(lines: seq<string>, x: string, y: string)
    ensures Count(LoadFriendships(lines), x, y) == PairCount(lines, x, y)
  {
    if |lines| > 0 {
      var pre := lines[..|lines| - 1];
      var line := lines[|lines| - 1];
      LoadFriendshipsCount(pre, x, y);
      LoadLineCount(LoadFriendships(pre), line, x, y);
    }
  }

  /** Reading one more line adds that line's contribution. */
  lemma LoadLineCount(f: Lists, line: string, x: string, y: string)
    requires NoEmptyLists(f)
    ensures Count(LoadLine(f, line), x, y) == Count(f, x, y) + PairContribution(line, x, y)
  {
    AddPairCount(f, DecodePair(line), x, y);
  }

  /** Whatever the file holds, the friend lists read from it are symmetric. */
  lemma LoadFriendshipsSymmetric(lines: seq<string>)
    ensures Symmetric(LoadFriendships(lines))
  {
    forall a, b ensures Count(LoadFriendships(lines), a, b) == Count(LoadFriendships(lines), b, a) {
      LoadFriendshipsCount(lines, a, b);
      LoadFriendshipsCount(lines, b, a);
      PairCountSymmetric(lines, a, b);
    }
  }

  lemma {:induction false} PairCountSymmetric(lines: seq<string>, x: string, y: string)
    ensures PairCount(lines, x, y) == PairCount(lines, y, x)
  {
    if |lines| > 0 {
      PairCountSymmetric(lines[..|lines| - 1], x, y);
    }
  }

  lemma {:induction false} PairCountConcat(xs: seq<string>, ys: seq<string>, x: string, y: string)
    ensures PairCount(xs + ys, x, y) == PairCount(xs, x, y) + PairCount(ys, x, y)
    decreases |ys|
  {
    if |ys| > 0 {
      var zs := xs + ys;
      assert zs[..|zs| - 1] == xs + ys[..|ys| - 1];
      PairCountConcat(xs, ys[..|ys| - 1], x, y);
    } else {
      assert xs + ys == xs;
    }
  }

  /** The entries the saved friend list `vs` of `k` contributes for `x` and partner `y`. */
  function SavedShare(k: string, vs: seq<string>, x: string, y: string): nat
  {
    (if k == x && Less(x, y) then multiset(vs)[y] else 0)
    + (if k == y && Less(y, x) then multiset(vs)[x] else 0)
  }

  lemma {:induction false} PairCountLines(k: string, vs: seq<string>, x: string, y: string)
    requires Free(k, '|') && AllFree(vs, '|')
    ensures PairCount(FriendshipLines(k, vs), x, y) == SavedShare(k, vs, x, y)
  {
    if |vs| > 0 {
      var pre := vs[..|vs| - 1];
      var v := vs[|vs| - 1];
      assert vs == pre + [v];
      assert AllFree(pre, '|') && Free(v, '|');
      PairCountLines(k, pre, x, y);
      var tail := if Less(k, v) then [PairLine(k, v)] else [];
      assert FriendshipLines(k, vs) == FriendshipLines(k, pre) + tail;
      PairCountConcat(FriendshipLines(k, pre), tail, x, y);
      PairCountLinesStep(k, pre, v, x, y);
    }
  }

  lemma PairCountLinesStep(k: string, pre: seq<string>, v: string, x: string, y: string)
    requires Free(k, '|') && Free(v, '|')
    ensures var tail := if Less(k, v) then [PairLine(k, v)] else [];
      SavedShare(k, pre + [v], x, y) == SavedShare(k, pre, x, y) + PairCount(tail, x, y)
  {
    assert multiset(pre + [v]) == multiset(pre) + multiset{v};
    if Less(k, v) {
      LessNonEmpty(k, v);
      DecodePairLine(k, v);
      var tail := [PairLine(k, v)];
      assert tail[..0] == [];
      assert PairCount(tail, x, y) == PairContribution(PairLine(k, v), x, y);
    }
  }

  lemma {:induction false} PairCountSave(f: Lists, order: seq<string>, x: string, y: string)
    requires Distinct(order) && StorableLists(f)
    ensures PairCount(SaveFriendships(f, order), x, y)
      == (if x in order && Less(x, y) then Count(f, x, y) else 0)
       + (if y in order && Less(y, x) then Count(f, y, x) else 0)
  {
    if |order| > 0 {
      var pre := order[..|order| - 1];
      var k := order[|order| - 1];
      assert order == pre + [k];
      assert Distinct(pre);
      assert k !in pre;
      PairCountSave(f, pre, x, y);
      var block := if k in f then FriendshipLines(k, f[k]) else [];
      PairCountConcat(SaveFriendships(f, pre), block, x, y);
      if k in f {
        PairCountLines(k, f[k], x, y);
        assert SavedShare(k, f[k], x, y)
          == (if k == x && Less(x, y) then Count(f, x, y) else 0)
           + (if k == y && Less(y, x) then Count(f, y, x) else 0);
      }
    }
  }

  /**
   * The friendships round-trip: saving symmetric friend lists with no
   * self-friendship, no empty list and no `|` or line break in any id, in any
   * iteration order and with either line separator, and reading the file back
   * line by line, gives every user the same friends with the same
   * multiplicities (list order is not kept).
   */
  lemma LoadSaveFriendships(f: Lists, order: seq<string>, sep: string)
    requires Symmetric(f) && NoSelf(f) && NoEmptyLists(f) && StorableLists(f)
    requires Enumerates(order, f.Keys)
    requires LineSeparator(sep)
    ensures var g := LoadFriendships(ReadLines(WriteLines(SaveFriendships(f, order), sep)));
      && g.Keys == f.Keys
      && forall x :: multiset(Lookup(g, x)) == multiset(Lookup(f, x))
  {
    var lines := SaveFriendships(f, order);
    ReadWriteLines(lines, sep);
    var g := LoadFriendships(lines);
    forall x, y ensures Count(g, x, y) == Count(f, x, y) {
      LoadFriendshipsCount(lines, x, y);
      PairCountSave(f, order, x, y);
      LessTrichotomy(x, y);
      LessIrreflexive(x);
      assert Count(f, x, y) == Count(f, y, x);
      assert x == y ==> Count(f, x, y) == 0;
      assert x !in order ==> Count(f, x, y) == 0;
      assert y !in order ==> Count(f, y, x) == 0;
    }
    forall x ensures multiset(Lookup(g, x)) == multiset(Lookup(f, x)) {
      assert forall y :: multiset(Lookup(g, x))[y] == Count(g, x, y);
    }
    forall x ensures x in g <==> x in f {
      if x in g {
        assert g[x][0] in multiset(Lookup(g, x));
      }
      if x in f {
        assert f[x][0] in multiset(Lookup(f, x));
      }
    }
  }

  // ---------------------------------------------------------------------------
  // Pending friend requests
  // ---------------------------------------------------------------------------

  /** The lines written for the senders `vs` waiting on receiver `k`: `s|k` for each sender in turn. */
  function RequestLines(vs: seq<string>, k: string): (r: seq<string>)
    ensures |r| == |vs|
    ensures forall i | 0 <= i < |vs| :: r[i] == PairLine(vs[i], k)
  {
    if |vs| == 0 then []
    else RequestLines(vs[..|vs| - 1], k) + [PairLine(vs[|vs| - 1], k)]
  }

  /**
   * `saveFriendRequests`, visiting the receivers in iteration order `order`:
   * a line for every pending request of a visited receiver, each one line of
   * text when the ids are storable.
   */
  function SaveFriendRequests(p: Lists, order: seq<string>): (r: seq<string>)
    ensures forall k, i | k in order && k in p && 0 <= i < |p[k]| :: PairLine(p[k][i], k) in r
    ensures StorableLists(p) ==> AllOneLine(r)
  {
    if |order| == 0 then []
    else
      var k := order[|order| - 1];
      SaveFriendRequests(p, order[..|order| - 1]) + (if k in p then RequestLines(p[k], k) else [])
  }

  /** `loadFriendRequests`: a two-field line `s|r` files sender `s` under receiver `r`. */
  function LoadFriendRequests(lines: seq<string>): (p: Lists)
    ensures NoEmptyLists(p)
  {
    if |lines| == 0 then map[]
    else
      var p := LoadFriendRequests(lines[..|lines| - 1]);
      match DecodePair(lines[|lines| - 1])
      case Some((s, r)) => Append(p, r, s)
      case None => p
  }

  /** The sender one line files under receiver `r`, if any. */
  function Filed(line: string, r: string): seq<string>
  {
    match DecodePair(line)
    case Some((s, r')) => if r' == r then [s] else []
    case None => []
  }

  /** The senders the lines file under receiver `r`, in file order. */
  function Senders(lines: seq<string>, r: string): seq<string>
  {
    if |lines| == 0 then []
    else Senders(lines[..|lines| - 1], r) + Filed(lines[|lines| - 1], r)
  }

  lemma FiledPairLine(s: string, k: string, r: string)
    requires Free(s, '|') && Free(k, '|') && k != ""
    ensures Filed(PairLine(s, k), r) == if k == r then [s] else []
  {
    DecodePairLine(s, k);
  }

  lemma SendersSnoc(lines: seq<string>, line: string, r: string)
    ensures Senders(lines + [line], r) == Senders(lines, r) + Filed(line, r)
  {
    assert (lines + [line])[..|lines|] == lines;
  }

  lemma {:induction false} LoadRequestsLookup(lines: seq<string>, r: string)
    ensures Lookup(LoadFriendRequests(lines), r) == Senders(lines, r)
  {
    if |lines| > 0 {
      LoadRequestsLookup(lines[..|lines| - 1], r);
    }
  }

  lemma {:induction false} SendersConcat(xs: seq<string>, ys: seq<string>, r: string)
    ensures Senders(xs + ys, r) == Senders(xs, r) + Senders(ys, r)
    decreases |ys|
  {
    if |ys| > 0 {
      var pre := ys[..|ys| - 1];
      var y := ys[|ys| - 1];
      assert ys == pre + [y];
      assert xs + ys == (xs + pre) + [y];
      SendersConcat(xs, pre, r);
      SendersSnoc(xs + pre, y, r);
      SendersSnoc(pre, y, r);
    } else {
      assert xs + ys == xs;
    }
  }

  lemma {:induction false} SendersRequestLines(vs: seq<string>, k: string, r: string)
    requires Free(k, '|') && AllFree(vs, '|') && k != ""
    ensures Senders(RequestLines(vs, k), r) == if k == r then vs else []
  {
    if |vs| > 0 {
      var pre := vs[..|vs| - 1];
      var v := vs[|vs| - 1];
      assert vs == pre + [v];
      assert AllFree(pre, '|') && Free(v, '|');
      SendersRequestLines(pre, k, r);
      FiledPairLine(v, k, r);
      var lines := RequestLines(pre, k);
      assert RequestLines(vs, k) == lines + [PairLine(v, k)];
      SendersSnoc(lines, PairLine(v, k), r);
      if k == r {
        assert Senders(lines, r) + Filed(PairLine(v, k), r) == pre + [v];
      } else {
        assert Senders(lines, r) + Filed(PairLine(v, k), r) == [];
      }
    }
  }

  lemma {:induction false} SendersSave(p: Lists, order: seq<string>, r: string)
    requires Distinct(order) && StorableLists(p)
    requires forall k :: k in p && p[k] != [] ==> k != ""
    ensures Senders(SaveFriendRequests(p, order), r) == if r in order then Lookup(p, r) else []
  {
    if |order| > 0 {
      var pre := order[..|order| - 1];
      var k := order[|order| - 1];
      assert order == pre + [k];
      assert Distinct(pre);
      assert k !in pre;
      SendersSave(p, pre, r);
      var block := if k in p then RequestLines(p[k], k) else [];
      SendersConcat(SaveFriendRequests(p, pre), block, r);
      if k in p {
        if p[k] == [] {
          assert block == [];
        } else {
          SendersRequestLines(p[k], k, r);
        }
      }
    }
  }

  /**
   * The friend-requests round-trip: saving the pending lists in any iteration
   * order and with either line separator, and reading the file back line by
   * line, gives every receiver the same senders in the same order; only
   * receivers whose list had become empty are gone. Ids must be free of `|`
   * and of line breaks, and a receiver with a request must have a non-empty id.
   */
  lemma LoadSaveFriendRequests(p: Lists, order: seq<string>, sep: string)
    requires StorableLists(p)
    requires forall k :: k in p && p[k] != [] ==> k != ""
    requires Enumerates(order, p.Keys)
    requires LineSeparator(sep)
    ensures var q := LoadFriendRequests(ReadLines(WriteLines(SaveFriendRequests(p, order), sep)));
      && (forall r :: Lookup(q, r) == Lookup(p, r))
      && (forall r :: r in q <==> r in p && p[r] != [])
  {
    ReadWriteLines(SaveFriendRequests(p, order), sep);
    var q := LoadFriendRequests(SaveFriendRequests(p, order));
    forall r ensures Lookup(q, r) == Lookup(p, r) {
      LoadRequestsLookup(SaveFriendRequests(p, order), r);
      SendersSave(p, order, r);
    }
    forall r ensures r in q <==> r in p && p[r] != [] {
      assert Lookup(q, r) == Lookup(p, r);
    }
  }
}

=== FILE: friend_sets.dfy ===
/**
 * The root `UserManager`: each user id owns a set of friend ids. Friendship
 * is added and removed on both sides at once, so a symmetric relation stays
 * symmetric. Ids arrive as Java strings that may be `null`.
 */
module FriendSets {
  import opened Wrappers
  import opened Common

  /** The user map: user id to that user's friend set. */
  type Friends = map<string, set<string>>

  datatype Outcome = Outcome(friends: Friends, ok: bool)

  /** `addUser`: null and empty ids are ignored; an existing user keeps their friends. */
  function AddUser(m: Friends, id: JString): (r: Friends)
    ensures !Given(id) ==> r == m
    ensures Given(id) ==> r.Keys == m.Keys + {id.value}
    ensures forall k :: k in m ==> k in r && r[k] == m[k]
    ensures Given(id) && id.value !in m ==> r[id.value] == {}
  {
    if !Given(id) || id.value in m then m else m[id.value := {}]
  }

  /**
   * `addFriend`: refused for a null or empty id, for a user befriending
   * themself, for an unknown user and for users already friends; otherwise
   * each id enters the other's set.
   */
  function AddFriend(m: Friends, u: JString, f: JString): (r: Outcome)
    ensures r.ok <==>
      && Given(u) && Given(f) && u.value != f.value
      && u.value in m && f.value in m && f.value !in m[u.value]
    ensures !r.ok ==> r.friends == m
    ensures r.friends.Keys == m.Keys
    ensures r.ok ==> forall a, b | a in m ::
      b in r.friends[a] <==> b in m[a] || (a == u.value && b == f.value) || (a == f.value && b == u.value)
  {
    if !Given(u) || !Given(f) || u.value == f.value then Outcome(m, false)
    else if u.value in m && f.value in m && f.value !in m[u.value] then
      var m1 := m[u.value := m[u.value] + {f.value}];
      Outcome(m1[f.value := m1[f.value] + {u.value}], true)
    else Outcome(m, false)
  }

  /**
   * `deleteFriend`: refused for a null or empty id, for an unknown user and
   * when the second id is not in the first one's set; otherwise each id
   * leaves the other's set.
   */
  function DeleteFriend(m: Friends, u: JString, f: JString): (r: Outcome)
    ensures r.ok <==>
      && Given(u) && Given(f)
      && u.value in m && f.value in m && f.value in m[u.value]
    ensures !r.ok ==> r.friends == m
    ensures r.friends.Keys == m.Keys
    ensures r.ok ==> forall a, b | a in m ::
      b in r.friends[a] <==> b in m[a] && !(a == u.value && b == f.value) && !(a == f.value && b == u.value)
  {
    if !Given(u) || !Given(f) then Outcome(m, false)
    else if u.value in m && f.value in m && f.value in m[u.value] then
      var m1 := m[u.value := m[u.value] - {f.value}];
      Outcome(m1[f.value := m1[f.value] - {u.value}], true)
    else Outcome(m, false)
  }

  /** Friendship is mutual, and every friend is a known user. */
  ghost predicate Symmetric(m: Friends)
  {
    forall a, b | a in m && b in m[a] :: b in m && a in m[b]
  }

  /** Nobody is their own friend. */
  predicate NoSelf(m: Friends)
  {
    forall a | a in m :: a !in m[a]
  }

  ghost predicate Valid(m: Friends)
  {
    Symmetric(m) && NoSelf(m)
  }

  lemma AddUserKeepsValid(m: Friends, id: JString)
    requires Valid(m)
    ensures Valid(AddUser(m, id))
  {
    var r := AddUser(m, id);
    forall a, b | a in r && b in r[a] ensures b in r && a in r[b] {
      assert a in m;
    }
  }

  lemma AddFriendKeepsValid(m: Friends, u: JString, f: JString)
    requires Valid(m)
    ensures Valid(AddFriend(m, u, f).friends)
  {
    var r := AddFriend(m, u, f);
    if r.ok {
      forall a, b | a in r.friends && b in r.friends[a] ensures b in r.friends && a in r.friends[b] {
        if b in m[a] {
          assert a in m[b];
        }
      }
    }
  }

  lemma DeleteFriendKeepsValid(m: Friends, u: JString, f: JString)
    requires Valid(m)
    ensures Valid(DeleteFriend(m, u, f).friends)
  {
    var r := DeleteFriend(m, u, f);
    if r.ok {
      forall a, b | a in r.friends && b in r.friends[a] ensures b in r.friends && a in r.friends[b] {
        assert b in m[a];
        assert a in m[b];
      }
    }
  }

  /** Adding a user twice is adding them once. */
  lemma AddUserIdempotent(m: Friends, id: JString)
    ensures AddUser(AddUser(m, id), id) == AddUser(m, id)
  {
  }

  /** On a valid map `deleteFriend` undoes a successful `addFriend`. */
  lemma AddThenDelete(m: Friends, u: JString, f: JString)
    requires Valid(m)
    requires AddFriend(m, u, f).ok
    ensures DeleteFriend(AddFriend(m, u, f).friends, u, f) == Outcome(m, true)
  {
    var m1 := AddFriend(m, u, f).friends;
    var r := DeleteFriend(m1, u, f);
    assert u.value !in m[f.value];
    forall a | a in m ensures r.friends[a] == m[a] {
      forall b ensures b in r.friends[a] <==> b in m[a] {
        if a == u.value && b == f.value {
        } else if a == f.value && b == u.value {
        }
      }
    }
  }

  /** On a valid map `addFriend` undoes a successful `deleteFriend`. */
  lemma DeleteThenAdd(m: Friends, u: JString, f: JString)
    requires Valid(m)
    requires DeleteFriend(m, u, f).ok
    ensures AddFriend(DeleteFriend(m, u, f).friends, u, f) == Outcome(m, true)
  {
    var m1 := DeleteFriend(m, u, f).friends;
    assert u.value != f.value;
    assert u.value in m[f.value];
    var r := AddFriend(m1, u, f);
    forall a | a in m ensures r.friends[a] == m[a] {
      forall b ensures b in r.friends[a] <==> b in m[a] {
      }
    }
  }

}

=== FILE: groups.dfy ===
/**
 * The root `GroupManager`: group id to the set of member ids. Creating a
 * group does not make anybody a member of it.
 */
module Groups {
  import opened Wrappers
  import opened Common

  type GroupMap = map<string, set<string>>

  datatype Outcome = Outcome(groups: GroupMap, ok: bool)

  /** `createGroup`: true exactly when the id is real and new; the new group is empty. */
  function CreateGroup(g: GroupMap, id: JString): (r: Outcome)
    ensures r.ok <==> Given(id) && id.value !in g
    ensures !r.ok ==> r.groups == g
    ensures r.ok ==> r.groups.Keys == g.Keys + {id.value} && r.groups[id.value] == {}
    ensures forall k | k in g :: k in r.groups && r.groups[k] == g[k]
  {
    if !Given(id) then Outcome(g, false)
    else if id.value in g then Outcome(g, false)
    else Outcome(g[id.value := {}], true)
  }

  /**
   * `addUserToGroup`: true exactly when both ids are real and the group
   * exists; the user is then a member, whether or not they were before.
   */
  function AddUserToGroup(g: GroupMap, gid: JString, uid: JString): (r: Outcome)
    ensures r.ok <==> Given(gid) && Given(uid) && gid.value in g
    ensures !r.ok ==> r.groups == g
    ensures r.groups.Keys == g.Keys
    ensures r.ok ==> forall x :: x in r.groups[gid.value] <==> x in g[gid.value] || x == uid.value
    ensures forall k | k in g && (!r.ok || k != gid.value) :: r.groups[k] == g[k]
  {
    if !Given(gid) || !Given(uid) then Outcome(g, false)
    else if gid.value in g then Outcome(g[gid.value := g[gid.value] + {uid.value}], true)
    else Outcome(g, false)
  }

  /**
   * `removeUserFromGroup`: true exactly when both ids are real, the group
   * exists and the user is in it; then only that user leaves.
   */
  function RemoveUserFromGroup(g: GroupMap, gid: JString, uid: JString): (r: Outcome)
    ensures r.ok <==> Given(gid) && Given(uid) && gid.value in g && uid.value in g[gid.value]
    ensures !r.ok ==> r.groups == g
    ensures r.groups.Keys == g.Keys
    ensures r.ok ==> forall x :: x in r.groups[gid.value] <==> x in g[gid.value] && x != uid.value
    ensures forall k | k in g && (!r.ok || k != gid.value) :: r.groups[k] == g[k]
  {
    if !Given(gid) || !Given(uid) then Outcome(g, false)
    else if gid.value in g && uid.value in g[gid.value] then
      Outcome(g[gid.value := g[gid.value] - {uid.value}], true)
    else Outcome(g, false)
  }

  /** `getGroupUsers`: the members, or the empty set for a null, empty or unknown id. */
  function GetGroupUsers(g: GroupMap, gid: JString): (r: set<string>)
    ensures Given(gid) && gid.value in g ==> r == g[gid.value]
    ensures !(Given(gid) && gid.value in g) ==> r == {}
  {
    if !Given(gid) then {} else if gid.value in g then g[gid.value] else {}
  }

  /** After a successful add the user is listed by `getGroupUsers`. */
  lemma AddThenListed(g: GroupMap, gid: JString, uid: JString)
    requires AddUserToGroup(g, gid, uid).ok
    ensures uid.value in GetGroupUsers(AddUserToGroup(g, gid, uid).groups, gid)
  {
  }

  /** Adding a member twice is adding them once. */
  lemma AddUserTwice(g: GroupMap, gid: JString, uid: JString)
    ensures var r := AddUserToGroup(g, gid, uid);
      AddUserToGroup(r.groups, gid, uid) == r
  {
  }

  /** Removing a member who was added to a group they were not in restores the group. */
  lemma AddThenRemove(g: GroupMap, gid: JString, uid: JString)
    requires AddUserToGroup(g, gid, uid).ok && uid.value !in g[gid.value]
    ensures RemoveUserFromGroup(AddUserToGroup(g, gid, uid).groups, gid, uid) == Outcome(g, true)
  {
    var g1 := AddUserToGroup(g, gid, uid).groups;
    assert g1[gid.value] - {uid.value} == g[gid.value];
    assert g1[gid.value := g[gid.value]] == g;
  }

  /** Adding back a member who was just removed restores the group. */
  lemma RemoveThenAdd(g: GroupMap, gid: JString, uid: JString)
    requires RemoveUserFromGroup(g, gid, uid).ok
    ensures AddUserToGroup(RemoveUserFromGroup(g, gid, uid).groups, gid, uid) == Outcome(g, true)
  {
    var g1 := RemoveUserFromGroup(g, gid, uid).groups;
    assert g1[gid.value] + {uid.value} == g[gid.value];
    assert g1[gid.value := g[gid.value]] == g;
  }

  /** Every member id stored in any group is non-empty. */
  predicate RealMembers(g: GroupMap)
  {
    forall k, x | k in g && x in g[k] :: x != ""
  }

  lemma OperationsKeepRealMembers(g: GroupMap, gid: JString, uid: JString)
    requires RealMembers(g)
    ensures RealMembers(CreateGroup(g, gid).groups)
    ensures RealMembers(AddUserToGroup(g, gid, uid).groups)
    ensures RealMembers(RemoveUserFromGroup(g, gid, uid).groups)
  {
  }
}

=== FILE: java_strings.dfy ===
/**
 * The few `java.lang.String` operations the servers rely on, with their Java
 * semantics spelled out: `split` on a one-character delimiter (which keeps
 * leading empty pieces but drops trailing ones), `trim`, `compareTo` as a
 * lexicographic order, `contains`, and the joining of pieces with a separator
 * that the servers write by hand with `+` or a `StringBuilder`.
 */
module JavaStrings {

  /** Strings of the model: sequences of characters; `null` is modelled separately. */
  predicate Free(s: string, d: char)
  {
    d !in s
  }

  predicate AllFree(xs: seq<string>, d: char)
  {
    forall i :: 0 <= i < |xs| ==> Free(xs[i], d)
  }

  // ---------------------------------------------------------------------------
  // Joining and splitting
  // ---------------------------------------------------------------------------

  /** The pieces of `xs` with one `d` between neighbours and none at the ends. */
  function Join(xs: seq<string>, d: char): string
  {
    if |xs| == 0 then ""
    else if |xs| == 1 then xs[0]
    else xs[0] + [d] + Join(xs[1..], d)
  }

  /**
   * Every piece between two delimiters (and before the first and after the
   * last), empty pieces included: the raw material of Java's `split`.
   */
  function RawSplit(s: string, d: char): (r: seq<string>)
    ensures |r| >= 1
    ensures AllFree(r, d)
    ensures |r| == 1 <==> Free(s, d)
    decreases |s|
  {
    if |s| == 0 then [""]
    else
      var rest := RawSplit(s[1..], d);
      if s[0] == d then [""] + rest
      else [[s[0]] + rest[0]] + rest[1..]
  }

  /** Removes empty strings from the end of `xs`, as `split` with limit 0 does. */
  function DropTrailingEmpty(xs: seq<string>): (r: seq<string>)
    ensures |r| <= |xs| && r == xs[..|r|]
    ensures |r| > 0 ==> r[|r| - 1] != ""
    ensures forall i :: |r| <= i < |xs| ==> xs[i] == ""
  {
    if |xs| == 0 then []
    else if xs[|xs| - 1] == "" then DropTrailingEmpty(xs[..|xs| - 1])
    else xs
  }

  /**
   * Java's `s.split(d)` for a delimiter `d` that is one ordinary character (or
   * the escaped `"\\|"`): a string without `d` is returned whole, even when it
   * is empty; otherwise the raw pieces lose their trailing empty strings, so
   * that `"a,".split(",")` has one piece and `"|".split("\\|")` has none.
   */
  function Split(s: string, d: char): (r: seq<string>)
    ensures AllFree(r, d)
  {
    if Free(s, d) then [s] else DropTrailingEmpty(RawSplit(s, d))
  }

  lemma {:induction false} RawSplitJoin(s: string, d: char)
    ensures Join(RawSplit(s, d), d) == s
    decreases |s|
  {
    if |s| > 0 {
      var rest := RawSplit(s[1..], d);
      RawSplitJoin(s[1..], d);
      if s[0] == d {
        assert s == [d] + s[1..];
      } else {
        assert s == [s[0]] + s[1..];
        if |rest| > 1 {
          assert rest == [rest[0]] + rest[1..];
          assert Join(rest, d) == rest[0] + [d] + Join(rest[1..], d);
        }
      }
    }
  }

  /** Raw splitting is the inverse of joining pieces that do not contain the delimiter. */
  lemma {:induction false} JoinRawSplit(xs: seq<string>, d: char)
    requires |xs| >= 1 && AllFree(xs, d)
    ensures RawSplit(Join(xs, d), d) == xs
    decreases |xs|
  {
    if |xs| == 1 {
      RawSplitFree(xs[0], d);
    } else {
      JoinRawSplit(xs[1..], d);
      RawSplitCons(xs[0], Join(xs[1..], d), d);
      assert [xs[0]] + xs[1..] == xs;
    }
  }

  /** A piece free of `d` is split off the front whole. */
  lemma {:induction false} RawSplitCons(a: string, b: string, d: char)
    requires Free(a, d)
    ensures RawSplit(a + [d] + b, d) == [a] + RawSplit(b, d)
    decreases |a|
  {
    if |a| == 0 {
      assert a + [d] + b == [d] + b;
      assert ([d] + b)[1..] == b;
    } else {
      assert a[0] in a;
      assert Free(a[1..], d) by {
        assert forall c | c in a[1..] :: c in a;
      }
      RawSplitCons(a[1..], b, d);
      RawSplitStep(a, b, d);
    }
  }

  /** One more leading non-delimiter character joins the first piece. */
  lemma RawSplitStep(a: string, b: string, d: char)
    requires |a| > 0 && a[0] != d
    requires RawSplit(a[1..] + [d] + b, d) == [a[1..]] + RawSplit(b, d)
    ensures RawSplit(a + [d] + b, d) == [a] + RawSplit(b, d)
  {
    var s := a + [d] + b;
    assert s[0] == a[0];
    assert s[1..] == a[1..] + [d] + b;
    assert [a[0]] + a[1..] == a;
  }

  lemma {:induction false} RawSplitFree(a: string, d: char)
    requires Free(a, d)
    ensures RawSplit(a, d) == [a]
    decreases |a|
  {
    if |a| > 0 {
      RawSplitFree(a[1..], d);
      assert [a[0]] + a[1..] == a;
    }
  }

  /** `s` consists of the character `d` only. */
  predicate OnlyOf(s: string, d: char)
  {
    forall i :: 0 <= i < |s| ==> s[i] == d
  }

  predicate AllEmpty(xs: seq<string>)
  {
    forall i :: 0 <= i < |xs| ==> xs[i] == ""
  }

  /** Every raw piece is empty exactly when the string is nothing but delimiters. */
  lemma {:induction false} RawSplitAllEmpty(s: string, d: char)
    ensures AllEmpty(RawSplit(s, d)) <==> OnlyOf(s, d)
    decreases |s|
  {
    var r := RawSplit(s, d);
    if |s| == 0 {
      assert r == [""];
    } else {
      var rest := RawSplit(s[1..], d);
      RawSplitAllEmpty(s[1..], d);
      if s[0] == d {
        assert r == [""] + rest;
        assert forall j :: 0 <= j < |rest| ==> rest[j] == r[j + 1];
        assert forall i :: 1 <= i < |r| ==> r[i] == rest[i - 1];
        assert forall j :: 0 <= j < |s| - 1 ==> s[1..][j] == s[j + 1];
        assert forall i :: 1 <= i < |s| ==> s[i] == s[1..][i - 1];
      } else {
        assert r[0] == [s[0]] + rest[0];
        assert |r[0]| > 0;
        assert !OnlyOf(s, d);
        assert !AllEmpty(r);
      }
    }
  }

  /**
   * `split` returns no piece at all exactly for a non-empty string of
   * delimiters only: `"|".split("\\|")` and `"||".split("\\|")` are empty,
   * `"".split("\\|")` is `[""]`.
   */
  lemma SplitEmpty(s: string, d: char)
    ensures Split(s, d) == [] <==> s != "" && OnlyOf(s, d)
  {
    if Free(s, d) {
      assert Split(s, d) == [s];
      if s != "" {
        assert s[0] != d;
      }
    } else {
      assert s != "";
      var raw := RawSplit(s, d);
      RawSplitAllEmpty(s, d);
      var r := DropTrailingEmpty(raw);
      assert Split(s, d) == r;
      if r != [] {
        assert raw[|r| - 1] == r[|r| - 1];
      } else {
        assert forall i :: 0 <= i < |raw| ==> raw[i] == "";
      }
    }
  }

  /** `d` occurs in the join of two or more pieces. */
  lemma JoinHasDelimiter(xs: seq<string>, d: char)
    requires |xs| >= 2
    ensures !Free(Join(xs, d), d)
  {
    assert Join(xs, d)[|xs[0]|] == d;
  }

  lemma JoinFree(xs: seq<string>, d: char)
    requires |xs| <= 1 && AllFree(xs, d)
    ensures Free(Join(xs, d), d)
  {
  }

  /**
   * Java's `split` recovers the pieces of a join when no piece contains the
   * delimiter and either there is only one piece or the last one is not empty
   * (a trailing empty piece would be dropped).
   */
  lemma SplitJoin(xs: seq<string>, d: char)
    requires |xs| >= 1 && AllFree(xs, d)
    requires |xs| == 1 || xs[|xs| - 1] != ""
    ensures Split(Join(xs, d), d) == xs
  {
    if |xs| == 1 {
      JoinFree(xs, d);
    } else {
      JoinHasDelimiter(xs, d);
      JoinRawSplit(xs, d);
    }
  }

  /** The two-field record `a|b` splits back into its fields. */
  lemma SplitPair(a: string, b: string, d: char)
    requires Free(a, d) && Free(b, d) && b != ""
    ensures Split(a + [d] + b, d) == [a, b]
  {
    assert Join([a, b], d) == a + [d] + b by {
      assert Join([a, b], d) == a + [d] + Join([b], d);
    }
    SplitJoin([a, b], d);
  }

  /** The three-field record `a|b|c` splits back into its fields. */
  lemma SplitTriple(a: string, b: string, c: string, d: char)
    requires Free(a, d) && Free(b, d) && Free(c, d) && c != ""
    ensures Split(a + [d] + b + [d] + c, d) == [a, b, c]
  {
    assert Join([a, b, c], d) == a + [d] + b + [d] + c by {
      assert [a, b, c][1..] == [b, c];
      assert Join([b, c], d) == b + [d] + Join([c], d);
    }
    SplitJoin([a, b, c], d);
  }

  // ---------------------------------------------------------------------------
  // Text files: BufferedWriter.newLine and BufferedReader.readLine
  // ---------------------------------------------------------------------------

  /** A string that `readLine` can return: no `'\n'` and no `'\r'`. */
  predicate OneLine(s: string)
  {
    Free(s, '\n') && Free(s, '\r')
  }

  predicate AllOneLine(xs: seq<string>)
  {
    forall i :: 0 <= i < |xs| ==> OneLine(xs[i])
  }

  /** What `newLine()` writes: the platform's line separator. */
  predicate LineSeparator(sep: string)
  {
    sep == "\n" || sep == "\r\n"
  }

  /** The file a writer leaves after `write(line)` and `newLine()` for each line in turn. */
  function WriteLines(lines: seq<string>, sep: string): (text: string)
    requires LineSeparator(sep)
    ensures text == "" <==> lines == []
    ensures lines != [] ==> |text| >= |lines[0]| + |sep|
  {
    if |lines| == 0 then ""
    else lines[0] + sep + WriteLines(lines[1..], sep)
  }

  /** Where the line starting the text ends: its first `'\n'` or `'\r'`, or the end. */
  function LineEnd(text: string): (i: nat)
    ensures i <= |text| && OneLine(text[..i])
    ensures i < |text| ==> text[i] == '\n' || text[i] == '\r'
  {
    if |text| == 0 || text[0] == '\n' || text[0] == '\r' then 0
    else
      var i := LineEnd(text[1..]) + 1;
      assert text[..i] == [text[0]] + text[1..][..i - 1];
      i
  }

  /**
   * The lines `readLine` returns until it returns `null`: a line ends at
   * `'\n'`, at `'\r'`, or at `"\r\n"`, and a last line without a terminator
   * is still returned.
   */
  function ReadLines(text: string): (lines: seq<string>)
    ensures AllOneLine(lines)
    ensures text == "" <==> lines == []
    decreases |text|
  {
    if |text| == 0 then []
    else
      var i := LineEnd(text);
      if i == |text| then [text]
      else
        var next := if text[i] == '\r' && i + 1 < |text| && text[i + 1] == '\n' then i + 2 else i + 1;
        [text[..i]] + ReadLines(text[next..])
  }

  /** Reading back a written file gives the lines written, when none holds a line break. */
  lemma {:induction false} ReadWriteLines(lines: seq<string>, sep: string)
    requires AllOneLine(lines) && LineSeparator(sep)
    ensures ReadLines(WriteLines(lines, sep)) == lines
  {
    if |lines| > 0 {
      var line, tail := lines[0], lines[1..];
      AllOneLineTail(lines);
      var rest := WriteLines(tail, sep);
      calc {
        ReadLines(WriteLines(lines, sep));
        ReadLines(line + sep + rest);
        { ReadFirstLine(line, sep, rest); }
        [line] + ReadLines(rest);
        { ReadWriteLines(tail, sep); }
        [line] + tail;
      }
    }
  }

  lemma AllOneLineTail(lines: seq<string>)
    requires AllOneLine(lines) && |lines| > 0
    ensures OneLine(lines[0]) && AllOneLine(lines[1..])
  {
    forall i | 0 <= i < |lines| - 1 ensures OneLine(lines[1..][i]) {
      assert lines[1..][i] == lines[i + 1];
    }
  }

  /** A written line followed by its separator is read as that line, and reading goes on after it. */
  lemma ReadFirstLine(line: string, sep: string, rest: string)
    requires OneLine(line) && LineSeparator(sep)
    ensures ReadLines(line + sep + rest) == [line] + ReadLines(rest)
  {
    var text := line + sep + rest;
    assert text == line + (sep + rest);
    LineEndAt(line, sep + rest);
    var i := |line|;
    assert text[..i] == line;
    assert text[i] == '\n' || text[i] == '\r';
    if sep == "\n" {
      assert text[i] == '\n';
      assert text[i + 1..] == rest;
    } else {
      assert text[i] == '\r' && text[i + 1] == '\n';
      assert text[i + 2..] == rest;
    }
  }

  lemma {:induction false} LineEndAt(line: string, tail: string)
    requires OneLine(line) && |tail| > 0 && (tail[0] == '\n' || tail[0] == '\r')
    ensures LineEnd(line + tail) == |line|
  {
    if |line| == 0 {
      assert line + tail == tail;
    } else {
      assert line[0] in line;
      assert OneLine(line[1..]) by {
        assert forall c | c in line[1..] :: c in line;
      }
      assert (line + tail)[1..] == line[1..] + tail;
      LineEndAt(line[1..], tail);
    }
  }

  /** A record with a line break in it comes back as two lines. */
  lemma LineBreakSplitsRecord()
    ensures ReadLines(WriteLines(["a\nb|n|p"], "\n")) == ["a", "b|n|p"]
  {
    var second := "b|n|p" + "\n" + "";
    assert WriteLines(["a\nb|n|p"], "\n") == "a" + "\n" + second;
    assert OneLine("a") && OneLine("b|n|p");
    ReadFirstLine("a", "\n", second);
    ReadFirstLine("b|n|p", "\n", "");
  }

  // ---------------------------------------------------------------------------
  // trim / isEmpty
  // ---------------------------------------------------------------------------

  /** Java's `trim` treats every character up to U+0020 as removable. */
  predicate IsSpace(c: char)
  {
    c <= ' '
  }

  /** The index of the first non-space at or after `i`, or `|s|`. */
  function SkipSpaces(s: string, i: nat): (n: nat)
    requires i <= |s|
    ensures i <= n <= |s|
    ensures forall j :: i <= j < n ==> IsSpace(s[j])
    ensures n < |s| ==> !IsSpace(s[n])
    decreases |s| - i
  {
    if i < |s| && IsSpace(s[i]) then SkipSpaces(s, i + 1) else i
  }

  /** The end of `s[lo..hi]` once trailing spaces are dropped. */
  function SkipSpacesBack(s: string, lo: nat, hi: nat): (n: nat)
    requires lo <= hi <= |s|
    ensures lo <= n <= hi
    ensures forall j :: n <= j < hi ==> IsSpace(s[j])
    ensures n > lo ==> !IsSpace(s[n - 1])
  {
    if hi > lo && IsSpace(s[hi - 1]) then SkipSpacesBack(s, lo, hi - 1) else hi
  }

  /**
   * Java's `trim`: the longest middle part of `s` that neither starts nor ends
   * with a space or control character.
   */
  function Trim(s: string): (r: string)
    ensures |r| <= |s|
    ensures exists k :: OccursAt(s, r, k) && IsBlank(s[..k]) && IsBlank(s[k + |r|..])
    ensures |r| > 0 ==> !IsSpace(r[0]) && !IsSpace(r[|r| - 1])
    ensures r == "" <==> IsBlank(s)
  {
    var lo := SkipSpaces(s, 0);
    var hi := SkipSpacesBack(s, lo, |s|);
    TrimParts(s, lo, hi);
    var r := s[lo..hi];
    assert OccursAt(s, r, lo) && IsBlank(s[..lo]) && IsBlank(s[lo + |r|..]);
    assert |r| > 0 ==> r[0] == s[lo] && r[|r| - 1] == s[hi - 1];
    r
  }

  /** The cut `s[lo..hi]` sits between two blank stretches and is empty exactly when `s` is blank. */
  lemma TrimParts(s: string, lo: nat, hi: nat)
    requires lo == SkipSpaces(s, 0) && hi == SkipSpacesBack(s, lo, |s|)
    ensures OccursAt(s, s[lo..hi], lo) && IsBlank(s[..lo]) && IsBlank(s[hi..])
    ensures s[lo..hi] == "" <==> IsBlank(s)
  {
    forall j | 0 <= j < lo ensures IsSpace(s[..lo][j]) {
      assert s[..lo][j] == s[j];
    }
    forall j | 0 <= j < |s| - hi ensures IsSpace(s[hi..][j]) {
      assert s[hi..][j] == s[hi + j];
    }
    if lo < hi {
      assert !IsSpace(s[lo]);
    }
  }

  /** A string that neither starts nor ends with a space is its own `trim`. */
  lemma TrimTrimmed(s: string)
    requires s == "" || (!IsSpace(s[0]) && !IsSpace(s[|s| - 1]))
    ensures Trim(s) == s
  {
    assert SkipSpaces(s, 0) == 0;
    assert SkipSpacesBack(s, 0, |s|) == |s|;
  }

  /** `s.trim().isEmpty()`: nothing but spaces and control characters. */
  predicate IsBlank(s: string)
  {
    forall i :: 0 <= i < |s| ==> IsSpace(s[i])
  }

  // ---------------------------------------------------------------------------
  // compareTo / contains
  // ---------------------------------------------------------------------------

  /**
   * `a.compareTo(b) < 0`: at the first position where the strings differ the
   * character of `a` is smaller, or `a` is a proper prefix of `b`.
   */
  predicate Less(a: string, b: string): (r: bool)
    ensures r ==> a != b
    ensures |a| < |b| && a == b[..|a|] ==> r
    decreases |a|
  {
    if |a| == 0 then |b| > 0
    else if |b| == 0 then false
    else if a[0] != b[0] then a[0] < b[0]
    else Less(a[1..], b[1..])
  }

  /** `compareTo` orders distinct strings strictly one way or the other. */
  lemma {:induction false} LessTrichotomy(a: string, b: string)
    ensures a == b || Less(a, b) || Less(b, a)
    ensures !(Less(a, b) && Less(b, a))
    decreases |a|
  {
    if |a| > 0 && |b| > 0 && a[0] == b[0] {
      LessTrichotomy(a[1..], b[1..]);
      if a[1..] == b[1..] {
        assert a == [a[0]] + a[1..] && b == [b[0]] + b[1..];
      }
    }
  }

  lemma {:induction false} LessIrreflexive(a: string)
    ensures !Less(a, a)
    decreases |a|
  {
    if |a| > 0 {
      LessIrreflexive(a[1..]);
    }
  }

  /** Nothing is below the empty string. */
  lemma LessNonEmpty(a: string, b: string)
    requires Less(a, b)
    ensures b != ""
  {
  }

  predicate OccursAt(s: string, t: string, i: int)
  {
    0 <= i <= |s| - |t| && s[i..i + |t|] == t
  }

  /** Java's `s.contains(t)`. */
  predicate Contains(s: string, t: string)
  {
    exists i | 0 <= i <= |s| - |t| :: OccursAt(s, t, i)
  }

  lemma ContainsMiddle(a: string, t: string, b: string)
    ensures Contains(a + t + b, t)
  {
    assert OccursAt(a + t + b, t, |a|);
  }

  /** Text found in a piece is found in anything the piece is glued into. */
  lemma ContainsGlued(a: string, b: string, t: string)
    ensures Contains(b, t) ==> Contains(a + b, t)
    ensures Contains(a, t) ==> Contains(a + b, t)
  {
    if Contains(b, t) {
      var i :| 0 <= i <= |b| - |t| && OccursAt(b, t, i);
      assert (a + b)[|a| + i..|a| + i + |t|] == b[i..i + |t|];
      assert OccursAt(a + b, t, |a| + i);
    }
    if Contains(a, t) {
      ContainsPrefix(a, b, t);
    }
  }

  lemma ContainsPrefix(a: string, b: string, t: string)
    requires Contains(a, t)
    ensures Contains(a + b, t)
  {
    var j :| 0 <= j <= |a| - |t| && OccursAt(a, t, j);
    assert 0 <= j && j + |t| <= |a|;
    assert (a + b)[j..j + |t|] == a[j..j + |t|];
    assert OccursAt(a + b, t, j);
  }

  lemma ContainsSelf(t: string)
    ensures Contains(t, t)
  {
    assert OccursAt(t, t, 0);
  }

  /** Decimal rendering of an integer, as `Long.toString` writes it. */
  function IntToString(n: int): (r: string)
    ensures |r| >= 1
  {
    if n < 0 then "-" + NatToString(-n) else NatToString(n)
  }

  function NatToString(n: nat): (r: string)
    ensures |r| >= 1
    ensures forall i :: 0 <= i < |r| ==> '0' <= r[i] <= '9'
  {
    if n < 10 then [Digit(n)] else NatToString(n / 10) + [Digit(n % 10)]
  }

  function Digit(n: nat): (c: char)
    requires n < 10
    ensures '0' <= c <= '9'
  {
    ['0', '1', '2', '3', '4', '5', '6', '7', '8', '9'][n]
  }
}

=== FILE: line_protocol.dfy ===
/**
 * The root server's `ClientHandler`: one handler per connection reads text
 * lines `OPERATION|field|...`, answers each with one line, and registers a
 * login in the shared `clientMap` (user id to handler) and in the root
 * `UserManager`. Only `LOGIN` is understood. When reading fails with an
 * `IOException` the handler's own id leaves `clientMap`; when the client
 * closes the stream normally nothing is removed.
 */
module LineProtocol {
  import opened Wrappers
  import opened JavaStrings
  import opened Common
  import FriendSets

  /** A handler's identity. */
  type Conn = nat

  /** The four answers the handler writes, each followed by a newline. */
  datatype Reply = InvalidFormat | LoginFormatError | LoginOk | Unsupported

  function ReplyText(r: Reply): (t: string)
    ensures t != ""
  {
    match r
    case InvalidFormat => "无效的协议格式！"
    case LoginFormatError => "登录协议格式错误！"
    case LoginOk => "登录成功！"
    case Unsupported => "不支持的操作！"
  }

  /** Different answers are different texts, so a client can tell them apart. */
  lemma ReplyTextInjective(a: Reply, b: Reply)
    ensures ReplyText(a) == ReplyText(b) <==> a == b
  {
    if a != b {
      assert |ReplyText(a)| != |ReplyText(b)|;
    }
  }

  /**
   * What one handler sees: the shared `clientMap`, the shared friend map of
   * the root `UserManager`, and its own `userId` field (`null` before a login).
   */
  datatype Session = Session(clients: map<string, Conn>, users: FriendSets.Friends, userId: JString)

  datatype Step = Step(session: Session, reply: Reply)

  /** How the reading loop ends: `readLine` returns `null`, or it throws. */
  datatype End = Eof | IOError

  // ---------------------------------------------------------------------------
  // One line
  // ---------------------------------------------------------------------------

  /** The answer to a line, which depends on the line alone. */
  function Classify(line: string): (r: Reply)
    ensures r == InvalidFormat <==> Split(line, '|') == []
    ensures r == LoginFormatError <==> Split(line, '|') == ["LOGIN"]
    ensures r == LoginOk <==> |Split(line, '|')| >= 2 && Split(line, '|')[0] == "LOGIN"
  {
    var parts := Split(line, '|');
    if |parts| < 1 then InvalidFormat
    else if parts[0] == "LOGIN" then
      if |parts| < 2 then LoginFormatError else LoginOk
    else Unsupported
  }

  /** The id a line logs in with: the second field of a `LOGIN` line with at least two fields. */
  function LoginId(line: string): (r: Option<string>)
    ensures r.Some? <==> Classify(line) == LoginOk
  {
    var parts := Split(line, '|');
    if |parts| >= 2 && parts[0] == "LOGIN" then Some(parts[1]) else None
  }

  /**
   * One pass of the `while` loop in `run`: a login sets `userId`, puts this
   * handler under the id in `clientMap` (replacing whoever was there) and adds
   * the id to the `UserManager`; every other line only gets its answer.
   */
  function HandleLine(s: Session, self: Conn, line: string): (r: Step)
    ensures r.reply == Classify(line)
    ensures LoginId(line).None? ==> r.session == s
    ensures LoginId(line).Some? ==>
      var id := LoginId(line).value;
      && r.session.userId == Some(id)
      && r.session.clients == s.clients[id := self]
      && r.session.users == FriendSets.AddUser(s.users, Some(id))
  {
    match LoginId(line)
    case Some(id) => Step(Session(s.clients[id := self], FriendSets.AddUser(s.users, Some(id)), Some(id)), LoginOk)
    case None => Step(s, Classify(line))
  }

  /** Only a non-empty line of `|` characters splits into nothing and is called invalid. */
  lemma InvalidExactly(line: string)
    ensures Classify(line) == InvalidFormat <==> line != "" && OnlyOf(line, '|')
  {
    SplitEmpty(line, '|');
  }

  /**
   * A line built from `|`-free fields, the first `LOGIN` and the last
   * non-empty, logs in with the second field; later fields are ignored.
   */
  lemma LoginLine(fields: seq<string>)
    requires |fields| >= 2 && AllFree(fields, '|') && fields[0] == "LOGIN" && fields[|fields| - 1] != ""
    ensures LoginId(Join(fields, '|')) == Some(fields[1])
  {
    SplitJoin(fields, '|');
  }

  /** The client's `LOGIN|id` for a non-empty `|`-free id is a login as `id`. */
  lemma ClientLogin(id: string)
    requires id != "" && Free(id, '|')
    ensures LoginId("LOGIN|" + id) == Some(id)
  {
    assert Join(["LOGIN", id], '|') == "LOGIN" + ['|'] + Join([id], '|');
    assert "LOGIN|" + id == "LOGIN" + ['|'] + id;
    LoginLine(["LOGIN", id]);
  }

  /** `LOGIN` alone is a format error. */
  lemma BareLogin()
    ensures Classify("LOGIN") == LoginFormatError
  {
    assert Free("LOGIN", '|');
  }

  /** `LOGIN|` is a format error too: `split` drops the empty field after the `|`. */
  lemma LoginWithEmptyId()
    ensures Classify("LOGIN|") == LoginFormatError
  {
    var login := "LOGIN";
    assert login + ['|'] + "" == "LOGIN|";
    RawSplitCons(login, "", '|');
    var raw := [login, ""];
    assert raw[..1] == [login];
    assert DropTrailingEmpty(raw) == [login];
  }

  /** Any line whose first field is not `LOGIN`, the empty line included, is not supported. */
  lemma OtherOperation(fields: seq<string>)
    requires |fields| >= 1 && AllFree(fields, '|') && fields[0] != "LOGIN"
    requires |fields| == 1 || fields[|fields| - 1] != ""
    ensures Classify(Join(fields, '|')) == Unsupported
  {
    SplitJoin(fields, '|');
  }

  // ---------------------------------------------------------------------------
  // The reading loop
  // ---------------------------------------------------------------------------

  datatype Served = Served(session: Session, replies: seq<Reply>)

  /** The id of the last login among `lines`, if any. */
  function LastLogin(lines: seq<string>): (r: Option<string>)
    ensures r.Some? ==> exists i :: 0 <= i < |lines| && LoginId(lines[i]) == r
  {
    if |lines| == 0 then None
    else if LoginId(lines[|lines| - 1]).Some? then LoginId(lines[|lines| - 1])
    else LastLogin(lines[..|lines| - 1])
  }

  /** Every id some line of `lines` logs in with. */
  function LoggedIn(lines: seq<string>): (r: set<string>)
    ensures forall i :: 0 <= i < |lines| && LoginId(lines[i]).Some? ==> LoginId(lines[i]).value in r
  {
    if |lines| == 0 then {}
    else
      var here := if LoginId(lines[|lines| - 1]).Some? then {LoginId(lines[|lines| - 1]).value} else {};
      LoggedIn(lines[..|lines| - 1]) + here
  }

  /**
   * The lines read before the loop stops, handled in order: one answer per
   * line, decided by that line alone, and `userId` is the last login (or what
   * it was). `ServeClients` and `ServeUsers` say what happens to the two maps.
   */
  function Serve(s: Session, self: Conn, lines: seq<string>): (r: Served)
    ensures |r.replies| == |lines|
    ensures forall i :: 0 <= i < |lines| ==> r.replies[i] == Classify(lines[i])
    ensures r.session.userId == if LastLogin(lines).Some? then LastLogin(lines) else s.userId
  {
    if |lines| == 0 then Served(s, [])
    else
      var pre := Serve(s, self, lines[..|lines| - 1]);
      var step := HandleLine(pre.session, self, lines[|lines| - 1]);
      assert forall i :: 0 <= i < |lines| - 1 ==> lines[..|lines| - 1][i] == lines[i];
      Served(step.session, pre.replies + [step.reply])
  }

  /**
   * `clientMap` gains every id logged in with, each mapped to this handler,
   * and every other entry keeps its handler.
   */
  lemma {:induction false} ServeClients(s: Session, self: Conn, lines: seq<string>)
    ensures var c := Serve(s, self, lines).session.clients;
      && (forall k :: k in c <==> k in s.clients || k in LoggedIn(lines))
      && (forall k | k in LoggedIn(lines) :: k in c && c[k] == self)
      && (forall k | k in s.clients && k !in LoggedIn(lines) :: c[k] == s.clients[k])
  {
    if |lines| > 0 {
      ServeClients(s, self, lines[..|lines| - 1]);
    }
  }

  /** The `UserManager` gains the non-empty ids logged in with; known users keep their friends. */
  lemma {:induction false} ServeUsers(s: Session, self: Conn, lines: seq<string>)
    ensures var u := Serve(s, self, lines).session.users;
      && (forall k :: k in u <==> k in s.users || (k != "" && k in LoggedIn(lines)))
      && (forall k | k in s.users :: u[k] == s.users[k])
  {
    if |lines| > 0 {
      ServeUsers(s, self, lines[..|lines| - 1]);
    }
  }

  /** The last login is one of the logins. */
  lemma {:induction false} LastLoginLoggedIn(lines: seq<string>)
    ensures LastLogin(lines).Some? ==> LastLogin(lines).value in LoggedIn(lines)
  {
    if |lines| > 0 {
      LastLoginLoggedIn(lines[..|lines| - 1]);
    }
  }

  /** The `catch` block: only a failed read removes this handler's id, whoever is now under it. */
  function Close(s: Session, end: End): (r: Session)
    ensures r.userId == s.userId && r.users == s.users
    ensures end == IOError && s.userId.Some? ==> r.clients == s.clients - {s.userId.value}
    ensures end == Eof || s.userId.None? ==> r.clients == s.clients
  {
    if end == IOError && s.userId.Some? then s.(clients := s.clients - {s.userId.value}) else s
  }

  /** `run`: the reading loop over the lines that arrive, then the `catch` block. */
  method Run(s: Session, self: Conn, lines: seq<string>, end: End) returns (last: Session, replies: seq<Reply>)
    ensures replies == Serve(s, self, lines).replies
    ensures last == Close(Serve(s, self, lines).session, end)
  {
    var st := s;
    replies := [];
    var i := 0;
    while i < |lines|
      invariant 0 <= i <= |lines|
      invariant st == Serve(s, self, lines[..i]).session
      invariant replies == Serve(s, self, lines[..i]).replies
    {
      var step := HandleLine(st, self, lines[i]);
      assert lines[..i + 1][..i] == lines[..i];
      st := step.session;
      replies := replies + [step.reply];
      i := i + 1;
    }
    assert lines[..i] == lines;
    last := Close(st, end);
  }

  // ---------------------------------------------------------------------------
  // Invariants of one handler
  // ---------------------------------------------------------------------------

  /** Once logged in, the handler is the one under its id in `clientMap`. */
  predicate HoldsOwnId(s: Session, self: Conn)
  {
    s.userId.Some? ==> s.userId.value in s.clients && s.clients[s.userId.value] == self
  }

  /** Every non-empty id in `clientMap` is a user of the `UserManager`. */
  predicate ClientsAreUsers(s: Session)
  {
    forall k :: k in s.clients && k != "" ==> k in s.users
  }

  /** Handling a line keeps both invariants. */
  lemma LineKeepsInvariants(s: Session, self: Conn, line: string)
    requires HoldsOwnId(s, self) && ClientsAreUsers(s)
    ensures HoldsOwnId(HandleLine(s, self, line).session, self)
    ensures ClientsAreUsers(HandleLine(s, self, line).session)
  {
  }

  /** A handler that reached the end of its input without failing still holds its id. */
  lemma ServeKeepsOwnId(s: Session, self: Conn, lines: seq<string>)
    requires HoldsOwnId(s, self)
    ensures HoldsOwnId(Serve(s, self, lines).session, self)
  {
    ServeClients(s, self, lines);
    LastLoginLoggedIn(lines);
  }

  /** After a failed read the handler's id, if it has one, is no longer in `clientMap`. */
  lemma FailureRemovesId(s: Session, self: Conn, lines: seq<string>)
    ensures var f := Close(Serve(s, self, lines).session, IOError);
      f.userId.Some? ==> f.userId.value !in f.clients
  {
  }

  // ---------------------------------------------------------------------------
  // An orderly close
  // ---------------------------------------------------------------------------

  /**
   * As written, a client that logs in and then closes its connection normally
   * stays in `clientMap`: `readLine` returns `null`, the loop ends without an
   * exception, and only the `catch` block removes the id.
   */
  lemma OrderlyCloseKeepsEntry(s: Session, self: Conn, id: string)
    requires id != "" && Free(id, '|')
    ensures var f := Close(Serve(s, self, ["LOGIN|" + id]).session, Eof);
      id in f.clients && f.clients[id] == self
  {
    ClientLogin(id);
    assert LastLogin(["LOGIN|" + id]) == Some(id);
    ServeClients(s, self, ["LOGIN|" + id]);
    LastLoginLoggedIn(["LOGIN|" + id]);
  }

  /** The end of `run` as the comment on its `catch` block intends: a departing client always leaves `clientMap`. */
  function CloseFixed(s: Session, end: End): (r: Session)
    ensures r.userId == s.userId && r.users == s.users
    ensures s.userId.Some? ==> r.clients == s.clients - {s.userId.value}
    ensures s.userId.None? ==> r.clients == s.clients
    ensures end == IOError ==> r == Close(s, end)
  {
    if s.userId.Some? then s.(clients := s.clients - {s.userId.value}) else s
  }

  /** With the corrected close, a logged-in handler's id is gone however the connection ends. */
  lemma FixedCloseRemovesId(s: Session, self: Conn, lines: seq<string>, end: End)
    ensures var f := CloseFixed(Serve(s, self, lines).session, end);
      && (f.userId.Some? ==> f.userId.value !in f.clients)
      && (LastLogin(lines).Some? ==> LastLogin(lines).value !in f.clients)
  {
  }

  /**
   * With the corrected close, everything else `run` leaves behind is as
   * written: the ids logged in with other than the handler's own stay mapped
   * to it, and other handlers' entries keep their handlers.
   */
  lemma FixedCloseKeepsOthers(s: Session, self: Conn, lines: seq<string>, end: End)
    ensures var f := CloseFixed(Serve(s, self, lines).session, end);
      forall k | k in LoggedIn(lines) && Some(k) != f.userId :: k in f.clients && f.clients[k] == self
  {
    ServeClients(s, self, lines);
  }
}

=== FILE: qq_handler.dfy ===
/**
 * The QQ server's `ClientHandler`, one received message at a time: login and
 * registration requests are validated and answered, chat messages are passed
 * on to everybody else online, and every other kind is ignored. The state is
 * what all handlers share: the account directory and the session registry.
 * The handler is `self`; sends to handlers in `dead` fail, `order` is the
 * online map's iteration order, and `slot` is where a login's new key falls
 * in that order once it is put (see `SessionRegistry.Place`).
 */
module QQHandler {
  import opened Wrappers
  import opened JavaStrings
  import opened Common
  import UserDirectory
  import opened SessionRegistry

  datatype State = State(users: UserDirectory.Users, reg: Registry)

  datatype Result = Result(st: State, out: seq<Delivery>)

  /** A request's fields after validation, or the reason it is refused. */
  datatype Parsed<T> = Parsed(value: T) | Refused(reason: string)

  datatype LoginRequest = LoginRequest(id: string, password: string)

  datatype RegisterRequest = RegisterRequest(id: string, username: string, password: string)

  /**
   * `sendMessage` to the handler itself. A failing send throws; the handler
   * catches it and tries an error notice, which fails the same way, so the
   * handler gets nothing.
   */
  function Reply(self: Conn, msg: Message<QQKind>, dead: set<Conn>): (r: seq<Delivery>)
    ensures |r| <= 1 && (r != [] <==> self !in dead)
    ensures forall i | 0 <= i < |r| :: r[i] == Delivery(self, msg)
  {
    if self in dead then [] else [Delivery(self, msg)]
  }

  // ---------------------------------------------------------------------------
  // Validation
  // ---------------------------------------------------------------------------

  /** The field is non-empty, free of commas and already trimmed. */
  predicate CleanField(s: string)
  {
    s != "" && Free(s, ',') && !IsSpace(s[0]) && !IsSpace(s[|s| - 1])
  }

  /**
   * The login content `id,password`: refused when it is `null` or blank, when
   * it does not split into exactly two comma-separated fields, or when a
   * trimmed field is empty.
   */
  function ParseLogin(content: JString): (r: Parsed<LoginRequest>)
    ensures content.None? || IsBlank(content.value) ==> r == Refused("Empty credentials.")
    ensures content.Some? && !IsBlank(content.value) && |Split(content.value, ',')| != 2 ==>
      r == Refused("Invalid credentials format.")
    ensures content.Some? && !IsBlank(content.value) && |Split(content.value, ',')| == 2 ==>
      var p := Split(content.value, ',');
      && (r == Refused("ID and password cannot be empty.") <==> Trim(p[0]) == "" || Trim(p[1]) == "")
      && (r.Parsed? <==> Trim(p[0]) != "" && Trim(p[1]) != "")
      && (r.Parsed? ==> r.value == LoginRequest(Trim(p[0]), Trim(p[1])))
    ensures r.Parsed? ==> CleanField(r.value.id) && CleanField(r.value.password)
    ensures r.Refused? ==> r.reason in {"Empty credentials.", "Invalid credentials format.", "ID and password cannot be empty."}
  {
    if content.None? || Trim(content.value) == "" then Refused("Empty credentials.")
    else
      var parts := Split(content.value, ',');
      if |parts| != 2 then Refused("Invalid credentials format.")
      else
        var id := Trim(parts[0]);
        var password := Trim(parts[1]);
        if id == "" || password == "" then Refused("ID and password cannot be empty.")
        else
          CleanTrim(parts[0]);
          CleanTrim(parts[1]);
          Parsed(LoginRequest(id, password))
  }

  /** A trimmed piece of a comma-free string is comma-free. */
  lemma TrimInside(s: string)
    requires Free(s, ',')
    ensures Free(Trim(s), ',')
  {
    var r := Trim(s);
    var k :| OccursAt(s, r, k) && IsBlank(s[..k]) && IsBlank(s[k + |r|..]);
    assert r == s[k..k + |r|];
  }

  /** A non-empty trimmed piece of a comma-free string is a clean field. */
  lemma CleanTrim(s: string)
    requires Free(s, ',') && Trim(s) != ""
    ensures CleanField(Trim(s))
  {
    TrimInside(s);
  }

  /** What the login window sends, `id + "," + password`, is read back field for field. */
  lemma ParseLoginClientFormat(id: string, password: string)
    requires CleanField(id) && CleanField(password)
    ensures ParseLogin(Some(id + "," + password)) == Parsed(LoginRequest(id, password))
  {
    var c := id + "," + password;
    assert c[|id|] == ',';
    assert !IsSpace(c[|id|]);
    SplitPair(id, password, ',');
    assert c == id + [','] + password;
    TrimTrimmed(id);
    TrimTrimmed(password);
  }

  /**
   * The registration content `id,username,password`: refused when it is
   * `null` or blank, when it does not split into exactly three comma-separated
   * fields, or when a trimmed field is empty.
   */
  function ParseRegister(content: JString): (r: Parsed<RegisterRequest>)
    ensures content.None? || IsBlank(content.value) ==> r == Refused("Empty registration data.")
    ensures content.Some? && !IsBlank(content.value) && |Split(content.value, ',')| != 3 ==>
      r == Refused("Invalid registration format.")
    ensures content.Some? && !IsBlank(content.value) && |Split(content.value, ',')| == 3 ==>
      var p := Split(content.value, ',');
      && (r == Refused("All fields are required.") <==> Trim(p[0]) == "" || Trim(p[1]) == "" || Trim(p[2]) == "")
      && (r.Parsed? <==> Trim(p[0]) != "" && Trim(p[1]) != "" && Trim(p[2]) != "")
      && (r.Parsed? ==> r.value == RegisterRequest(Trim(p[0]), Trim(p[1]), Trim(p[2])))
    ensures r.Parsed? ==> CleanField(r.value.id) && CleanField(r.value.username) && CleanField(r.value.password)
    ensures r.Refused? ==> r.reason in {"Empty registration data.", "Invalid registration format.", "All fields are required."}
  {
    if content.None? || Trim(content.value) == "" then Refused("Empty registration data.")
    else
      var parts := Split(content.value, ',');
      if |parts| != 3 then Refused("Invalid registration format.")
      else
        var id := Trim(parts[0]);
        var username := Trim(parts[1]);
        var password := Trim(parts[2]);
        if id == "" || username == "" || password == "" then Refused("All fields are required.")
        else
          CleanTrim(parts[0]);
          CleanTrim(parts[1]);
          CleanTrim(parts[2]);
          Parsed(RegisterRequest(id, username, password))
  }

  /** What the registration window sends, `id,username,password`, is read back field for field. */
  lemma ParseRegisterClientFormat(id: string, username: string, password: string)
    requires CleanField(id) && CleanField(username) && CleanField(password)
    ensures ParseRegister(Some(id + "," + username + "," + password)) == Parsed(RegisterRequest(id, username, password))
  {
    var c := id + "," + username + "," + password;
    assert c[|id|] == ',';
    assert !IsSpace(c[|id|]);
    SplitTriple(id, username, password, ',');
    assert c == id + [','] + username + [','] + password;
    TrimTrimmed(id);
    TrimTrimmed(username);
    TrimTrimmed(password);
  }

  /** A blank password after the comma is its own field, which trims to nothing: refused as empty. */
  lemma BlankPasswordRefused(id: string)
    requires CleanField(id)
    ensures ParseLogin(Some(id + ", ")) == Refused("ID and password cannot be empty.")
  {
    var c := id + ", ";
    assert c == id + [','] + " ";
    assert c[0] == id[0] && !IsSpace(c[0]);
    SplitPair(id, " ", ',');
    assert IsBlank(" ");
  }

  /** A trailing comma is dropped by `split`, so `"a,"` is one field and not a login. */
  lemma TrailingCommaIsOneField(id: string)
    requires CleanField(id)
    ensures ParseLogin(Some(id + ",")) == Refused("Invalid credentials format.")
  {
    var c := id + ",";
    assert c[|id|] == ',' && !IsSpace(c[|id|]);
    assert !Free(c, ',');
    RawSplitFree(id, ',');
    RawSplitCons(id, "", ',');
    assert c == id + [','] + "";
    assert RawSplit(c, ',') == [id, ""];
    assert DropTrailingEmpty([id, ""]) == DropTrailingEmpty([id]);
  }

  // ---------------------------------------------------------------------------
  // handleLogin
  // ---------------------------------------------------------------------------

  function Fail(kind: QQKind, to: JString, reason: string, now: Long): Message<QQKind>
  {
    NewMessage(kind, Server, to, Some(reason), now)
  }

  /**
   * `handleLogin`: a refused request, an unknown id or a wrong password, and
   * an id that is already online are answered with `LOGIN_FAIL` and change
   * nothing. Otherwise the handler takes the id as its `userId`, is added to
   * the online map (with the notices that go with it) and is answered with
   * `LOGIN_SUCCESS` carrying the user name.
   */
  function HandleLogin(st: State, self: Conn, m: Message<QQKind>, order: seq<string>, slot: nat, dead: set<Conn>, now: Long): (r: Result)
    requires Enumerates(order, st.reg.online.Keys)
    ensures r.st.users == st.users
    ensures ParseLogin(m.content).Refused? ==>
      r == Result(st, Reply(self, Fail(LOGIN_FAIL, m.senderId, ParseLogin(m.content).reason, now), dead))
    ensures ParseLogin(m.content).Parsed? ==>
      var q := ParseLogin(m.content).value;
      && (UserDirectory.Login(st.users, q.id, q.password).None? ==>
            r == Result(st, Reply(self, Fail(LOGIN_FAIL, m.senderId, "Invalid ID or password.", now), dead)))
      && (UserDirectory.Login(st.users, q.id, q.password).Some? && q.id in st.reg.online ==>
            r == Result(st, Reply(self, Fail(LOGIN_FAIL, Some(q.id), "User already online.", now), dead)))
      && (UserDirectory.Login(st.users, q.id, q.password).Some? && q.id !in st.reg.online ==>
            r == Admit(st, self, q.id, st.users[q.id].username, Place(order, st.reg.online.Keys, q.id, slot), dead, now))
  {
    match ParseLogin(m.content)
    case Refused(why) => Result(st, Reply(self, Fail(LOGIN_FAIL, m.senderId, why, now), dead))
    case Parsed(q) =>
      match UserDirectory.Login(st.users, q.id, q.password)
      case None => Result(st, Reply(self, Fail(LOGIN_FAIL, m.senderId, "Invalid ID or password.", now), dead))
      case Some(user) =>
        if q.id in st.reg.online then
          Result(st, Reply(self, Fail(LOGIN_FAIL, Some(q.id), "User already online.", now), dead))
        else
          Admit(st, self, q.id, user.username, Place(order, st.reg.online.Keys, q.id, slot), dead, now)
  }

  /**
   * The successful end of a login: bind, add to the online map, answer.
   * `order` is the map's iteration order once `id` is put.
   */
  function Admit(st: State, self: Conn, id: string, username: string, order: seq<string>, dead: set<Conn>, now: Long): (r: Result)
    requires Enumerates(order, st.reg.online.Keys + {id})
    ensures r.st.users == st.users
    ensures r.st.reg.bound == st.reg.bound[self := id]
    ensures r.st.reg.online.Keys <= st.reg.online.Keys + {id}
    ensures id in r.st.reg.online ==> r.st.reg.online[id] == self
    ensures var ok := Reply(self, NewMessage(LOGIN_SUCCESS, Server, Some(id), Some(username), now), dead);
      |ok| <= |r.out| && r.out[|r.out| - |ok|..] == ok
  {
    var reg1 := st.reg.(bound := st.reg.bound[self := id]);
    var added := AddOnlineClient(reg1, id, self, order, dead, now);
    var ok := Reply(self, NewMessage(LOGIN_SUCCESS, Server, Some(id), Some(username), now), dead);
    assert (added.out + ok)[|added.out|..] == ok;
    Result(st.(reg := added.reg), added.out + ok)
  }

  // ---------------------------------------------------------------------------
  // handleRegister
  // ---------------------------------------------------------------------------

  /**
   * `handleRegister`: a refused request and a taken id are answered with
   * `REGISTER_FAIL` and change nothing; otherwise the account is created and
   * the answer is `REGISTER_SUCCESS`. Sessions are never touched.
   */
  function HandleRegister(st: State, self: Conn, m: Message<QQKind>, dead: set<Conn>, now: Long): (r: Result)
    ensures r.st.reg == st.reg
    ensures ParseRegister(m.content).Refused? ==>
      r == Result(st, Reply(self, Fail(REGISTER_FAIL, m.senderId, ParseRegister(m.content).reason, now), dead))
    ensures ParseRegister(m.content).Parsed? ==>
      var q := ParseRegister(m.content).value;
      && (q.id in st.users ==>
            r == Result(st, Reply(self, Fail(REGISTER_FAIL, Some(q.id), "ID already exists.", now), dead)))
      && (q.id !in st.users ==>
            && r.st.users == st.users[q.id := NewUser(q.id, q.username, q.password)]
            && r.out == Reply(self, NewMessage(REGISTER_SUCCESS, Server, Some(q.id), Some("Registration successful."), now), dead))
  {
    match ParseRegister(m.content)
    case Refused(why) => Result(st, Reply(self, Fail(REGISTER_FAIL, m.senderId, why, now), dead))
    case Parsed(q) =>
      var reg := UserDirectory.RegisterUser(st.users, q.id, q.username, q.password);
      if reg.ok then
        Result(st.(users := reg.users),
          Reply(self, NewMessage(REGISTER_SUCCESS, Server, Some(q.id), Some("Registration successful."), now), dead))
      else
        Result(st, Reply(self, Fail(REGISTER_FAIL, Some(q.id), "ID already exists.", now), dead))
  }

  // ---------------------------------------------------------------------------
  // handleChatMessage
  // ---------------------------------------------------------------------------

  /** The handlers a chat message reaches and the ids evicted on the way. */
  datatype Fanout = Fanout(reached: seq<Conn>, gone: set<string>)

  /**
   * The loop over the online handlers: each handler whose `userId` differs
   * from the sender is sent the message, and one whose send fails is evicted
   * under its `userId`. A handler without a `userId` makes the comparison
   * throw, which ends the loop.
   */
  function Fan(online: map<string, Conn>, bound: map<Conn, string>, keys: seq<string>, sender: JString, dead: set<Conn>): (r: Fanout)
    requires forall k | k in keys :: k in online
    ensures forall h | h in r.reached :: h !in dead && h in bound && Some(bound[h]) != sender
    ensures forall id | id in r.gone :: exists h | h in dead && h in bound :: bound[h] == id && Some(id) != sender
    ensures (forall k | k in keys :: online[k] in bound) ==>
      && (forall h :: h in r.reached <==> h !in dead && h in bound && Some(bound[h]) != sender && exists k | k in keys :: online[k] == h)
      && (forall id :: id in r.gone <==>
            Some(id) != sender && exists k | k in keys :: online[k] in dead && bound[online[k]] == id)
  {
    if keys == [] then Fanout([], {})
    else
      var h := online[keys[0]];
      if h !in bound then Fanout([], {})
      else
        var rest := Fan(online, bound, keys[1..], sender, dead);
        if Some(bound[h]) == sender then rest
        else if h in dead then Fanout(rest.reached, rest.gone + {bound[h]})
        else Fanout([h] + rest.reached, rest.gone)
  }

  /**
   * `handleChatMessage`: the message goes unchanged to online handlers, never
   * to one whose `userId` is the sender, and failed handlers are evicted. On
   * a valid registry it reaches every live handler of somebody else.
   */
  function HandleChat(st: State, m: Message<QQKind>, order: seq<string>, dead: set<Conn>): (r: Result)
    requires Enumerates(order, st.reg.online.Keys)
    ensures r.st.users == st.users && r.st.reg.bound == st.reg.bound
    ensures forall k | k in r.st.reg.online :: k in st.reg.online && r.st.reg.online[k] == st.reg.online[k]
    ensures forall i | 0 <= i < |r.out| ::
      && r.out[i].msg == m && r.out[i].to !in dead
      && r.out[i].to in st.reg.bound && Some(st.reg.bound[r.out[i].to]) != m.senderId
    ensures Valid(st.reg) ==>
      && (forall h :: DeliveredTo(r.out, h) <==>
            h in st.reg.online.Values && h !in dead && Some(st.reg.bound[h]) != m.senderId)
      && (forall k :: k in r.st.reg.online <==>
            k in st.reg.online && (st.reg.online[k] !in dead || Some(k) == m.senderId))
  {
    var f := Fan(st.reg.online, st.reg.bound, order, m.senderId, dead);
    ChatValid(st, m, order, dead);
    Result(st.(reg := st.reg.(online := st.reg.online - f.gone)), Deliver(f.reached, m))
  }

  lemma ChatValid(st: State, m: Message<QQKind>, order: seq<string>, dead: set<Conn>)
    requires Enumerates(order, st.reg.online.Keys)
    ensures var f := Fan(st.reg.online, st.reg.bound, order, m.senderId, dead);
      Valid(st.reg) ==>
        && (forall h :: h in f.reached <==> h in st.reg.online.Values && h !in dead && Some(st.reg.bound[h]) != m.senderId)
        && (forall k :: k in st.reg.online - f.gone <==>
              k in st.reg.online && (st.reg.online[k] !in dead || Some(k) == m.senderId))
  {
    var f := Fan(st.reg.online, st.reg.bound, order, m.senderId, dead);
    if Valid(st.reg) {
      forall h | h in st.reg.online.Values && h !in dead && Some(st.reg.bound[h]) != m.senderId
        ensures h in f.reached
      {
        var k :| k in st.reg.online && st.reg.online[k] == h;
        assert k in order;
      }
      forall k | k in st.reg.online && st.reg.online[k] in dead && Some(k) != m.senderId
        ensures k in f.gone
      {
        assert k in order;
      }
    }
  }

  // ---------------------------------------------------------------------------
  // handleMessage
  // ---------------------------------------------------------------------------

  /**
   * `handleMessage`: only `LOGIN`, `REGISTER` and `CHAT_MESSAGE` do anything,
   * and none of them asks whether the handler has logged in.
   */
  function HandleMessage(st: State, self: Conn, m: Message<QQKind>, order: seq<string>, slot: nat, dead: set<Conn>, now: Long): (r: Result)
    requires Enumerates(order, st.reg.online.Keys)
    ensures m.kind == LOGIN ==> r == HandleLogin(st, self, m, order, slot, dead, now)
    ensures m.kind == REGISTER ==> r == HandleRegister(st, self, m, dead, now)
    ensures m.kind == CHAT_MESSAGE ==> r == HandleChat(st, m, order, dead)
    ensures m.kind !in {LOGIN, REGISTER, CHAT_MESSAGE} ==> r == Result(st, [])
  {
    match m.kind
    case LOGIN => HandleLogin(st, self, m, order, slot, dead, now)
    case REGISTER => HandleRegister(st, self, m, dead, now)
    case CHAT_MESSAGE => HandleChat(st, m, order, dead)
    case _ => Result(st, [])
  }

  // ---------------------------------------------------------------------------
  // A second login on the same connection
  // ---------------------------------------------------------------------------

  /**
   * As written, a handler already online under `a` that logs in as `b` keeps
   * its entry under `a`: the registry is no longer valid, and when its stream
   * fails the broadcast evicts it under `b` only, so `a` stays online and every
   * later login as `a` is refused as "User already online.".
   */
  lemma SecondLoginLeavesStaleEntry(st: State, self: Conn, a: string, b: string, password: string,
                                    m: Message<QQKind>, order: seq<string>, slot: nat, now: Long)
    requires Valid(st.reg) && Enumerates(order, st.reg.online.Keys)
    requires a in st.reg.online && st.reg.online[a] == self
    requires CleanField(b) && CleanField(password) && m.content == Some(b + "," + password)
    requires b in st.users && st.users[b].password == password && b !in st.reg.online
    ensures var r := HandleLogin(st, self, m, order, slot, {}, now);
      && a in r.st.reg.online && r.st.reg.online[a] == self
      && self in r.st.reg.bound && r.st.reg.bound[self] == b && !Valid(r.st.reg)
      && forall msg, order1 | Enumerates(order1, r.st.reg.online.Keys) ::
           a in Broadcast(r.st.reg, msg, order1, {self}).reg.online
  {
    LoginWithoutFailures(st, self, b, password, m, order, slot, now);
    StaleBinding(st.reg, a, b, self);
  }

  /** Rebinding an online handler to a fresh id `b` leaves its entry under `a` behind. */
  lemma StaleBinding(reg: Registry, a: string, b: string, self: Conn)
    requires Valid(reg) && a in reg.online && reg.online[a] == self && b !in reg.online
    ensures var r := Registry(reg.online[b := self], reg.bound[self := b]);
      && a in r.online && r.online[a] == self && self in r.bound && r.bound[self] == b && !Valid(r)
      && forall msg, order1 | Enumerates(order1, r.online.Keys) :: a in Broadcast(r, msg, order1, {self}).reg.online
  {
    var r := Registry(reg.online[b := self], reg.bound[self := b]);
    assert a != b;
    assert r.online[a] == self && r.bound[self] == b;
    forall msg, order1 | Enumerates(order1, r.online.Keys)
      ensures a in Broadcast(r, msg, order1, {self}).reg.online
    {
      StaleEntrySurvives(r, a, self, msg, order1);
    }
  }

  /** A login in the client's format with no failed send binds the handler and adds exactly its entry. */
  lemma LoginWithoutFailures(st: State, self: Conn, b: string, password: string,
                             m: Message<QQKind>, order: seq<string>, slot: nat, now: Long)
    requires Enumerates(order, st.reg.online.Keys)
    requires CleanField(b) && CleanField(password) && m.content == Some(b + "," + password)
    requires b in st.users && st.users[b].password == password && b !in st.reg.online
    ensures HandleLogin(st, self, m, order, slot, {}, now).st.reg ==
      Registry(st.reg.online[b := self], st.reg.bound[self := b])
  {
    ParseLoginClientFormat(b, password);
    var order0 := Place(order, st.reg.online.Keys, b, slot);
    assert HandleLogin(st, self, m, order, slot, {}, now) == Admit(st, self, b, st.users[b].username, order0, {}, now);
    AddOnlineClientNoFailures(st.reg.(bound := st.reg.bound[self := b]), b, self, order0, now);
  }

  /** An entry whose handler is bound to another id survives that handler's failure. */
  lemma StaleEntrySurvives(reg: Registry, a: string, self: Conn, msg: Message<QQKind>, order: seq<string>)
    requires Enumerates(order, reg.online.Keys)
    requires a in reg.online && self in reg.bound && reg.bound[self] != a
    ensures a in Broadcast(reg, msg, order, {self}).reg.online
  {
    forall j | j in reg.online && reg.online[j] in {self}
      ensures reg.bound[reg.online[j]] != a
    {
      assert reg.online[j] == self;
    }
    assert !EvictedBy(reg, {self}, a);
    var r := Broadcast(reg, msg, order, {self});
    assert a in r.reg.online <==> a in reg.online && !EvictedBy(reg, {self}, a);
  }

  /**
   * `handleLogin` with the intended single session per connection: the
   * handler's earlier entries leave the online map before it is admitted
   * under the new id. Everything else is as in `HandleLogin`.
   */
  function HandleLoginFixed(st: State, self: Conn, m: Message<QQKind>, order: seq<string>, slot: nat, dead: set<Conn>, now: Long): (r: Result)
    requires Enumerates(order, st.reg.online.Keys)
    ensures r.st.users == st.users
    ensures ParseLogin(m.content).Refused? || self !in st.reg.online.Values ==> r == HandleLogin(st, self, m, order, slot, dead, now)
  {
    match ParseLogin(m.content)
    case Refused(why) => Result(st, Reply(self, Fail(LOGIN_FAIL, m.senderId, why, now), dead))
    case Parsed(q) =>
      match UserDirectory.Login(st.users, q.id, q.password)
      case None => Result(st, Reply(self, Fail(LOGIN_FAIL, m.senderId, "Invalid ID or password.", now), dead))
      case Some(user) =>
        if q.id in st.reg.online then
          Result(st, Reply(self, Fail(LOGIN_FAIL, Some(q.id), "User already online.", now), dead))
        else if self !in st.reg.online.Values then
          // nothing to drop
          Admit(st, self, q.id, user.username, Place(order, st.reg.online.Keys, q.id, slot), dead, now)
        else
          var online := map k | k in st.reg.online && st.reg.online[k] != self :: st.reg.online[k];
          var order1 := Restrict(order, online.Keys);
          RestrictEnumerates(order, st.reg.online.Keys, online.Keys);
          Admit(st.(reg := st.reg.(online := online)), self, q.id, user.username, Place(order1, online.Keys, q.id, slot), dead, now)
  }

  /** The corrected login keeps the registry valid. */
  lemma LoginFixedKeepsValid(st: State, self: Conn, m: Message<QQKind>, order: seq<string>, slot: nat, dead: set<Conn>, now: Long)
    requires Valid(st.reg) && Enumerates(order, st.reg.online.Keys)
    ensures Valid(HandleLoginFixed(st, self, m, order, slot, dead, now).st.reg)
  {
    var p := ParseLogin(m.content);
    if p.Parsed? && UserDirectory.Login(st.users, p.value.id, p.value.password).Some? && p.value.id !in st.reg.online {
      if self !in st.reg.online.Values {
        AdmitKeepsValid(st, self, p.value.id, st.users[p.value.id].username, Place(order, st.reg.online.Keys, p.value.id, slot), dead, now);
        return;
      }
      var online := map k | k in st.reg.online && st.reg.online[k] != self :: st.reg.online[k];
      var order1 := Restrict(order, online.Keys);
      RestrictEnumerates(order, st.reg.online.Keys, online.Keys);
      var st1 := st.(reg := st.reg.(online := online));
      AdmitKeepsValid(st1, self, p.value.id, st.users[p.value.id].username, Place(order1, online.Keys, p.value.id, slot), dead, now);
    }
  }

  lemma AdmitKeepsValid(st: State, self: Conn, id: string, username: string, order: seq<string>, dead: set<Conn>, now: Long)
    requires Enumerates(order, st.reg.online.Keys + {id})
    ensures Valid(st.reg) && self !in st.reg.online.Values && id !in st.reg.online ==>
      Valid(Admit(st, self, id, username, order, dead, now).st.reg)
  {
    if Valid(st.reg) && self !in st.reg.online.Values && id !in st.reg.online {
      var reg1 := st.reg.(bound := st.reg.bound[self := id]);
      assert Valid(reg1);
      AddOnlineClientValid(reg1, id, self, order, dead, now);
    }
  }

  /** The dispatcher with the corrected login. */
  function HandleMessageFixed(st: State, self: Conn, m: Message<QQKind>, order: seq<string>, slot: nat, dead: set<Conn>, now: Long): (r: Result)
    requires Enumerates(order, st.reg.online.Keys)
    ensures m.kind != LOGIN ==> r == HandleMessage(st, self, m, order, slot, dead, now)
  {
    match m.kind
    case LOGIN => HandleLoginFixed(st, self, m, order, slot, dead, now)
    case REGISTER => HandleRegister(st, self, m, dead, now)
    case CHAT_MESSAGE => HandleChat(st, m, order, dead)
    case _ => Result(st, [])
  }

  /** Every step of the corrected handler keeps the registry valid. */
  lemma FixedStepKeepsValid(st: State, self: Conn, m: Message<QQKind>, order: seq<string>, slot: nat, dead: set<Conn>, now: Long)
    requires Valid(st.reg) && Enumerates(order, st.reg.online.Keys)
    ensures Valid(HandleMessageFixed(st, self, m, order, slot, dead, now).st.reg)
  {
    if m.kind == LOGIN {
      LoginFixedKeepsValid(st, self, m, order, slot, dead, now);
    }
  }
}

=== FILE: session_registry.dfy ===
/**
 * The QQ server's session registry: the online map from user id to client
 * handler, the notices it broadcasts when somebody joins or leaves, and the
 * `;`-separated online list. Handlers are named by their connection; a send
 * to a handler fails exactly when its connection is in the `dead` set that
 * the caller supplies, and the map's iteration order is an argument as well.
 */
module SessionRegistry {
  import opened Wrappers
  import opened JavaStrings
  import opened Common

  /** A client handler, named by the connection it serves. */
  type Conn = nat

  /**
   * The server's online map together with each handler's `userId` field,
   * which the server reads when it evicts a handler.
   */
  datatype Registry = Registry(online: map<string, Conn>, bound: map<Conn, string>)

  /** One message written to one handler's stream. */
  datatype Delivery = Delivery(to: Conn, msg: Message<QQKind>)

  datatype Step = Step(reg: Registry, out: seq<Delivery>)

  const Server: JString := Some("Server")
  const All: JString := Some("ALL")

  /** Every online entry points at a handler whose `userId` is that entry's key. */
  predicate Valid(reg: Registry)
  {
    forall k | k in reg.online :: reg.online[k] in reg.bound && reg.bound[reg.online[k]] == k
  }

  /** Some delivery in `out` goes to `h`. */
  predicate DeliveredTo(out: seq<Delivery>, h: Conn)
  {
    exists i | 0 <= i < |out| :: out[i].to == h
  }

  /** The keys of `order` that are in `keys`, in the same order. */
  function Restrict(order: seq<string>, keys: set<string>): (r: seq<string>)
    ensures forall k :: k in r <==> k in order && k in keys
    ensures Distinct(order) ==> Distinct(r)
  {
    if order == [] then []
    else (if order[0] in keys then [order[0]] else []) + Restrict(order[1..], keys)
  }

  /**
   * An iteration order once `id` is a key. `ConcurrentHashMap` files a new key
   * in the bucket its hash picks, so it may come anywhere among the old keys;
   * `slot` says where (at the end when `slot` is past it). The old keys keep
   * their relative order, and a key that was already there changes nothing.
   */
  function Place(order: seq<string>, keys: set<string>, id: string, slot: nat): (r: seq<string>)
    requires Enumerates(order, keys)
    ensures Enumerates(r, keys + {id})
    ensures Restrict(r, keys) == order
    ensures id !in keys ==> |r| == |order| + 1 && r[if slot < |order| then slot else |order|] == id
  {
    if id in keys then
      RestrictAll(order, keys);
      order
    else
      var i := if slot < |order| then slot else |order|;
      InsertDistinct(order, id, i);
      InsertRestrict(order, keys, id, i);
      order[..i] + [id] + order[i..]
  }

  lemma InsertDistinct(order: seq<string>, id: string, i: nat)
    requires Distinct(order) && id !in order && i <= |order|
    ensures Distinct(order[..i] + [id] + order[i..])
  {
    var r := order[..i] + [id] + order[i..];
    forall a, b | 0 <= a < b < |r| ensures r[a] != r[b] {
      if a < i && b > i {
        assert r[b] == order[b - 1];
      } else if a == i {
        assert r[b] == order[b - 1];
      } else if a > i {
        assert r[a] == order[a - 1] && r[b] == order[b - 1];
      }
    }
  }

  /** Taking the old keys out of an order with one new key inserted gives back the order. */
  lemma InsertRestrict(order: seq<string>, keys: set<string>, id: string, i: nat)
    requires (forall k | k in order :: k in keys) && id !in keys && i <= |order|
    ensures Restrict(order[..i] + [id] + order[i..], keys) == order
  {
    RestrictSlices(order, keys, i);
    RestrictAround(order[..i], order[i..], keys, id);
    assert order[..i] + order[i..] == order;
  }

  /** Both sides of a cut through an order of kept keys are kept whole. */
  lemma RestrictSlices(order: seq<string>, keys: set<string>, i: nat)
    requires (forall k | k in order :: k in keys) && i <= |order|
    ensures Restrict(order[..i], keys) == order[..i] && Restrict(order[i..], keys) == order[i..]
  {
    RestrictAll(order[..i], keys);
    RestrictAll(order[i..], keys);
  }

  /** A key outside `keys` between two runs of kept keys drops out. */
  lemma RestrictAround(pre: seq<string>, post: seq<string>, keys: set<string>, id: string)
    requires Restrict(pre, keys) == pre && Restrict(post, keys) == post && id !in keys
    ensures Restrict(pre + [id] + post, keys) == pre + post
  {
    calc {
      Restrict(pre + [id] + post, keys);
    == { RestrictConcat(pre + [id], post, keys); }
      Restrict(pre + [id], keys) + post;
    == { RestrictConcat(pre, [id], keys); RestrictNone(id, keys); }
      pre + [] + post;
    }
    assert pre + [] == pre;
  }

  lemma RestrictNone(id: string, keys: set<string>)
    requires id !in keys
    ensures Restrict([id], keys) == []
  {
    assert [id][1..] == [];
  }

  /**
   * Every order of the keys once `id` is put that keeps the old keys in their
   * order is `Place` at some slot: the new key's own position.
   */
  lemma PlaceCovers(order: seq<string>, keys: set<string>, id: string, order0: seq<string>)
    requires Enumerates(order, keys) && id !in keys
    requires Enumerates(order0, keys + {id}) && Restrict(order0, keys) == order
    ensures exists slot: nat :: Place(order, keys, id, slot) == order0
  {
    var i :| 0 <= i < |order0| && order0[i] == id;
    TakeOut(order0, keys, id, i);
    PlaceAt(order, keys, id, i);
  }

  /** Taking the new key out of an order of the old keys plus `id` leaves their order around it. */
  lemma TakeOut(order0: seq<string>, keys: set<string>, id: string, i: nat)
    requires Enumerates(order0, keys + {id}) && id !in keys
    requires i < |order0| && order0[i] == id
    ensures var rest := order0[..i] + order0[i + 1..];
      && i <= |rest| && Restrict(order0, keys) == rest && rest[..i] + [id] + rest[i..] == order0
  {
    var pre, post := order0[..i], order0[i + 1..];
    Around(order0, i);
    assert forall k | k in pre + post :: k in keys;
    InsertRestrict(pre + post, keys, id, i);
    assert (pre + post)[..i] == pre && (pre + post)[i..] == post;
  }

  lemma PlaceAt(order: seq<string>, keys: set<string>, id: string, i: nat)
    requires Enumerates(order, keys) && id !in keys && i <= |order|
    ensures Place(order, keys, id, i) == order[..i] + [id] + order[i..]
  {
  }

  /** The elements around position `i` of a sequence without repeats. */
  lemma Around(xs: seq<string>, i: nat)
    requires Distinct(xs) && i < |xs|
    ensures xs == xs[..i] + [xs[i]] + xs[i + 1..]
    ensures xs[i] !in xs[..i] + xs[i + 1..]
    ensures forall k | k in xs[..i] + xs[i + 1..] :: k in xs
  {
    var rest := xs[..i] + xs[i + 1..];
    forall a | 0 <= a < |rest| ensures rest[a] != xs[i] && rest[a] in xs {
      if a < i {
        assert rest[a] == xs[a];
      } else {
        assert rest[a] == xs[a + 1];
      }
    }
  }

  lemma {:induction false} RestrictConcat(a: seq<string>, b: seq<string>, keys: set<string>)
    ensures Restrict(a + b, keys) == Restrict(a, keys) + Restrict(b, keys)
  {
    if a != [] {
      assert (a + b)[1..] == a[1..] + b;
      RestrictConcat(a[1..], b, keys);
    } else {
      assert a + b == b;
    }
  }

  lemma {:induction false} RestrictAll(a: seq<string>, keys: set<string>)
    requires forall k | k in a :: k in keys
    ensures Restrict(a, keys) == a
  {
    if a != [] {
      RestrictAll(a[1..], keys);
    }
  }

  lemma RestrictEnumerates(order: seq<string>, all: set<string>, keys: set<string>)
    requires Enumerates(order, all) && keys <= all
    ensures Enumerates(Restrict(order, keys), keys)
  {
  }

  /** Keeping the keys of `b` after keeping those of a larger `a` keeps the keys of `b`. */
  lemma {:induction false} RestrictTwice(order: seq<string>, a: set<string>, b: set<string>)
    requires b <= a
    ensures Restrict(Restrict(order, a), b) == Restrict(order, b)
  {
    if order != [] {
      RestrictTwice(order[1..], a, b);
      var head := if order[0] in a then [order[0]] else [];
      assert Restrict(order, a) == head + Restrict(order[1..], a);
      RestrictConcat(head, Restrict(order[1..], a), b);
    }
  }

  // ---------------------------------------------------------------------------
  // broadcastMessage
  // ---------------------------------------------------------------------------

  /** The live handlers reached when the entries at `keys` are visited in turn. */
  function Recipients(online: map<string, Conn>, keys: seq<string>, dead: set<Conn>): (r: seq<Conn>)
    requires forall k | k in keys :: k in online
    ensures |r| <= |keys|
    ensures forall h :: h in r <==> h !in dead && exists k | k in keys :: online[k] == h
  {
    if keys == [] then []
    else
      var h := online[keys[0]];
      (if h in dead then [] else [h]) + Recipients(online, keys[1..], dead)
  }

  /** The user ids of the failed, bound handlers found at `keys`. */
  function Evicted(online: map<string, Conn>, bound: map<Conn, string>, keys: seq<string>, dead: set<Conn>): (r: set<string>)
    requires forall k | k in keys :: k in online
    ensures forall id :: id in r <==>
      exists k | k in keys :: online[k] in dead && online[k] in bound && bound[online[k]] == id
  {
    if keys == [] then {}
    else
      var h := online[keys[0]];
      (if h in dead && h in bound then {bound[h]} else {}) + Evicted(online, bound, keys[1..], dead)
  }

  /** `k` is the `userId` of some online handler whose send fails. */
  ghost predicate EvictedBy(reg: Registry, dead: set<Conn>, k: string)
  {
    exists j | j in reg.online :: reg.online[j] in dead && reg.online[j] in reg.bound && reg.bound[reg.online[j]] == k
  }

  /**
   * `broadcastMessage`: `msg` is written to every online handler; each one
   * whose send fails loses the online entry under its own `userId`, and all
   * other entries stay.
   */
  function Broadcast(reg: Registry, msg: Message<QQKind>, order: seq<string>, dead: set<Conn>): (r: Step)
    requires Enumerates(order, reg.online.Keys)
    ensures r.reg.bound == reg.bound
    ensures forall k :: k in r.reg.online <==> k in reg.online && !EvictedBy(reg, dead, k)
    ensures forall k | k in r.reg.online :: r.reg.online[k] == reg.online[k]
    ensures forall i | 0 <= i < |r.out| :: r.out[i].msg == msg && r.out[i].to !in dead
    ensures forall h :: DeliveredTo(r.out, h) <==> h in reg.online.Values && h !in dead
    ensures AllOfKind(r.out, msg.kind)
  {
    var hs := Recipients(reg.online, order, dead);
    var gone := Evicted(reg.online, reg.bound, order, dead);
    EvictedAll(reg, order, dead);
    RecipientsAll(reg, order, dead);
    Step(reg.(online := reg.online - gone), Deliver(hs, msg))
  }

  /** `msg` to each handler of `hs`, in order. */
  function Deliver(hs: seq<Conn>, msg: Message<QQKind>): (r: seq<Delivery>)
    ensures |r| == |hs|
    ensures forall i | 0 <= i < |r| :: r[i].msg == msg && r[i].to == hs[i]
    ensures forall h :: DeliveredTo(r, h) <==> h in hs
  {
    var r := seq(|hs|, i requires 0 <= i < |hs| => Delivery(hs[i], msg));
    assert forall h | h in hs :: DeliveredTo(r, h) by {
      forall h | h in hs ensures DeliveredTo(r, h) {
        var i :| 0 <= i < |hs| && hs[i] == h;
        assert r[i].to == h;
      }
    }
    r
  }

  /** Visiting every key finds exactly the ids `EvictedBy` describes. */
  lemma EvictedAll(reg: Registry, order: seq<string>, dead: set<Conn>)
    requires Enumerates(order, reg.online.Keys)
    ensures forall k :: k in Evicted(reg.online, reg.bound, order, dead) <==> EvictedBy(reg, dead, k)
  {
    var e := Evicted(reg.online, reg.bound, order, dead);
    forall k ensures k in e <==> EvictedBy(reg, dead, k) {
      if EvictedBy(reg, dead, k) {
        var j :| j in reg.online && reg.online[j] in dead && reg.online[j] in reg.bound && reg.bound[reg.online[j]] == k;
        assert j in order;
      }
    }
  }

  /** Visiting every key reaches exactly the live online handlers. */
  lemma RecipientsAll(reg: Registry, order: seq<string>, dead: set<Conn>)
    requires Enumerates(order, reg.online.Keys)
    ensures forall h :: h in Recipients(reg.online, order, dead) <==> h in reg.online.Values && h !in dead
  {
    var hs := Recipients(reg.online, order, dead);
    forall h ensures h in hs <==> h in reg.online.Values && h !in dead {
      if h in reg.online.Values && h !in dead {
        var j :| j in reg.online && reg.online[j] == h;
        assert j in order;
      }
    }
  }

  /**
   * On a valid registry exactly the failed handlers disappear from the online
   * map, and the registry stays valid.
   */
  lemma BroadcastEvictsDead(reg: Registry, msg: Message<QQKind>, order: seq<string>, dead: set<Conn>)
    requires Valid(reg) && Enumerates(order, reg.online.Keys)
    ensures var r := Broadcast(reg, msg, order, dead);
      && Valid(r.reg)
      && forall k :: k in r.reg.online <==> k in reg.online && reg.online[k] !in dead
  {
    var r := Broadcast(reg, msg, order, dead);
    forall k ensures k in r.reg.online <==> k in reg.online && reg.online[k] !in dead {
      if k in reg.online && reg.online[k] in dead {
        assert EvictedBy(reg, dead, k);
      }
    }
  }

  // ---------------------------------------------------------------------------
  // The online list
  // ---------------------------------------------------------------------------

  /** Each id followed by `;`, as the `StringBuilder` loop appends them. */
  function Terminated(order: seq<string>): (r: string)
    ensures order != [] ==> r == Join(order, ';') + ";"
  {
    if order == [] then ""
    else
      var rest := Terminated(order[1..]);
      assert order[1..] != [] ==> order == [order[0]] + order[1..];
      order[0] + ";" + rest
  }

  /**
   * The online-list payload: the appended ids with the last `;` cut off, so
   * the ids joined by `;`, and the empty string when nobody is online.
   */
  function UserListPayload(order: seq<string>): (r: string)
    ensures r == Join(order, ';')
  {
    var s := Terminated(order);
    assert order != [] ==> s[..|s| - 1] == Join(order, ';');
    if |s| > 0 then s[..|s| - 1] else s
  }

  /** The client's `updateUserList`: nothing for the empty payload, else the `;` pieces. */
  function ParseUserList(payload: string): (r: seq<string>)
    ensures payload == "" ==> r == []
    ensures payload != "" && Free(payload, ';') ==> r == [payload]
  {
    if payload == "" then [] else Split(payload, ';')
  }

  /** With non-empty, `;`-free ids the client reads back exactly the online ids in order. */
  lemma ParseUserListPayload(order: seq<string>)
    requires AllFree(order, ';')
    requires forall i | 0 <= i < |order| :: order[i] != ""
    ensures ParseUserList(UserListPayload(order)) == order
  {
    if order != [] {
      SplitJoin(order, ';');
      assert Join(order, ';') != "" by {
        JoinFree([order[0]], ';');
        if |order| > 1 {
          assert Join(order, ';') == order[0] + [';'] + Join(order[1..], ';');
        }
      }
    }
  }

  /** The payload sent to everybody names the online users and nobody else. */
  lemma PayloadNamesOnlineUsers(reg: Registry, order: seq<string>)
    requires Enumerates(order, reg.online.Keys)
    requires forall k | k in reg.online :: k != "" && Free(k, ';')
    ensures forall k :: k in ParseUserList(UserListPayload(order)) <==> k in reg.online
  {
    ParseUserListPayload(order);
  }

  /** `sendUserList`: the online list, to one handler that has a `userId`; a failure is ignored. */
  function SendUserList(reg: Registry, h: Conn, order: seq<string>, dead: set<Conn>, now: Long): (r: seq<Delivery>)
    ensures |r| <= 1 && AllOfKind(r, USER_LIST)
    ensures r != [] <==> h in reg.bound && h !in dead
    ensures r != [] ==>
      && r[0].to == h && r[0].msg.kind == USER_LIST
      && r[0].msg.receiverId == Some(reg.bound[h]) && r[0].msg.content == Some(Join(order, ';'))
  {
    if h in reg.bound && h !in dead then
      [Delivery(h, NewMessage(USER_LIST, Server, Some(reg.bound[h]), Some(UserListPayload(order)), now))]
    else []
  }

  /** `broadcastUserList`: the online list, to everybody. */
  function BroadcastUserList(reg: Registry, order: seq<string>, dead: set<Conn>, now: Long): (r: Step)
    requires Enumerates(order, reg.online.Keys)
    ensures r.reg.bound == reg.bound
    ensures forall k :: k in r.reg.online <==> k in reg.online && !EvictedBy(reg, dead, k)
    ensures forall i | 0 <= i < |r.out| ::
      r.out[i].msg.kind == USER_LIST && r.out[i].msg.content == Some(Join(order, ';'))
    ensures forall h :: DeliveredTo(r.out, h) <==> h in reg.online.Values && h !in dead
    ensures AllOfKind(r.out, USER_LIST)
  {
    Broadcast(reg, NewMessage(USER_LIST, Server, All, Some(UserListPayload(order)), now), order, dead)
  }

  // ---------------------------------------------------------------------------
  // addOnlineClient / removeClient
  // ---------------------------------------------------------------------------

  /** The text of the join notice. */
  function JoinNotice(id: string): string
  {
    id + " joined the chat room"
  }

  /** The text of the leave notice. */
  function LeaveNotice(id: string): string
  {
    id + " left the chat room"
  }

  /** All deliveries in `out` carry messages of kind `kind`. */
  predicate AllOfKind(out: seq<Delivery>, kind: QQKind)
  {
    forall i | 0 <= i < |out| :: out[i].msg.kind == kind
  }

  /** `out` is some messages of kind `first` followed by some of kind `second`. */
  predicate Phases(out: seq<Delivery>, first: QQKind, second: QQKind)
  {
    exists i | 0 <= i <= |out| :: AllOfKind(out[..i], first) && AllOfKind(out[i..], second)
  }

  lemma PhasesConcat(a: seq<Delivery>, b: seq<Delivery>, first: QQKind, second: QQKind)
    requires AllOfKind(a, first) && AllOfKind(b, second)
    ensures Phases(a + b, first, second)
  {
    assert (a + b)[..|a|] == a;
    assert (a + b)[|a|..] == b;
  }

  lemma PhasesConcat3(a: seq<Delivery>, b: seq<Delivery>, c: seq<Delivery>, first: QQKind, second: QQKind)
    requires AllOfKind(a, first) && AllOfKind(b, second) && AllOfKind(c, second)
    ensures Phases(a + (b + c), first, second)
  {
    assert AllOfKind(b + c, second);
    PhasesConcat(a, b + c, first, second);
  }

  /** A broadcast that reached `g` leaves a delivery of its message to `g` in any longer output. */
  lemma DeliveredInPrefix(a: seq<Delivery>, b: seq<Delivery>, g: Conn, msg: Message<QQKind>)
    requires DeliveredTo(a, g)
    requires forall i | 0 <= i < |a| :: a[i].msg == msg
    ensures exists n | 0 <= n < |a + b| :: (a + b)[n] == Delivery(g, msg)
  {
    var n :| 0 <= n < |a| && a[n].to == g;
    assert (a + b)[n] == Delivery(g, msg);
  }

  /** From position `j` on, `out` carries `msg` and reaches exactly the handlers in `to`. */
  ghost predicate BroadcastFrom(out: seq<Delivery>, j: nat, msg: Message<QQKind>, to: set<Conn>)
  {
    && j <= |out|
    && (forall n | j <= n < |out| :: out[n].msg == msg)
    && (forall g :: DeliveredTo(out[j..], g) <==> g in to)
  }

  /**
   * `addOnlineClient`: `id` is mapped to `h` (replacing any earlier handler);
   * then, in this order, the join notice goes to everybody, the online list
   * goes to `h`, and the online list goes to everybody. `order` is the
   * iteration order of the map once `id` is put, in which the new key may
   * stand anywhere.
   */
  function AddOnlineClient(reg: Registry, id: string, h: Conn, order: seq<string>, dead: set<Conn>, now: Long): (r: Step)
    requires Enumerates(order, reg.online.Keys + {id})
    ensures r.reg.bound == reg.bound
    ensures r.reg.online.Keys <= reg.online.Keys + {id}
    ensures id in r.reg.online ==> r.reg.online[id] == h
    ensures Phases(r.out, USER_JOIN, USER_LIST)
  {
    var r0 := reg.(online := reg.online[id := h]);
    var join := Broadcast(r0, NewMessage(USER_JOIN, Server, All, Some(JoinNotice(id)), now), order, dead);
    var order1 := Restrict(order, join.reg.online.Keys);
    RestrictEnumerates(order, r0.online.Keys, join.reg.online.Keys);
    var list := SendUserList(join.reg, h, order1, dead, now);
    var users := BroadcastUserList(join.reg, order1, dead, now);
    assert users.reg.online.Keys <= join.reg.online.Keys <= r0.online.Keys;
    PhasesConcat3(join.out, list, users.out, USER_JOIN, USER_LIST);
    Step(users.reg, join.out + (list + users.out))
  }

  /** When no send fails, `addOnlineClient` evicts nobody. */
  lemma AddOnlineClientNoFailures(reg: Registry, id: string, h: Conn, order: seq<string>, now: Long)
    requires Enumerates(order, reg.online.Keys + {id})
    ensures AddOnlineClient(reg, id, h, order, {}, now).reg.online == reg.online[id := h]
  {
    var r0 := reg.(online := reg.online[id := h]);
    var msg0 := NewMessage(USER_JOIN, Server, All, Some(JoinNotice(id)), now);
    BroadcastNoFailures(r0, msg0, order);
    var order1 := Restrict(order, r0.online.Keys);
    RestrictEnumerates(order, r0.online.Keys, r0.online.Keys);
    BroadcastNoFailures(r0, NewMessage(USER_LIST, Server, All, Some(UserListPayload(order1)), now), order1);
  }

  /** A broadcast in which no send fails evicts nobody. */
  lemma BroadcastNoFailures(reg: Registry, msg: Message<QQKind>, order: seq<string>)
    requires Enumerates(order, reg.online.Keys)
    ensures Broadcast(reg, msg, order, {}).reg == reg
  {
    BroadcastKeepsSurvivors(reg, reg, msg, order, {});
  }

  /**
   * The join notice of `addOnlineClient` reaches every live handler online
   * once `id` is mapped, the new one included.
   */
  lemma AddOnlineClientNotifiesAll(reg: Registry, id: string, h: Conn, order: seq<string>, dead: set<Conn>, now: Long)
    requires Enumerates(order, reg.online.Keys + {id})
    ensures var out := AddOnlineClient(reg, id, h, order, dead, now).out;
      forall g | g in reg.online[id := h].Values && g !in dead ::
        exists n | 0 <= n < |out| :: out[n] == Delivery(g, NewMessage(USER_JOIN, Server, All, Some(JoinNotice(id)), now))
  {
    var r0 := reg.(online := reg.online[id := h]);
    var msg := NewMessage(USER_JOIN, Server, All, Some(JoinNotice(id)), now);
    var join := Broadcast(r0, msg, order, dead);
    var out := AddOnlineClient(reg, id, h, order, dead, now).out;
    var rest := out[|join.out|..];
    assert out == join.out + rest;
    forall g | g in r0.online.Values && g !in dead
      ensures exists n | 0 <= n < |out| :: out[n] == Delivery(g, msg)
    {
      DeliveredInPrefix(join.out, rest, g, msg);
    }
  }

  /**
   * When the new handler has a `userId` and its stream works, the first
   * message after the join notices is its online list, addressed to it and
   * naming the ids online at the end, in iteration order.
   */
  lemma AddOnlineClientListsToNewcomer(reg: Registry, id: string, h: Conn, order: seq<string>, dead: set<Conn>, now: Long)
    requires Enumerates(order, reg.online.Keys + {id})
    requires h in reg.bound && h !in dead
    ensures var out := AddOnlineClient(reg, id, h, order, dead, now).out;
      var r := AddOnlineClient(reg, id, h, order, dead, now);
      exists n | 0 <= n < |out| ::
        && AllOfKind(out[..n], USER_JOIN)
        && out[n].to == h && out[n].msg.kind == USER_LIST && out[n].msg.receiverId == Some(reg.bound[h])
        && out[n].msg.content == Some(Join(Restrict(order, r.reg.online.Keys), ';'))
  {
    var r0 := reg.(online := reg.online[id := h]);
    var join := Broadcast(r0, NewMessage(USER_JOIN, Server, All, Some(JoinNotice(id)), now), order, dead);
    var order1 := Restrict(order, join.reg.online.Keys);
    RestrictEnumerates(order, r0.online.Keys, join.reg.online.Keys);
    var list := SendUserList(join.reg, h, order1, dead, now);
    var users := BroadcastUserList(join.reg, order1, dead, now);
    RebroadcastEvictsNone(r0, NewMessage(USER_JOIN, Server, All, Some(JoinNotice(id)), now), order,
      NewMessage(USER_LIST, Server, All, Some(UserListPayload(order1)), now), order1, dead);
    assert AddOnlineClient(reg, id, h, order, dead, now).out == join.out + (list + users.out);
    SplicedAt(join.out, list, users.out);
  }

  /** In `a + (l + b)` with `l` non-empty, `a` is the prefix and `l[0]` stands right after it. */
  lemma SplicedAt(a: seq<Delivery>, l: seq<Delivery>, b: seq<Delivery>)
    requires l != []
    ensures (a + (l + b))[..|a|] == a && (a + (l + b))[|a|] == l[0]
  {
  }

  /**
   * `removeClient`: nothing for a `null` id; otherwise the entry goes (if it
   * was there), and the leave notice and then the online list go to
   * everybody still online. `order` is the iteration order of the map before
   * the call.
   */
  function RemoveClient(reg: Registry, id: JString, order: seq<string>, dead: set<Conn>, now: Long): (r: Step)
    requires Enumerates(order, reg.online.Keys)
    ensures id.None? ==> r == Step(reg, [])
    ensures r.reg.bound == reg.bound
    ensures id.Some? ==> r.reg.online.Keys <= reg.online.Keys - {id.value}
    ensures forall k | k in r.reg.online :: r.reg.online[k] == reg.online[k]
    ensures Phases(r.out, USER_LEAVE, USER_LIST)
  {
    match id
    case None =>
      PhasesConcat([], [], USER_LEAVE, USER_LIST);
      Step(reg, [])
    case Some(k) =>
      var r0 := reg.(online := reg.online - {k});
      var order0 := Restrict(order, r0.online.Keys);
      RestrictEnumerates(order, reg.online.Keys, r0.online.Keys);
      var leave := Broadcast(r0, NewMessage(USER_LEAVE, Server, All, Some(LeaveNotice(k)), now), order0, dead);
      var order1 := Restrict(order0, leave.reg.online.Keys);
      RestrictEnumerates(order0, r0.online.Keys, leave.reg.online.Keys);
      var users := BroadcastUserList(leave.reg, order1, dead, now);
      PhasesConcat(leave.out, users.out, USER_LEAVE, USER_LIST);
      Step(users.reg, leave.out + users.out)
  }

  /**
   * On a valid registry, once a handler has taken `id` as its `userId` and
   * `id` is not online, `addOnlineClient` keeps the registry valid and leaves
   * online exactly the live handlers among the old ones and the new one.
   */
  lemma AddOnlineClientValid(reg: Registry, id: string, h: Conn, order: seq<string>, dead: set<Conn>, now: Long)
    requires Valid(reg) && h in reg.bound && reg.bound[h] == id && id !in reg.online
    requires Enumerates(order, reg.online.Keys + {id})
    ensures var r := AddOnlineClient(reg, id, h, order, dead, now);
      && Valid(r.reg)
      && forall k :: k in r.reg.online <==> k in reg.online[id := h] && reg.online[id := h][k] !in dead
  {
    var r0 := reg.(online := reg.online[id := h]);
    var msg := NewMessage(USER_JOIN, Server, All, Some(JoinNotice(id)), now);
    BroadcastEvictsDead(r0, msg, order, dead);
    var join := Broadcast(r0, msg, order, dead);
    var order1 := Restrict(order, join.reg.online.Keys);
    RestrictEnumerates(order, r0.online.Keys, join.reg.online.Keys);
    BroadcastEvictsDead(join.reg, NewMessage(USER_LIST, Server, All, Some(UserListPayload(order1)), now), order1, dead);
  }

  /** On a valid registry `removeClient` keeps it valid and takes `id` offline. */
  lemma RemoveClientValid(reg: Registry, id: string, order: seq<string>, dead: set<Conn>, now: Long)
    requires Valid(reg) && Enumerates(order, reg.online.Keys)
    ensures var r := RemoveClient(reg, Some(id), order, dead, now);
      && Valid(r.reg) && id !in r.reg.online
      && forall k | k != id :: k in r.reg.online <==> k in reg.online && reg.online[k] !in dead
  {
    RemoveClientSteps(reg, id, order, dead, now);
    var r0 := reg.(online := reg.online - {id});
    var order0 := Restrict(order, r0.online.Keys);
    var leave := Broadcast(r0, NewMessage(USER_LEAVE, Server, All, Some(LeaveNotice(id)), now), order0, dead);
    LeaveStage(reg, id, order, dead, now);
    var order1 := Restrict(order0, leave.reg.online.Keys);
    var msg1 := NewMessage(USER_LIST, Server, All, Some(UserListPayload(order1)), now);
    BroadcastEvictsDead(leave.reg, msg1, order1, dead);
  }

  /** The leave broadcast of `removeClient`: the id and the failed handlers are gone. */
  lemma LeaveStage(reg: Registry, id: string, order: seq<string>, dead: set<Conn>, now: Long)
    requires Valid(reg) && Enumerates(order, reg.online.Keys)
    ensures var r0 := reg.(online := reg.online - {id});
      var leave := Broadcast(r0, NewMessage(USER_LEAVE, Server, All, Some(LeaveNotice(id)), now), Restrict(order, r0.online.Keys), dead);
      && Valid(leave.reg)
      && (forall k :: k in leave.reg.online <==> k in reg.online && k != id && reg.online[k] !in dead)
      && (forall k | k in leave.reg.online :: leave.reg.online[k] == reg.online[k])
  {
    var r0 := reg.(online := reg.online - {id});
    assert Valid(r0);
    RestrictEnumerates(order, reg.online.Keys, r0.online.Keys);
    var msg := NewMessage(USER_LEAVE, Server, All, Some(LeaveNotice(id)), now);
    var order0 := Restrict(order, r0.online.Keys);
    BroadcastEvictsDead(r0, msg, order0, dead);
    var leave := Broadcast(r0, msg, order0, dead);
    forall k ensures k in leave.reg.online <==> k in reg.online && k != id && reg.online[k] !in dead {
      assert k in r0.online <==> k in reg.online && k != id;
    }
  }

  /** `removeClient` of a present id is the leave broadcast followed by the list broadcast. */
  lemma RemoveClientSteps(reg: Registry, id: string, order: seq<string>, dead: set<Conn>, now: Long)
    requires Enumerates(order, reg.online.Keys)
    ensures var r0 := reg.(online := reg.online - {id});
      var order0 := Restrict(order, r0.online.Keys);
      Enumerates(order0, r0.online.Keys) &&
      var leave := Broadcast(r0, NewMessage(USER_LEAVE, Server, All, Some(LeaveNotice(id)), now), order0, dead);
      var order1 := Restrict(order0, leave.reg.online.Keys);
      Enumerates(order1, leave.reg.online.Keys) &&
      RemoveClient(reg, Some(id), order, dead, now).reg
        == Broadcast(leave.reg, NewMessage(USER_LIST, Server, All, Some(UserListPayload(order1)), now), order1, dead).reg
  {
    var r0 := reg.(online := reg.online - {id});
    RestrictEnumerates(order, reg.online.Keys, r0.online.Keys);
    var order0 := Restrict(order, r0.online.Keys);
    var leave := Broadcast(r0, NewMessage(USER_LEAVE, Server, All, Some(LeaveNotice(id)), now), order0, dead);
    RestrictEnumerates(order0, r0.online.Keys, leave.reg.online.Keys);
  }

  /**
   * A second broadcast with the same failing streams evicts nobody: the
   * first one already took out every id that a failed handler names.
   */
  lemma RebroadcastEvictsNone(reg: Registry, m1: Message<QQKind>, o1: seq<string>, m2: Message<QQKind>, o2: seq<string>, dead: set<Conn>)
    requires Enumerates(o1, reg.online.Keys)
    requires Enumerates(o2, Broadcast(reg, m1, o1, dead).reg.online.Keys)
    ensures var b := Broadcast(reg, m1, o1, dead).reg;
      Broadcast(b, m2, o2, dead).reg == b
  {
    var b := Broadcast(reg, m1, o1, dead).reg;
    BroadcastKeepsSurvivors(reg, b, m2, o2, dead);
  }

  /**
   * A broadcast over entries of `reg` that no failed handler names, with the
   * same `userId` fields, evicts nobody.
   */
  lemma BroadcastKeepsSurvivors(reg: Registry, b: Registry, msg: Message<QQKind>, order: seq<string>, dead: set<Conn>)
    requires Enumerates(order, b.online.Keys)
    requires b.bound == reg.bound
    requires forall j | j in b.online :: j in reg.online && b.online[j] == reg.online[j]
    requires forall k | k in b.online :: !EvictedBy(reg, dead, k)
    ensures Broadcast(b, msg, order, dead).reg == b
  {
    var c := Broadcast(b, msg, order, dead).reg;
    forall k | k in b.online ensures !EvictedBy(b, dead, k) {
      if EvictedBy(b, dead, k) {
        EvictedBySubmap(reg, b, dead, k);
      }
    }
    assert c.online.Keys == b.online.Keys;
    assert c.online == b.online;
  }

  /** An id a failed handler names in a smaller online map is named in the larger one too. */
  lemma EvictedBySubmap(reg: Registry, b: Registry, dead: set<Conn>, k: string)
    requires b.bound == reg.bound
    requires forall j | j in b.online :: j in reg.online && b.online[j] == reg.online[j]
    requires EvictedBy(b, dead, k)
    ensures EvictedBy(reg, dead, k)
  {
    var j :| j in b.online && b.online[j] in dead && b.online[j] in b.bound && b.bound[b.online[j]] == k;
    assert reg.online[j] in dead;
  }

  /**
   * `removeClient` sends the leave notice whether or not `id` was online: it
   * reaches every live handler online under another id.
   */
  lemma RemoveClientNotifiesAll(reg: Registry, id: string, order: seq<string>, dead: set<Conn>, now: Long)
    requires Enumerates(order, reg.online.Keys)
    ensures var out := RemoveClient(reg, Some(id), order, dead, now).out;
      forall g | g in (reg.online - {id}).Values && g !in dead ::
        exists n | 0 <= n < |out| :: out[n] == Delivery(g, NewMessage(USER_LEAVE, Server, All, Some(LeaveNotice(id)), now))
  {
    var r0 := reg.(online := reg.online - {id});
    RestrictEnumerates(order, reg.online.Keys, r0.online.Keys);
    var order0 := Restrict(order, r0.online.Keys);
    var msg := NewMessage(USER_LEAVE, Server, All, Some(LeaveNotice(id)), now);
    var leave := Broadcast(r0, msg, order0, dead);
    var out := RemoveClient(reg, Some(id), order, dead, now).out;
    var rest := out[|leave.out|..];
    assert out == leave.out + rest;
    forall g | g in r0.online.Values && g !in dead
      ensures exists n | 0 <= n < |out| :: out[n] == Delivery(g, msg)
    {
      DeliveredInPrefix(leave.out, rest, g, msg);
    }
  }

  lemma ConcatAssoc(a: seq<Delivery>, b: seq<Delivery>, c: seq<Delivery>)
    ensures a + (b + c) == (a + b) + c
  {
  }

  /** A broadcast appended to any output: its part carries `msg` to exactly the live online handlers. */
  lemma BroadcastTail(pre: seq<Delivery>, reg: Registry, msg: Message<QQKind>, order: seq<string>, dead: set<Conn>)
    requires Enumerates(order, reg.online.Keys)
    ensures var out := pre + Broadcast(reg, msg, order, dead).out;
      && (forall n | |pre| <= n < |out| :: out[n].msg == msg)
      && (forall g :: DeliveredTo(out[|pre|..], g) <==> g in reg.online.Values && g !in dead)
  {
    var b := Broadcast(reg, msg, order, dead).out;
    assert (pre + b)[|pre|..] == b;
  }

  /**
   * The online list that `removeClient` broadcasts after the leave notices
   * names the ids online at the end, in iteration order, and reaches exactly
   * the live handlers among them.
   */
  lemma RemoveClientListsAll(reg: Registry, id: string, order: seq<string>, dead: set<Conn>, now: Long)
    requires Enumerates(order, reg.online.Keys)
    ensures var r := RemoveClient(reg, Some(id), order, dead, now);
      exists j | 0 <= j <= |r.out| ::
        && AllOfKind(r.out[..j], USER_LEAVE)
        && BroadcastFrom(r.out, j, NewMessage(USER_LIST, Server, All, Some(Join(Restrict(order, r.reg.online.Keys), ';')), now),
             r.reg.online.Values - dead)
  {
    var r0 := reg.(online := reg.online - {id});
    RestrictEnumerates(order, reg.online.Keys, r0.online.Keys);
    var order0 := Restrict(order, r0.online.Keys);
    var msg0 := NewMessage(USER_LEAVE, Server, All, Some(LeaveNotice(id)), now);
    var leave := Broadcast(r0, msg0, order0, dead);
    var order1 := Restrict(order0, leave.reg.online.Keys);
    RestrictEnumerates(order0, r0.online.Keys, leave.reg.online.Keys);
    var msg1 := NewMessage(USER_LIST, Server, All, Some(UserListPayload(order1)), now);
    var users := Broadcast(leave.reg, msg1, order1, dead);
    var r := RemoveClient(reg, Some(id), order, dead, now);
    assert r == Step(users.reg, leave.out + users.out);
    RebroadcastEvictsNone(r0, msg0, order0, msg1, order1, dead);
    assert r.reg == leave.reg;
    RestrictTwice(order, r0.online.Keys, leave.reg.online.Keys);
    assert msg1 == NewMessage(USER_LIST, Server, All, Some(Join(Restrict(order, r.reg.online.Keys), ';')), now);
    BroadcastTail(leave.out, leave.reg, msg1, order1, dead);
    var j := |leave.out|;
    assert r.out[..j] == leave.out;
    assert AllOfKind(r.out[..j], USER_LEAVE);
    assert BroadcastFrom(r.out, j, msg1, r.reg.online.Values - dead);
  }

  /**
   * The online list that `addOnlineClient` broadcasts last names the ids
   * online at the end, in iteration order, and reaches exactly the live
   * handlers among them.
   */
  lemma AddOnlineClientListsAll(reg: Registry, id: string, h: Conn, order: seq<string>, dead: set<Conn>, now: Long)
    requires Enumerates(order, reg.online.Keys + {id})
    ensures var r := AddOnlineClient(reg, id, h, order, dead, now);
      exists j | 0 <= j <= |r.out| ::
        && Phases(r.out[..j], USER_JOIN, USER_LIST)
        && BroadcastFrom(r.out, j, NewMessage(USER_LIST, Server, All, Some(Join(Restrict(order, r.reg.online.Keys), ';')), now),
             r.reg.online.Values - dead)
  {
    var r0 := reg.(online := reg.online[id := h]);
    var msg0 := NewMessage(USER_JOIN, Server, All, Some(JoinNotice(id)), now);
    var join := Broadcast(r0, msg0, order, dead);
    var order1 := Restrict(order, join.reg.online.Keys);
    RestrictEnumerates(order, r0.online.Keys, join.reg.online.Keys);
    var msg1 := NewMessage(USER_LIST, Server, All, Some(UserListPayload(order1)), now);
    var list := SendUserList(join.reg, h, order1, dead, now);
    var users := Broadcast(join.reg, msg1, order1, dead);
    var r := AddOnlineClient(reg, id, h, order, dead, now);
    assert r == Step(users.reg, join.out + (list + users.out));
    RebroadcastEvictsNone(r0, msg0, order, msg1, order1, dead);
    assert r.reg == join.reg;
    assert msg1 == NewMessage(USER_LIST, Server, All, Some(Join(Restrict(order, r.reg.online.Keys), ';')), now);
    var pre := join.out + list;
    ConcatAssoc(join.out, list, users.out);
    BroadcastTail(pre, join.reg, msg1, order1, dead);
    var j := |pre|;
    assert r.out[..j] == pre;
    PhasesConcat(join.out, list, USER_JOIN, USER_LIST);
    assert Phases(r.out[..j], USER_JOIN, USER_LIST);
    assert BroadcastFrom(r.out, j, msg1, r.reg.online.Values - dead);
  }
}

=== FILE: user_directory.dfy ===
/**
 * The user directory of the QQ server (`UserManager`): a map from user id to
 * account, registration and login, and the users file `id|username|password`
 * that is rewritten after every registration and read back at start-up. The
 * Maven server's `UserManager` contains the same user map, registration,
 * login and users file line for line; `FriendDirectory` builds on this module.
 */
module UserDirectory {
  import opened Wrappers
  import opened JavaStrings
  import opened Common

  type Users = map<string, User>

  datatype Registered = Registered(users: Users, ok: bool)

  /**
   * `registerUser`: refuses (false, nothing changes) an id already present;
   * otherwise adds exactly one new, offline account under that id.
   */
  function RegisterUser(users: Users, id: string, username: string, password: string): (r: Registered)
    ensures r.ok <==> id !in users
    ensures !r.ok ==> r.users == users
    ensures r.users.Keys == users.Keys + {id}
    ensures forall k :: k in users ==> r.users[k] == users[k]
    ensures r.ok ==>
      && r.users[id].id == id && r.users[id].username == username
      && r.users[id].password == password && !r.users[id].isOnline
  {
    if id in users then Registered(users, false)
    else Registered(users[id := NewUser(id, username, password)], true)
  }

  /**
   * `login`: the stored account when the id is known and its password equals
   * the given one, `null` otherwise (the caller cannot tell which check failed).
   */
  function Login(users: Users, id: string, password: string): (r: Option<User>)
    ensures r.Some? <==> id in users && users[id].password == password
    ensures r.Some? ==> r.value == users[id]
  {
    if id in users && users[id].password == password then Some(users[id]) else None
  }

  /** `getUserById`: the registered account, or `null`. */
  function GetUserById(users: Users, id: string): (r: Option<User>)
    ensures r.Some? <==> id in users
    ensures r.Some? ==> r.value == users[id]
  {
    if id in users then Some(users[id]) else None
  }

  /** Registering a fresh id and logging in with its password yields that account. */
  lemma RegisterThenLogin(users: Users, id: string, username: string, password: string)
    requires id !in users
    ensures var r := Login(RegisterUser(users, id, username, password).users, id, password);
      r.Some? && r.value.id == id && r.value.username == username
  {
  }

  /** A second registration of an id fails and keeps every account as it was. */
  lemma RegisterTwice(users: Users, id: string, u1: string, p1: string, u2: string, p2: string)
    ensures var first := RegisterUser(users, id, u1, p1);
      var second := RegisterUser(first.users, id, u2, p2);
      !second.ok && second.users == first.users
  {
  }

  // ---------------------------------------------------------------------------
  // The users file
  // ---------------------------------------------------------------------------

  /**
   * One line of the users file. For a storable account it is one line of text
   * whose `|`-fields are the id, the user name and the password.
   */
  function EncodeUser(u: User): (line: string)
    ensures Storable(u) ==> OneLine(line) && Split(line, '|') == [u.id, u.username, u.password]
  {
    var line := u.id + "|" + u.username + "|" + u.password;
    assert line == u.id + ['|'] + u.username + ['|'] + u.password;
    if Storable(u) then
      SplitTriple(u.id, u.username, u.password, '|');
      line
    else line
  }

  /** A line is read only when it splits on `|` into exactly three fields. */
  function DecodeUser(line: string): (r: Option<User>)
    ensures r.Some? ==> !r.value.isOnline
    ensures r.Some? <==> |Split(line, '|')| == 3
  {
    var parts := Split(line, '|');
    if |parts| == 3 then Some(NewUser(parts[0], parts[1], parts[2])) else None
  }

  /**
   * What the users file can hold faithfully: no `|` inside a field, no line
   * break inside a field (`readLine` would cut the record there), and a
   * non-empty password (`split` would drop an empty last field).
   */
  predicate Storable(u: User)
  {
    && Free(u.id, '|') && Free(u.username, '|') && Free(u.password, '|')
    && OneLine(u.id) && OneLine(u.username) && OneLine(u.password)
    && u.password != ""
  }

  lemma DecodeEncodeUser(u: User)
    requires Storable(u) && !u.isOnline
    ensures DecodeUser(EncodeUser(u)) == Some(u)
  {
  }

  /**
   * `saveUsers`: one line per account, in the map's iteration order `order`;
   * when every account is storable each record takes exactly one line of text.
   */
  function SaveUsers(users: Users, order: seq<string>): (lines: seq<string>)
    ensures |lines| <= |order|
    ensures (forall k | k in order :: k in users) ==> |lines| == |order|
    ensures StorableDirectory(users) ==> AllOneLine(lines)
  {
    if |order| == 0 then []
    else
      var k := order[|order| - 1];
      SaveUsers(users, order[..|order| - 1]) + (if k in users then [EncodeUser(users[k])] else [])
  }

  /** `loadUsers`: lines in file order; a later line for the same id replaces the earlier one. */
  function LoadUsers(lines: seq<string>): (users: Users)
    ensures forall k :: k in users ==> users[k].id == k && !users[k].isOnline
  {
    if |lines| == 0 then map[]
    else
      var users := LoadUsers(lines[..|lines| - 1]);
      match DecodeUser(lines[|lines| - 1])
      case Some(u) => users[u.id := u]
      case None => users
  }

  predicate StorableDirectory(users: Users)
  {
    forall k :: k in users ==> users[k].id == k && Storable(users[k]) && !users[k].isOnline
  }

  /**
   * Reading back what was saved, whatever the iteration order, restores the
   * accounts that order visited.
   */
  lemma {:induction false} LoadSavePrefix(users: Users, order: seq<string>)
    requires StorableDirectory(users)
    ensures LoadUsers(SaveUsers(users, order)) == map k | k in users && k in order :: users[k]
  {
    if |order| > 0 {
      var pre := order[..|order| - 1];
      var k := order[|order| - 1];
      LoadSavePrefix(users, pre);
      assert order == pre + [k];
      Visited(users, pre, k);
      var before := SaveUsers(users, pre);
      if k in users {
        assert SaveUsers(users, order) == before + [EncodeUser(users[k])];
        LoadUsersStep(before, users[k]);
      } else {
        assert SaveUsers(users, order) == before;
      }
    }
  }

  /** The accounts an order visits, one key longer. */
  lemma Visited(users: Users, pre: seq<string>, k: string)
    requires StorableDirectory(users)
    ensures var seen := map j | j in users && j in pre :: users[j];
      (map j | j in users && j in pre + [k] :: users[j])
        == if k in users then seen[users[k].id := users[k]] else seen
  {
  }

  /** Reading one more saved line adds its account, replacing one under the same id. */
  lemma LoadUsersStep(before: seq<string>, u: User)
    requires Storable(u) && !u.isOnline
    ensures LoadUsers(before + [EncodeUser(u)]) == LoadUsers(before)[u.id := u]
  {
    var lines := before + [EncodeUser(u)];
    assert lines[..|lines| - 1] == before;
    DecodeEncodeUser(u);
  }

  /**
   * The users file round-trip: saving every account in any iteration order,
   * with either line separator, and reading the file back line by line gives
   * back the same directory, provided no field contains `|` or a line break
   * and no password is empty.
   */
  lemma LoadSaveUsers(users: Users, order: seq<string>, sep: string)
    requires StorableDirectory(users)
    requires Enumerates(order, users.Keys)
    requires LineSeparator(sep)
    ensures LoadUsers(ReadLines(WriteLines(SaveUsers(users, order), sep))) == users
  {
    ReadWriteLines(SaveUsers(users, order), sep);
    LoadSavePrefix(users, order);
  }
}

=== FILE: wrappers.dfy ===
/** Optional values: the model's stand-in for a Java reference that may be null. */
module Wrappers {

  datatype Option<+T> = None | Some(value: T) {

    /** The value, or `default` when absent (Java's `getOrDefault`). */
    function GetOr(default: T): T
    {
      match this
      case Some(v) => v
      case None => default
    }
  }
}
